=== FILE: README.md ===
# Ledgerly core in Dafny

Ledgerly is a personal cash-book service. Each user keeps cashbooks. A
cashbook holds income and expense transactions, and transactions can be tagged
with the user's categories. This project models the server's request handlers
as pure functions over an abstract database (`Ledger.Store`), and proves the
invariants the handlers are meant to keep. The modelled parts are:

- the transaction, cashbook, category and authentication controllers;
- the zod request schemas;
- the `prepare` helper and the `ApiFeatures` pagination and search filter;
- the `protect` middleware and the global error handler;
- the add/remove diff and the type filter of the front end's category
  assignment dialog.

Tables are sequences of keyed rows with an auto-increment counter. Money is
integer cents. A JSON number in a request body is `Num(cents)`. A handler
returns a `Step`, which is the reply (status code and value, or an
`AppError`) together with the store after the handler's SQL statements.
Hashing, JWT signing and verification, and the email-format test are
parameters.

Modules:

- `Tables`: keyed rows, lookup, insert, delete, update, filter, and the
  LIMIT/OFFSET window.
- `Ledger`: entities, ownership lookups, transaction totals, and the
  balance invariant with its recomputation.
- `JsValues`, `Zod`, `Prepare`, `Text`: JSON bodies, zod checks and the
  error map, `Object.keys` order, and string helpers.
- `TransactionSchema`, `CashbookSchema`, `CategorySchema`, `AuthSchema`,
  `KindSchema`: the request schemas.
- `ApiFeatures`: `paginate` and `filter`.
- `Protect`, `ErrorController`, `AuthController`.
- `TransactionController`, `CashbookController`, `CategoryController`.
- `CategoryAssignment`: the dialog's diff, the requests its submit
  dispatches, and its category filter.

### Where the documented behaviour and the code differ

The model follows the code. The exceptions are the four defects under
"## Findings": for each, one member models the code as written and shows
the failure, and the rest of the model uses a corrected member. So the
transaction create and update handlers the balance lemmas talk about are
the corrected ones (rows marked "Corrected:").

- **What `current_balance` holds.** The documented invariant is "current
  balance = initial balance + signed sum of the cashbook's transactions".
  `updateCashbookBalance` (server/controllers/transaction.controller.js:9-25)
  stores income minus expense, with no initial balance. So the invariant
  proved here is `Ledger.BalancesHold`: stored balance = income − expense.
- **The balance endpoint's output.** It returns `stored_balance`,
  `calculated_balance` and `net_balance = initial_balance + calculated_balance`.
  It has no `current_balance` field.
- **Atomicity.** There are no SQL transactions and no rollback. A write and
  the recomputation that follows it are separate statements. A failure in
  between is modelled where the code can produce one. The example is the
  re-fetch of an updated transaction whose cashbook is gone.

## Model

| member | source | states |
|---|---|---|
| Tables.Insert | server/controllers/transaction.controller.js:107-112 | An auto-increment insert keeps keys unique and below the counter. It adds exactly the new key, puts the row last and leaves the other rows in place. |
| Tables.Remove | server/controllers/transaction.controller.js:215-218 | `DELETE ... WHERE id = ?` removes exactly that key. Every other row survives and no row is invented. |
| Tables.Update | server/controllers/transaction.controller.js:169-174 | `UPDATE ... WHERE id = ?` rewrites only the rows with that key and keeps the row count. |
| Tables.Where | server/controllers/category.controller.js:9-33 | A `WHERE` filter returns exactly the rows satisfying the predicate. |
| Tables.Window | server/helpers/apiFeatures.js:63-71 | `LIMIT ? OFFSET ?` fails on a negative bound. Otherwise row i of the page is row offset + i of the input, and the page runs to offset + limit or to the end of the input, whichever comes first (empty past the end). |
| Tables.WindowsTile | server/helpers/apiFeatures.js:63 | Two consecutive pages of size n are the page of size 2n at the same offset, so paging loses and repeats nothing. |
| Tables.WindowWhole | server/helpers/apiFeatures.js:59-71 | A limit at least the table's size returns the whole table from offset 0. |
| Tables.FindUnique | server/controllers/transaction.controller.js:62-79 | With unique keys, a lookup by key agrees with every row carrying that key. |
| Ledger.OwnedTxn | server/controllers/transaction.controller.js:62-67 | `WHERE transaction_id = ? AND user_id = ?` finds a row only if it exists and belongs to the requester. |
| Ledger.OwnedCashbook | server/controllers/cashbook.controller.js:25-39 | A cashbook is found only if it exists and belongs to the requester. |
| Ledger.OwnedCategory | server/controllers/category.controller.js:35-49 | A category is found only if it exists and belongs to the requester. |
| Ledger.Total | server/controllers/transaction.controller.js:10-17 | A SUM over rows with no negative amount is never negative. |
| Ledger.Net | server/controllers/transaction.controller.js:10-18 | The income − expense that `updateCashbookBalance` computes from two SUMs equals the one-pass signed sum. |
| Ledger.SignedIsNet | server/controllers/transaction.controller.js:10-19 | The signed sum (income positive, expense negative) equals total income minus total expense. |
| Ledger.TotalAppend | server/controllers/transaction.controller.js:10-17 | Appending a transaction changes a SUM only if the transaction is in scope and of the summed type. |
| Ledger.TotalRemoveOutside | server/controllers/transaction.controller.js:215-225 | Deleting a transaction outside a cashbook leaves that cashbook's sums unchanged. |
| Ledger.TotalUpdateOutside | server/controllers/transaction.controller.js:169-195 | Updating a transaction that stays outside a cashbook leaves that cashbook's sums unchanged. |
| Ledger.Recompute | server/controllers/transaction.controller.js:9-25 | `updateCashbookBalance` touches only the cashbooks table. It sets the addressed cashbook's stored balance to income − expense over its transactions and leaves every other row as it was. |
| Ledger.RecomputeWf | server/controllers/transaction.controller.js:21-24 | Recomputing a balance keeps the store well formed. |
| Ledger.RecomputeExcept | server/controllers/transaction.controller.js:128 | If only cashbook `cb` (and a set `skip`) may be out of date, recomputing `cb` leaves only `skip` out of date. |
| Ledger.RecomputeBoth | server/controllers/transaction.controller.js:189-195 | If only the old and new cashbooks of a moved transaction are stale, recomputing both restores the invariant everywhere. |
| Ledger.AppendHoldsExcept | server/controllers/transaction.controller.js:107-112 | Inserting a transaction can invalidate only its own cashbook's balance. |
| Ledger.RecomputeRestores | server/controllers/transaction.controller.js:225 | Recomputing the single stale cashbook restores the invariant. |
| JsValues.GetKeys | server/helpers/prepare.js:2-3 | A body field is readable exactly when its key is among the object's keys. |
| Prepare.Prepare | server/helpers/prepare.js:1-6 | Keys come in `Object.keys` order and are pairwise distinct. The i-th value is the value stored under the i-th key, and every key of the object appears. |
| Zod.ZString | server/helpers/schemas/transaction.schema.js:13-18 | A string schema accepts exactly a string meeting every check, and a string that fails reports exactly its failed checks. A missing field gives the custom required message, else "Required". |
| Zod.ZNumber | server/helpers/schemas/transaction.schema.js:10-12 | A number schema accepts exactly a number meeting every check. A failing number reports exactly the messages of its failed checks, in check order. A non-number reports zod's one type-mismatch issue, and a missing field "Required". |
| Zod.StrFailures | server/helpers/schemas/auth.schema.js:6-8 | zod runs every string check. The message of each failed check is reported, every reported message comes from a failed check, and none is reported exactly when all hold. |
| Zod.StrFailuresAppend | server/helpers/schemas/auth.schema.js:6-8 | The issues of a chain of checks are the issues of its first part followed by those of the rest, so there is one issue per failed check, in check order. |
| Zod.Sized | server/helpers/schemas/category.schema.js:4-6 | `z.string().min(lo).max(hi)` accepts exactly a string whose length is within the bounds. Too short reports only the `min` message, too long only the `max` message, and a missing field "Required". |
| Zod.NumFailures | server/helpers/schemas/transaction.schema.js:10-12 | Every number check runs. The message of each failed check is reported, only such messages are, and none is reported exactly when all hold. |
| Zod.NumFailuresPair | server/helpers/schemas/transaction.schema.js:10-12 | Two number checks report the first check's message if it fails, followed by the second's if it fails. |
| Zod.ZBool | server/helpers/schemas/cashbook.schema.js:13-14 | A boolean schema accepts exactly booleans. |
| Zod.ZEnum | server/helpers/schemas/transaction.schema.js:7-9 | An enum accepts exactly the listed strings; otherwise it reports the enum's one message. |
| Zod.Optional | server/helpers/schemas/transaction.schema.js:28-31 | `.optional()` accepts a missing field as absent and otherwise defers to the inner schema. |
| Zod.Default | server/helpers/schemas/cashbook.schema.js:10-12 | `.default(d)` yields d for a missing field and otherwise defers to the inner schema. |
| Zod.ErrorMap | server/controllers/transaction.controller.js:85-86 | Every entry of the 422 field map is the message of some issue about that field. |
| Zod.ErrorMapFields | server/controllers/transaction.controller.js:84-89 | The 422 field map has an entry for exactly the fields that have an issue. |
| Zod.ErrorMapLastWins | server/controllers/transaction.controller.js:86 | For a field, the map holds the message of the field's last issue. |
| Text.Split | server/middlewares/protect.js:16 | `split(c)` gives at least one piece, and no piece contains the separator. |
| Text.SplitOne | server/middlewares/protect.js:16 | There is more than one piece exactly when the separator occurs in the string. |
| Text.SplitJoin | server/middlewares/protect.js:16 | `split(' ')` loses nothing: joining the pieces with the separator gives back the header. |
| Text.SplitAfterPrefix | server/middlewares/protect.js:16 | After a separator-free prefix and one separator, the rest of the header splits on its own. |
| TransactionSchema.CashbookIdField | server/helpers/schemas/transaction.schema.js:4-6 | `cashbook_id` is accepted exactly when it is a positive integer, and the key is that integer. A fraction reports "Cashbook ID must be an integer", and a value of 0 or less reports "Cashbook ID must be positive". |
| KindSchema.KindField | server/helpers/schemas/transaction.schema.js:7-9 | `type` (the same enum in the transaction and category schemas) is accepted exactly for "income" or "expense". Any failure, a missing field included, reports the enum's one custom message. |
| TransactionSchema.AmountField | server/helpers/schemas/transaction.schema.js:10-12 | `amount` is accepted exactly when positive and at most 999999999.99. A value of 0 or less reports only "Amount must be positive", and a larger one only "Amount cannot exceed 999,999,999.99". |
| TransactionSchema.SourcePersonField | server/helpers/schemas/transaction.schema.js:13-15 | `source_person` is accepted exactly as a string of 1 to 150 characters. |
| TransactionSchema.DescriptionField | server/helpers/schemas/transaction.schema.js:16-18 | `description` is accepted exactly as a string of at most 1000 characters. |
| TransactionSchema.DateField | server/helpers/schemas/transaction.schema.js:19-21 | `transaction_date` is accepted exactly as a YYYY-MM-DD-shaped string or a Date. |
| TransactionSchema.CategoryIdsField | server/helpers/schemas/transaction.schema.js:22-24 | `category_ids` defaults to an empty list and otherwise must be an array of positive integers. The i-th id is the array's i-th number. |
| TransactionSchema.ValidateCreate | server/helpers/schemas/transaction.schema.js:3-25 | The create schema accepts exactly the bodies meeting every field rule. Each parsed field is the body's value for it: cashbook, type, amount, source person, description when present, the date as string or Date, and the category ids element by element. A rejection has at least one issue and names only schema fields. |
| TransactionSchema.ParseUpdate | server/helpers/schemas/transaction.schema.js:27-53 | Every update field is optional. A present field must meet its create-time rule, and an absent one stays absent in the patch. Each value in the patch is the one its field carried: cashbook id, type, amount, source person, description, date, and the category ids item by item. |
| TransactionSchema.ValidateUpdate | server/helpers/schemas/transaction.schema.js:27-53 | The update schema accepts exactly the bodies whose present fields are valid. Only present fields reach the patch, each with the value the body gave it. |
| NameSchema.NameField | server/helpers/schemas/cashbook.schema.js:4-6 | The name of a cashbook (and, with "Category", of a category) is accepted exactly when it is a string of 1 to 100 characters, and is kept as given. An empty name reports "<entity> name is required" and a longer one "<entity> name must be less than 100 characters". |
| CashbookSchema.ValidateCreate | server/helpers/schemas/cashbook.schema.js:3-15 | A cashbook needs a 1-100 character name and a non-negative initial balance. The description is optional, up to 500 characters, and `is_active` defaults to true. |
| CashbookSchema.ValidateUpdate | server/helpers/schemas/cashbook.schema.js:17-30 | Every cashbook field is optional on update, with the create-time rules for those present. |
| CashbookSchema.EmptyUpdateAccepted | server/helpers/schemas/cashbook.schema.js:17-30 | An empty body passes the update schema as an all-absent patch. |
| CategorySchema.ValidateCreate | server/helpers/schemas/category.schema.js:3-10 | A category needs a 1-100 character name and a type of "income" or "expense". A bad type is reported with the enum's message. |
| CategorySchema.ValidateUpdate | server/helpers/schemas/category.schema.js:12-20 | Both category fields are optional on update, with the create-time rules for those present. |
| AuthSchema.EmailField | server/helpers/schemas/auth.schema.js:5 | The email must be a string the email test accepts. Otherwise a custom message is given: one for a bad address, one for a missing value. |
| AuthSchema.PasswordField | server/helpers/schemas/auth.schema.js:6-8 | The password must be a string of at least 8 characters, with a custom message otherwise. |
| AuthSchema.ValidateRegister | server/helpers/schemas/auth.schema.js:3-9 | Registration accepts exactly a body with a string name, a valid email and a valid password. A missing name is reported. |
| AuthSchema.ValidateLogin | server/helpers/schemas/auth.schema.js:11-18 | Login accepts exactly a valid email and a valid password. |
| AuthSchema.RegisterImpliesLogin | server/helpers/schemas/auth.schema.js:3-18 | Every valid registration body is a valid login body with the same credentials. |
| ApiFeatures.CeilDiv | server/helpers/apiFeatures.js:66 | `Math.ceil(a / b)` for a positive divisor: the least q with q·b ≥ a. |
| ApiFeatures.PageCount | server/helpers/apiFeatures.js:65-66 | `totalPage` is the ceiling of count / limit. A zero limit gives Infinity, or NaN for an empty table. A negative limit gives the (non-positive) ceiling. |
| ApiFeatures.Paginate | server/helpers/apiFeatures.js:58-79 | page defaults to 1 and limit to 50. The query gains `LIMIT ? OFFSET ?` with values [limit, (page − 1)·limit]. `totalPage` pages of `limit` cover the table, and one page fewer does not. |
| ApiFeatures.PaginateDefaults | server/helpers/apiFeatures.js:59-66 | With no page or limit, the first 50 rows are asked for, and the page count is count/50 rounded up. |
| ApiFeatures.Likes | server/helpers/apiFeatures.js:31-33 | One `LIKE '%term%'` clause per field, in field order. |
| ApiFeatures.Filter | server/helpers/apiFeatures.js:28-34 | The search clause is empty exactly when the term is missing or empty, or there are no fields. |
| ApiFeatures.FilterAppend | server/helpers/apiFeatures.js:31-33 | Adding a field appends ` OR <field> LIKE '%term%'` to the clause. |
| ApiFeatures.FilterOne | server/helpers/apiFeatures.js:31-33 | For one field the clause is `<field> LIKE '%term%'`. |
| Protect.SecondPiece | server/middlewares/protect.js:16 | `split(' ')[1]` is defined exactly when the header contains a space. It is then the second piece of the split and holds no space. |
| Protect.TokenOf | server/middlewares/protect.js:10-17 | A non-empty cookie token wins. Otherwise a header starting with "Bearer" supplies exactly `split(' ')[1]` (`SecondPiece`), and anything else supplies no token. |
| Protect.BearerToken | server/middlewares/protect.js:15-17 | `Authorization: Bearer <t>` yields exactly t when there is no cookie. |
| Protect.BareBearerRejected | server/middlewares/protect.js:15-21 | A header of just "Bearer" has no second piece, so the request is refused with 401. |
| Protect.Protect | server/middlewares/protect.js:7-37 | No token gives 401 "not logged in". A token the verifier rejects makes the guard throw exactly the verifier's error, and a thrown error comes only from the verifier. A valid token for a missing user gives 401. Otherwise the request passes with that user. |
| Protect.ValidTokenPasses | server/middlewares/protect.js:23-36 | A token decoding to an existing user's key lets the request through as that user. |
| Protect.MissingUserDenied | server/middlewares/protect.js:27-33 | A token for a key no longer in `users` is refused with the "no longer exist" 401. |
| ErrorController.Normalise | server/controllers/error.controller.js:34-39 | Status defaults to "error" and code to 500. A non-empty SQL message replaces the message, and the error's own fields override the defaults. |
| ErrorController.SendProd | server/controllers/error.controller.js:19-31 | In production, non-API URLs get no reply. Operational errors send their own code, status and message. Others are masked as 500 "Something went wrong!". |
| ErrorController.Handle | server/controllers/error.controller.js:33-69 | A 422 whose message is not a field map crashes the handler. Other environments send nothing. Development sends the error's own code and message. Production answers as `sendErrorProd` on the normalised error, except that a `JsonWebTokenError` or `TokenExpiredError` is first replaced by the matching 401 `ErrorStack`. |
| ErrorController.ValidationErrorKeepsFields | server/controllers/error.controller.js:50-52 | A validation error reaches the client as 422 with its field map intact. |
| ErrorController.TokenErrorsBecome401 | server/controllers/error.controller.js:57-63 | In production, an invalid or expired JWT on an API route is answered with 401 and the matching message. |
| ErrorController.DatabaseErrorMasked | server/controllers/error.controller.js:26-29 | In production, a raw database error on an API route is masked as a generic 500. |
| ErrorController.DatabaseErrorShownInDevelopment | server/controllers/error.controller.js:33-55 | In development, the client sees a database error's SQL message with code 500. |
| AuthController.UserByEmail | server/controllers/auth.controller.js:85-87 | The login lookup returns a row with that email, and none only when no user has it. |
| AuthController.SendToken | server/controllers/auth.controller.js:20-40 | The reply carries the signed token for the user's key, a cookie with that token expiring after the configured minutes, and the user without the password. |
| AuthController.Register | server/controllers/auth.controller.js:42-67 | An invalid body gives 422 and changes nothing, and a 422 means the body was invalid. A valid body with a fresh email inserts the user with the hashed password and logs them in with 201. A valid body with a taken email gives the database's 500 and changes nothing. |
| AuthController.Login | server/controllers/auth.controller.js:69-94 | Login never writes. An invalid body gives 422, and an empty email or password gives 400. Success happens exactly when the first user with that email (the row `SELECT ... WHERE email = ?` yields) has a matching hash: it answers 200 as that user. A 401 is always "Incorrect email or password". |
| AuthController.WrongPasswordRefused | server/controllers/auth.controller.js:85-91 | A wrong password for the user with that email is refused with the same 401 "Incorrect email or password" as an unknown email. |
| AuthController.UnknownEmailRefused | server/controllers/auth.controller.js:85-91 | Logging in with an email nobody has is refused with 401. |
| AuthController.UserByEmailAppend | server/controllers/auth.controller.js:54-60 | After registering a fresh email, looking it up finds the new user. |
| AuthController.RegisterThenLogin | server/controllers/auth.controller.js:42-94 | After a successful registration, logging in with the same email and password succeeds. |
| AuthController.Logout | server/controllers/auth.controller.js:100-106 | Logout overwrites the cookie with an empty value that expires in 10 seconds, and answers 200. |
| TransactionController.CategoryIdsReachInsert | server/controllers/transaction.controller.js:101-112 | As written, the INSERT column list includes `category_ids`, which is not a column of `transactions`. |
| TransactionController.CreateDataRefused | server/controllers/transaction.controller.js:101-112 | As written, the database refuses the INSERT, whatever the valid body. |
| TransactionController.RowDataRuns | server/scripts/seed.js:110 | The corrected INSERT names only real columns and at least one, so the database runs it. |
| TransactionController.NewRow | server/controllers/transaction.controller.js:102-105 | The stored row belongs to the requester and holds, column by column, exactly the value the corrected INSERT supplies (NULL for an absent description). |
| TransactionController.RowDataColumnsExist | server/scripts/seed.js:110 | The corrected insert data names only real `transactions` columns, and includes `user_id`. |
| TransactionController.CategoryIdsReachUpdate | server/controllers/transaction.controller.js:169-174 | As written, every UPDATE names `category_ids`, even when the body gave no fields. |
| TransactionController.UpdateDataRefused | server/controllers/transaction.controller.js:169-174 | As written, the database refuses the UPDATE, whatever the patch. |
| TransactionController.PatchRuns | server/controllers/transaction.controller.js:169-174 | The corrected UPDATE runs exactly when the patch supplies at least one field. |
| TransactionController.PatchColumnsExist | server/controllers/transaction.controller.js:169-174 | The corrected UPDATE names only real columns, and has no SET list exactly when the patch is empty. |
| TransactionController.Entry | server/controllers/transaction.controller.js:169 | A patch field contributes one column when present and none when absent. |
| TransactionController.PatchColumns | server/controllers/transaction.controller.js:169-174 | An update writes only existing columns, never `user_id`, each at most once. |
| TransactionController.PatchColumnsAreTheUpdate | server/controllers/transaction.controller.js:169-174 | The corrected UPDATE writes exactly the patch: a column it SETs takes the supplied value (which `ApplyPatch` stores), and every other column keeps its value. |
| TransactionController.ListTransactions | server/controllers/transaction.controller.js:27-60 | A negative LIMIT or OFFSET is a failure. Otherwise the page has at most `limit` rows, and each is the requester's transaction in an existing cashbook, matching the cashbook and non-empty type filters. |
| TransactionController.ListShowsAllMatching | server/controllers/transaction.controller.js:27-60 | Conversely, with a large enough limit every matching transaction is listed. |
| TransactionController.GetTransaction | server/controllers/transaction.controller.js:62-79 | A transaction is returned exactly when it is the requester's and its cashbook exists (the JOIN). Otherwise 404. |
| TransactionController.TransactionStats | server/controllers/transaction.controller.js:233-268 | An unowned `cashbook_id` gives 404. Otherwise the stats are the count, income, expense and net over the requester's transactions, optionally in one cashbook. |
| TransactionController.CountIsWhere | server/controllers/transaction.controller.js:253-262 | `COUNT(*)` equals the number of rows the `WHERE` selects. |
| TransactionController.CreateTransaction | server/controllers/transaction.controller.js:81-135 | Corrected: the INSERT carries only the row's columns. 422 on an invalid body, 404 when the cashbook is not the requester's. A valid body for an owned cashbook always succeeds: it inserts the requester's transaction, recomputes that cashbook and answers 201. Failure writes nothing. |
| TransactionController.CreateTransactionAsWritten | server/controllers/transaction.controller.js:81-135 | As written: 422 on an invalid body, 404 for an unowned cashbook, and a 500 for every valid owned create. The store never changes. |
| TransactionController.InsertTxnWf | server/controllers/transaction.controller.js:107-112 | Inserting a transaction into an existing cashbook keeps the store well formed. |
| TransactionController.CreateKeepsBalances | server/controllers/transaction.controller.js:107-128 | Creating a transaction keeps every stored balance equal to income − expense. |
| TransactionController.ApplyPatch | server/controllers/transaction.controller.js:169-174 | An update changes exactly the supplied fields and never the owner. |
| TransactionController.UpdateTransaction | server/controllers/transaction.controller.js:137-202 | Corrected: `category_ids` is kept out of the UPDATE. An invalid body gives 422 and writes nothing. A valid body behaves as `ApplyUpdate` on the parsed patch. |
| TransactionController.UpdateTransactionAsWritten | server/controllers/transaction.controller.js:137-202 | As written: an invalid body gives 422, a valid one behaves as `ApplyUpdateAsWritten`, and the store never changes. |
| TransactionController.ApplyUpdateAsWritten | server/controllers/transaction.controller.js:147-174 | As written, after validation: 404 for an unowned transaction or target cashbook, otherwise a 500. The store never changes. |
| TransactionController.ApplyUpdate | server/controllers/transaction.controller.js:147-202 | Corrected: the SET list holds the supplied row columns only. Unowned transaction: 404. Unowned target cashbook: 404. Empty patch: a 500 that writes nothing. A non-empty patch of an owned transaction succeeds unless it stays in a cashbook that no longer exists. Success answers 200 with the patched row and recomputes the old cashbook, and the new one too when it moved. A dangling cashbook gives a 500 after the write. |
| TransactionController.PatchedWf | server/controllers/transaction.controller.js:157-174 | An update whose target cashbook was checked keeps the store well formed. |
| TransactionController.PatchedKeepsOthers | server/controllers/transaction.controller.js:169-174 | Patching a transaction changes no sums of cashbooks other than its old and new one. |
| TransactionController.PatchedHoldsExcept | server/controllers/transaction.controller.js:169-195 | After the UPDATE, only the old and new cashbooks may have stale balances. |
| TransactionController.PatchedDanglingHolds | server/controllers/transaction.controller.js:180-187 | When the re-fetch fails because the cashbook is gone, the invariant still holds for every existing cashbook. |
| TransactionController.ApplyUpdateKeepsBalances | server/controllers/transaction.controller.js:189-195 | Every update outcome keeps stored balances equal to income − expense. |
| TransactionController.UpdateKeepsBalances | server/controllers/transaction.controller.js:137-202 | The update handler as a whole keeps the balance invariant. |
| TransactionController.DeleteTransaction | server/controllers/transaction.controller.js:204-231 | 404 exactly when the transaction is not the requester's, and success otherwise. Success removes exactly that key and recomputes its cashbook. |
| TransactionController.DeleteKeepsBalances | server/controllers/transaction.controller.js:215-225 | Deleting a transaction keeps the balance invariant. |
| CashbookController.ListCashbooks | server/controllers/cashbook.controller.js:8-23 | A negative LIMIT/OFFSET gives 500. Otherwise at most `limit` rows are returned, all the requester's. |
| CashbookController.ListShowsAllOwned | server/controllers/cashbook.controller.js:8-23 | With a large enough limit every cashbook of the requester is listed. |
| CashbookController.GetCashbook | server/controllers/cashbook.controller.js:25-39 | A cashbook is returned exactly when it is the requester's; otherwise 404. |
| CashbookController.CreateCashbook | server/controllers/cashbook.controller.js:41-79 | 422 on an invalid body. Otherwise the requester's cashbook is inserted with stored balance 0 and returned with 201. |
| CashbookController.FreshCashbookNet | server/controllers/cashbook.controller.js:59-62 | No transaction refers to the next cashbook key, so a new cashbook's balance of 0 is already correct. |
| CashbookController.CreateKeepsBalances | server/controllers/cashbook.controller.js:41-79 | Creating a cashbook keeps the balance invariant. |
| CashbookController.ApplyPatch | server/controllers/cashbook.controller.js:101-106 | A cashbook update changes exactly the supplied fields and never the owner or the stored balance. |
| CashbookController.UpdateCashbook | server/controllers/cashbook.controller.js:81-123 | 422, 404, or the database's 500 for an empty patch, each writing nothing. A valid non-empty update of an owned cashbook always answers 200 with the patched cashbook. |
| CashbookController.PatchedKeepsInvariants | server/controllers/cashbook.controller.js:101-106 | Patching a cashbook keeps the store well formed and the balances right, and touches no transaction and no other cashbook. |
| CashbookController.UpdateKeepsInvariants | server/controllers/cashbook.controller.js:81-123 | The update handler keeps the invariants and touches only the addressed cashbook. |
| CashbookController.DeleteCashbook | server/controllers/cashbook.controller.js:125-149 | 404 exactly when the cashbook is not the requester's, and success otherwise. Success removes exactly that key. |
| CashbookController.DeleteKeepsInvariants | server/controllers/cashbook.controller.js:125-149 | Deleting a cashbook keeps the store well formed and the remaining balances right. |
| CashbookController.CashbookBalance | server/controllers/cashbook.controller.js:151-188 | 404 exactly when unowned. Otherwise income and expense are the cashbook's sums, calculated = income − expense, stored is the column, and net = initial + calculated. |
| CashbookController.BalanceAgrees | server/controllers/cashbook.controller.js:173-182 | Under the balance invariant, the stored and calculated balances agree, and net = initial + stored. |
| CategoryController.ListCategories | server/controllers/category.controller.js:9-33 | A negative LIMIT/OFFSET gives 500. Otherwise at most `limit` rows come back, all the requester's and of the requested type when one is given. |
| CategoryController.ListShowsAllMatching | server/controllers/category.controller.js:9-33 | With a large enough limit every matching category is listed. |
| CategoryController.GetCategory | server/controllers/category.controller.js:35-49 | A category is returned exactly when it is the requester's; otherwise 404. |
| CategoryController.CreateCategory | server/controllers/category.controller.js:51-99 | 422 on an invalid body. 400 when the requester already has that name and type. Otherwise the category is inserted and returned with 201. |
| CategoryController.CreateKeepsUnique | server/controllers/category.controller.js:61-82 | Creating a category never duplicates a (user, name, type). |
| CategoryController.OtherTypeAccepted | server/controllers/category.controller.js:61-69 | The same name under the other type is accepted. |
| CategoryController.ApplyPatch | server/controllers/category.controller.js:133-142 | A category update changes exactly the supplied fields and never the owner. |
| CategoryController.UpdateCategory | server/controllers/category.controller.js:101-155 | As written: 422, then 404. A duplicate is checked only when a name is supplied. An empty patch gives 500. Success answers 200 with the patched category. |
| CategoryController.TypeOnlyUpdateDuplicates | server/controllers/category.controller.js:121-131 | A store with "Food" as income and as expense. Switching the expense one to income is accepted and leaves two identical categories. |
| CategoryController.UpdateCategoryChecked | server/controllers/category.controller.js:121-131 | Corrected update: any non-empty patch is refused with 400 when the resulting name and type belong to another of the requester's categories. |
| CategoryController.UpdateCheckedKeepsUnique | server/controllers/category.controller.js:101-155 | The corrected update keeps (user, name, type) unique. |
| CategoryController.DeleteCategory | server/controllers/category.controller.js:157-191 | 404 when unowned, 400 when a transaction still uses it. Success exactly otherwise, removing that key. |
| CategoryController.DeleteKeepsLinksResolved | server/controllers/category.controller.js:168-185 | Since a category in use is never deleted, every link still names an existing category. |
| CategoryController.AssignCategory | server/controllers/category.controller.js:236-287 | 400 when either id is missing or 0, 404 for an unowned transaction or category (a negative id matches no row), 400 when already linked. Otherwise the link is inserted with 201. |
| CategoryController.AssignKeepsLinksUnique | server/controllers/category.controller.js:263-281 | Assigning never links the same category to a transaction twice. |
| CategoryController.Unlink | server/controllers/category.controller.js:312-315 | `DELETE` keeps exactly the other links. Its `affectedRows` is the number removed, 0 exactly when the pair was not linked. |
| CategoryController.UnlinkCount | server/controllers/category.controller.js:312-319 | Kept plus removed equals the original count; none removed iff none matched. |
| CategoryController.MatchesAtMostOne | server/controllers/category.controller.js:317-319 | With unique links, `affectedRows` is at most 1. |
| CategoryController.WhereAll | server/controllers/category.controller.js:312-315 | Deleting an absent link leaves the table as it was. |
| CategoryController.RemoveCategory | server/controllers/category.controller.js:289-325 | 404 for an unowned transaction or category. A success leaves the pair unlinked. For an owned transaction and category, an absent link gives 500 "Couldn't remove category from transaction!" and changes nothing. |
| CategoryController.RemoveLinkOutcome | server/controllers/category.controller.js:312-319 | With unique links, removal succeeds exactly when the pair was linked. |
| CategoryAssignment.Without | frontend/src/components/CategoryAssignmentModal.tsx:54-57 | `xs.filter(id => !excluded.includes(id))` keeps exactly the elements not excluded. |
| CategoryAssignment.Plan | frontend/src/components/CategoryAssignmentModal.tsx:50-57 | The ids to add are exactly the chosen ids not currently linked, and the ids to remove exactly the linked ids no longer chosen. An absent list reads as empty. |
| CategoryAssignment.PlanSeparates | frontend/src/components/CategoryAssignmentModal.tsx:49-57 | Ids to add are not current. Ids to remove are current. No id is both added and removed. |
| CategoryAssignment.PlanReconciles | frontend/src/components/CategoryAssignmentModal.tsx:49-57 | Current plus added minus removed is exactly the chosen set. |
| CategoryAssignment.PlanUnchanged | frontend/src/components/CategoryAssignmentModal.tsx:54-57 | Choosing the current set again plans no request. |
| CategoryAssignment.WithoutCovered | frontend/src/components/CategoryAssignmentModal.tsx:54-57 | Filtering out a superset leaves nothing. |
| CategoryAssignment.Assigns | frontend/src/components/CategoryAssignmentModal.tsx:60-65 | One assign request per id to add, in order, each naming the transaction and that category. |
| CategoryAssignment.Unassigns | frontend/src/components/CategoryAssignmentModal.tsx:68-70 | Corrected: one removal request per id to remove, in order, carrying both ids. |
| CategoryAssignment.UnassignsAsWritten | frontend/src/hooks/useCategories.ts:137-140 | As written: `mutate(transactionId, categoryId)` destructures `{ transactionId, categoryId }` from a number, so each removal request carries no ids. |
| CategoryAssignment.Submit | frontend/src/components/CategoryAssignmentModal.tsx:46-76 | Corrected: every planned request is sent, assigns first, whatever the server answers, and the success notice is always shown, since `mutate` returns nothing to await. The links end between the chosen ids kept from before and the union of old and chosen, and are exactly the chosen set when the server accepts every request. |
| CategoryAssignment.SubmitAsWritten | frontend/src/components/CategoryAssignmentModal.tsx:46-76 | As written: every removal request lacks its ids and the success notice is always shown, so no current link is ever removed. |
| CategoryAssignment.RemovalLost | frontend/src/components/CategoryAssignmentModal.tsx:67-72 | Clearing a transaction's only category, with the server accepting everything, reports success but keeps the link. The corrected submit removes it. |
| CategoryAssignment.Offered | frontend/src/components/CategoryAssignmentModal.tsx:85-88 | Without a transaction nothing is offered. Otherwise exactly the categories of the transaction's type are offered. |
| CategoryAssignment.OfKind | frontend/src/components/CategoryAssignmentModal.tsx:87 | The type filter keeps exactly the categories of that type. |

## Left out

- Statistics per category (`getCategoryStats`, server/controllers/category.controller.js:193-234): a reporting JOIN with no invariant beyond the sums already modelled by `TransactionStats`.
- The seed script, Express routing, `restrictTo`, `app.js` and the database connection: wiring only. Only the column list of `transactions` in server/scripts/seed.js:110 is used.
- The table definitions (helpers/queries.sql) are not part of this model. Assumptions: `current_balance` defaults to 0, `users.email` is unique, the link table has an auto-increment key, and no foreign key cascades. A delete removes only the addressed row.
- bcrypt, `jsonwebtoken` and zod's `.email()` check: parameters (`Crypto`, `verify`, `isEmail`). The clock is a parameter too.
- Floating point: amounts are exact integer cents. `parseFloat` rounding and decimals beyond two places are not modelled.
- Concurrency: each handler runs alone. Interleavings between a write and its balance recomputation are not modelled.
- Query strings are given as already-typed values (`Option<int>`, `Option<nat>`, `Option<string>`). A non-numeric `page` or `limit`, which gives NaN in JavaScript, is not modelled.
- MySQL's case-insensitive collation: names, emails and `type` compare as exact strings.
- Row order: the list queries have no `ORDER BY` (the sort step of the query builder is disabled), so the database picks the order of their rows and of JOIN results. The model returns rows in insertion order.
- `getMe`, console logging and the development-mode stack trace: no behaviour beyond echoing data.
- ErrorController.Handle: a 422 whose message is a plain string is modelled as a crash. A plain string that happens to be valid JSON would in fact be parsed.
- AssignCategory: the body ids are integers. A JSON string id, which MySQL would coerce, is not modelled.
- The rest of the front end (pages, hooks, forms, theming), and react-query's cache invalidation after a mutation. The server's answer to each request the dialog sends is a parameter (`ok`), and the requests are treated as unordered because they race.
- Zod.Sized: lengths count Unicode code points (a Dafny `string` is a sequence of them), while zod's `.min`/`.max` count UTF-16 code units. A name, source person, description or password with characters outside the Basic Multilingual Plane is measured differently. The same holds for every length rule built on `Zod.StrCheck`.
- TransactionController.CreateTransaction: the model's create handler is the corrected one. The code as written refuses every valid owned create with a 500 and stores nothing, as `CreateTransactionAsWritten` states. The balance lemma `CreateKeepsBalances` is about the corrected handler; for the code as written the invariant holds trivially because nothing is written.
- TransactionController.ApplyUpdate: the model's update handler is the corrected one, and so are `UpdateTransaction`, `ApplyUpdateKeepsBalances` and `UpdateKeepsBalances`. The code as written refuses every valid update of an owned transaction with a 500 and changes nothing, as `UpdateTransactionAsWritten` and `ApplyUpdateAsWritten` state.
- The database's error messages: a refused statement fails with the placeholder text `Replies.DatabaseRefused`, not MySQL's wording.
- TransactionController.ListTransactions: `totalPage` counts the whole `transactions` table, as `LureDb.count(table)` does, rather than the filtered rows. The contract states this and says nothing about whether the count is meaningful.
- CashbookController.CreateCashbook: the stored balance starts at the assumed column default 0, not at `initial_balance` as the seed script does.

## Findings

| source | as written | input that shows it | evidently intended | confidence | as-written member | corrected member |
|---|---|---|---|---|---|---|
| server/controllers/transaction.controller.js:101-112 | `createTransaction` spreads the parsed body, including `category_ids` (defaulted to `[]`), into the row data. `prepare` turns every key into an INSERT column, but `transactions` has no `category_ids` column (server/scripts/seed.js:110). | Any valid create body, e.g. `{cashbook_id: 1, type: "income", amount: 50, source_person: "Salary", transaction_date: "2024-01-01"}` | Insert only the row's own columns and leave `category_ids` for the link table. | high (`.default([])` adds the key to every parsed body); not executed | TransactionController.CreateTransactionAsWritten, TransactionController.CreateDataRefused | TransactionController.CreateTransaction, TransactionController.RowDataRuns, TransactionController.NewRow |
| server/controllers/transaction.controller.js:169-174 | `updateTransaction` passes the whole parsed body, which always holds `category_ids` because of the update schema's `.default([])`, to the UPDATE's SET list. | PATCH any owned transaction with `{amount: 10}` | SET only the supplied row columns. | high; not executed | TransactionController.UpdateTransactionAsWritten, TransactionController.UpdateDataRefused | TransactionController.UpdateTransaction, TransactionController.PatchRuns, TransactionController.PatchColumnsAreTheUpdate |
| server/controllers/category.controller.js:121-131 | The duplicate check runs only when `name` is in the body, so changing only `type` is never checked. | The store has ("Food", income) as id 1 and ("Food", expense) as id 2. PATCH id 2 with `{type: "income"}` | Check the resulting (name, type) on every change. | medium (a database unique key, if one exists, would turn this into a 500); not executed | CategoryController.UpdateCategory, CategoryController.TypeOnlyUpdateDuplicates | CategoryController.UpdateCategoryChecked, CategoryController.UpdateCheckedKeepsUnique |
| frontend/src/components/CategoryAssignmentModal.tsx:69 | The dialog calls `removeCategoryFromTransaction(transaction_id, categoryId)`, but that is react-query's `mutate(variables, options)` (frontend/src/hooks/useCategories.ts:170). The transaction id becomes the variables, destructuring `{ transactionId, categoryId }` from a number leaves both undefined, and the request goes to `/api/categories/undefined/undefined`. | A transaction linked to category 3; deselect it and save | Pass `{ transactionId, categoryId }` as one object. | medium (a strict TypeScript build would reject the call); not executed | CategoryAssignment.SubmitAsWritten, CategoryAssignment.RemovalLost | CategoryAssignment.Submit, CategoryAssignment.Unassigns |

=== FILE: api_features.dfy ===
/**
 * `APIFeatures`: the pagination suffix every list endpoint appends to its
 * query, and the LIKE-clause builder.
 */
module ApiFeatures {
  import opened Wrappers
  import opened Text

  /** A JavaScript number as JSON would carry the page count: finite, or the two results of dividing by zero. */
  datatype JsNumber = Finite(n: int) | Infinity | NaN

  /** What `paginate` returns: the extended query, its two parameters, and the pagination summary. */
  datatype Page = Page(query: string, values: seq<int>, page: int, limit: int, totalPage: JsNumber)

  /** A query-string parameter that JavaScript treats as set: present and not empty. */
  predicate Given(q: Option<string>) {
    q.Some? && q.value != ""
  }

  const DefaultPage: int := 1
  const DefaultLimit: int := 50

  /** The smallest integer not below `a / b`, for a positive `b`. */
  function CeilDiv(a: nat, b: nat): (q: nat)
    requires b > 0
    ensures q * b >= a
    ensures a > 0 ==> (q - 1) * b < a
    ensures a == 0 ==> q == 0
  {
    (a + b - 1) / b
  }

  /**
   * `Math.ceil(count / limit)`: exact for a positive limit; for a negative
   * limit the quotient is not positive; dividing by zero gives Infinity, or
   * NaN when the count is zero too.
   */
  function PageCount(count: nat, limit: int): (r: JsNumber)
    ensures limit > 0 ==> r.Finite? && r.n >= 0 && r.n * limit >= count && (count > 0 ==> (r.n - 1) * limit < count)
    ensures limit < 0 ==> r.Finite? && r.n <= 0 && r.n * limit <= count && (r.n - 1) * limit > count
    ensures limit == 0 ==> (if count > 0 then r == Infinity else r == NaN)
  {
    if limit > 0 then Finite(CeilDiv(count, limit))
    else if limit < 0 then
      var q := count / -limit;
      assert q * -limit <= count < (q + 1) * -limit;
      Finite(-q)
    else if count > 0 then Infinity
    else NaN
  }

  /**
   * `paginate(table)`: `page` defaults to 1 and `limit` to 50; the row count
   * of the whole table (`count`, zero when the count query returns no row)
   * gives the page total.
   */
  function Paginate(query: string, page: Option<int>, limit: Option<int>, count: Option<nat>): (r: Page)
    ensures r.page == page.GetOr(DefaultPage) && r.limit == limit.GetOr(DefaultLimit)
    ensures r.query == query + " LIMIT ? OFFSET ?"
    ensures |r.values| == 2 && r.values[0] == r.limit && r.values[1] == (r.page - 1) * r.limit
    ensures r.limit > 0 ==> r.totalPage.Finite? && r.totalPage.n * r.limit >= count.GetOr(0)
    ensures r.limit > 0 && count.GetOr(0) > 0 ==> (r.totalPage.n - 1) * r.limit < count.GetOr(0)
    ensures r.limit > 0 && count.GetOr(0) == 0 ==> r.totalPage == Finite(0)
  {
    var p := page.GetOr(DefaultPage);
    var l := limit.GetOr(DefaultLimit);
    Page(query + " LIMIT ? OFFSET ?", [l, (p - 1) * l], p, l, PageCount(count.GetOr(0), l))
  }

  /** Without query parameters the first 50 rows are asked for. */
  lemma PaginateDefaults(query: string, count: nat)
    ensures Paginate(query, None, None, Some(count)).values == [50, 0]
    ensures Paginate(query, None, None, Some(count)).totalPage == Finite((count + 49) / 50)
  {
  }

  /** One clause of the filter: `field LIKE '%term%'`. */
  function Like(field: string, term: string): string {
    field + " LIKE '%" + term + "%'"
  }

  function Likes(fields: seq<string>, term: string): (r: seq<string>)
    ensures |r| == |fields|
    ensures forall i :: 0 <= i < |fields| ==> r[i] == Like(fields[i], term)
  {
    if |fields| == 0 then [] else [Like(fields[0], term)] + Likes(fields[1..], term)
  }

  /** `filter(fields, term)`: the clauses joined with OR, or the empty string when there is no term. */
  function Filter(fields: seq<string>, term: Option<string>): (r: string)
    ensures r == "" <==> term.None? || term.value == "" || |fields| == 0
  {
    if term.None? || term.value == "" then ""
    else
      var r := Join(Likes(fields, term.value), " OR ");
      assert |fields| > 0 ==> |r| > 0 by {
        if |fields| > 0 { JoinStartsWith(Likes(fields, term.value), " OR "); }
      }
      r
  }

  /** A join begins with its first part. */
  lemma JoinStartsWith(parts: seq<string>, sep: string)
    requires |parts| > 0
    ensures |Join(parts, sep)| >= |parts[0]| && Join(parts, sep)[..|parts[0]|] == parts[0]
  {
    if |parts| > 1 {
      assert Join(parts, sep) == parts[0] + (sep + Join(parts[1..], sep));
    }
  }

  /** Joining one more part appends the separator and that part. */
  lemma {:induction false} JoinAppend(parts: seq<string>, x: string, sep: string)
    requires |parts| > 0
    ensures Join(parts + [x], sep) == Join(parts, sep) + sep + x
  {
    var ps := parts + [x];
    assert ps[0] == parts[0];
    if |parts| == 1 {
      assert ps[1..] == [x];
    } else {
      assert ps[1..] == parts[1..] + [x];
      JoinAppend(parts[1..], x, sep);
    }
  }

  /** One more field adds one more OR clause at the end. */
  lemma FilterAppend(fields: seq<string>, f: string, term: string)
    requires |fields| > 0 && term != ""
    ensures Filter(fields + [f], Some(term)) == Filter(fields, Some(term)) + " OR " + Like(f, term)
  {
    assert Likes(fields + [f], term) == Likes(fields, term) + [Like(f, term)];
    JoinAppend(Likes(fields, term), Like(f, term), " OR ");
  }

  /** A single field yields its one clause. */
  lemma FilterOne(f: string, term: string)
    requires term != ""
    ensures Filter([f], Some(term)) == f + " LIKE '%" + term + "%'"
  {
    assert Likes([f], term) == [Like(f, term)];
  }
}

=== FILE: auth_controller.dfy ===
/**
 * Register, login and logout. Hashing, password comparison, token signing
 * and the clock are the caller's functions and values.
 */
module AuthController {
  import opened Wrappers
  import opened Tables
  import opened Replies
  import opened JsValues
  import opened Zod
  import opened AuthSchema
  import opened Ledger

  const CookieName: string := "__acc_token_mr"
  const BadCredentials: string := "Incorrect email or password"
  const MissingCredentials: string := "Please provide email and password"
  const LogoutMessage: string := "Logout successfull!"

  /** A `Set-Cookie`: name, value and expiry in milliseconds since the epoch. */
  datatype Cookie = Cookie(name: string, value: string, expires: int)

  /** The user as the response shows it: the row without its password. */
  datatype UserView = UserView(id: nat, name: string, email: string)

  /** A successful sign-in: the token, the cookie carrying it, and the user. */
  datatype Session = Session(token: string, cookie: Cookie, user: UserView)

  /** The opaque primitives and settings the controller relies on. */
  datatype Crypto = Crypto(
    hash: string -> string,
    compare: (string, string) -> bool,
    sign: nat -> string,
    isEmail: string -> bool)

  /** The first user row with this email: `SELECT * FROM users WHERE email = ?`. */
  function UserByEmail(rows: seq<Row<User>>, email: string): (r: Option<Row<User>>)
    ensures r.Some? ==> r.value in rows && r.value.val.email == email
    ensures r.None? <==> forall i :: 0 <= i < |rows| ==> rows[i].val.email != email
  {
    if |rows| == 0 then None
    else if rows[0].val.email == email then Some(rows[0])
    else
      var r := UserByEmail(rows[1..], email);
      assert forall i :: 0 < i < |rows| ==> rows[i] == rows[1..][i - 1];
      r
  }

  /**
   * `createSendToken(user, code)`: sign the id, set the cookie for
   * `minutes` minutes from `now`, and drop the password from the user.
   */
  function SendToken(u: Row<User>, code: int, c: Crypto, now: int, minutes: int): (r: Reply<Session>)
    ensures r.Done? && r.code == code
    ensures r.value.token == c.sign(u.id) && r.value.cookie == Cookie(CookieName, r.value.token, now + minutes * 60 * 1000)
    ensures r.value.user == UserView(u.id, u.val.name, u.val.email)
  {
    var token := c.sign(u.id);
    Done(code, Session(token, Cookie(CookieName, token, now + minutes * 60 * 1000), UserView(u.id, u.val.name, u.val.email)))
  }

  /** `register`: validate, store the hashed password, sign in the new user. */
  function Register(s: Store, body: Object<Value>, c: Crypto, now: int, minutes: int): (r: Step<Session>)
    requires Valid(s.users)
    ensures !RegisterBodyOk(body, c.isEmail) ==>
              r.store == s && r.reply.Failed? && r.reply.error.code == 422 && r.reply.error.message.Fields?
    ensures r.reply.Done? ==>
              var reg := ValidateRegister(body, c.isEmail).value;
              && r.reply.code == 201
              && r.store == s.(users := Insert(s.users, User(reg.name, reg.email, c.hash(reg.password))))
              && r.reply.value.user == UserView(s.users.next, reg.name, reg.email)
              && r.reply.value.token == c.sign(s.users.next)
    ensures r.reply.Failed? && r.reply.error.code == 422 ==> !RegisterBodyOk(body, c.isEmail)
    ensures RegisterBodyOk(body, c.isEmail) && UserByEmail(s.users.rows, ValidateRegister(body, c.isEmail).value.email).None? ==>
              r.reply.Done?
    ensures RegisterBodyOk(body, c.isEmail) && UserByEmail(s.users.rows, ValidateRegister(body, c.isEmail).value.email).Some? ==>
              r == Step(Failed(AppError(500, Text(DatabaseRefused))), s)
    ensures r.reply.Failed? && r.reply.error.code != 422 ==>
              r.store == s && r.reply.error.code == 500
              && exists i :: 0 <= i < |s.users.rows| && s.users.rows[i].val.email == ValidateRegister(body, c.isEmail).value.email
    ensures Valid(r.store.users)
  {
    match ValidateRegister(body, c.isEmail)
    case Err(issues) => Step(Failed(AppError(422, Fields(ErrorMap(issues)))), s)
    case Ok(reg) =>
      if UserByEmail(s.users.rows, reg.email).Some? then
        Step(Failed(AppError(500, Text(DatabaseRefused))), s)
      else
        var users := Insert(s.users, User(reg.name, reg.email, c.hash(reg.password)));
        Step(SendToken(Row(s.users.next, users.rows[|s.users.rows|].val), 201, c, now, minutes), s.(users := users))
  }

  /** `login`: validate, look the email up, compare the password; the two failures look the same. */
  function Login(s: Store, body: Object<Value>, c: Crypto, now: int, minutes: int): (r: Step<Session>)
    ensures r.store == s
    ensures !LoginBodyOk(body, c.isEmail) ==> r.reply.Failed? && r.reply.error.code == 422
    ensures r.reply.Done? ==>
              var cred := ValidateLogin(body, c.isEmail).value;
              && r.reply.code == 200
              && exists i :: 0 <= i < |s.users.rows|
                   && s.users.rows[i].val.email == cred.email
                   && c.compare(cred.password, s.users.rows[i].val.password)
                   && r.reply.value.user == UserView(s.users.rows[i].id, s.users.rows[i].val.name, cred.email)
    ensures r.reply.Done? ==>
              var cred := ValidateLogin(body, c.isEmail).value;
              && UserByEmail(s.users.rows, cred.email).Some?
              && c.compare(cred.password, UserByEmail(s.users.rows, cred.email).value.val.password)
    ensures LoginBodyOk(body, c.isEmail) ==>
              var cred := ValidateLogin(body, c.isEmail).value;
              cred.email != "" && cred.password != ""
              && UserByEmail(s.users.rows, cred.email).Some?
              && c.compare(cred.password, UserByEmail(s.users.rows, cred.email).value.val.password) ==>
                r.reply.Done?
                && r.reply.value.user == UserView(UserByEmail(s.users.rows, cred.email).value.id,
                                                  UserByEmail(s.users.rows, cred.email).value.val.name, cred.email)
    ensures LoginBodyOk(body, c.isEmail)
            && (ValidateLogin(body, c.isEmail).value.email == "" || ValidateLogin(body, c.isEmail).value.password == "") ==>
              r.reply == Failed(AppError(400, Text(MissingCredentials)))
    ensures r.reply.Failed? && r.reply.error.code == 401 ==> r.reply.error.message == Text(BadCredentials)
  {
    match ValidateLogin(body, c.isEmail)
    case Err(issues) => Step(Failed(AppError(422, Fields(ErrorMap(issues)))), s)
    case Ok(cred) =>
      if cred.email == "" || cred.password == "" then Step(Failed(AppError(400, Text(MissingCredentials))), s)
      else
        match UserByEmail(s.users.rows, cred.email)
        case None => Step(Failed(AppError(401, Text(BadCredentials))), s)
        case Some(u) =>
          if !c.compare(cred.password, u.val.password) then Step(Failed(AppError(401, Text(BadCredentials))), s)
          else
            var i :| 0 <= i < |s.users.rows| && s.users.rows[i] == u;
            Step(SendToken(u, 200, c, now, minutes), s)
  }

  /** An unknown email is refused exactly like a wrong password. */
  lemma UnknownEmailRefused(s: Store, body: Object<Value>, c: Crypto, now: int, minutes: int)
    requires LoginBodyOk(body, c.isEmail)
    requires ValidateLogin(body, c.isEmail).value.email != ""
    requires forall i :: 0 <= i < |s.users.rows| ==> s.users.rows[i].val.email != ValidateLogin(body, c.isEmail).value.email
    ensures Login(s, body, c, now, minutes).reply == Failed(AppError(401, Text(BadCredentials)))
  {
  }

  /** A wrong password for the first user with that email is refused with the same 401. */
  lemma WrongPasswordRefused(s: Store, body: Object<Value>, c: Crypto, now: int, minutes: int)
    requires LoginBodyOk(body, c.isEmail)
    requires ValidateLogin(body, c.isEmail).value.email != ""
    requires UserByEmail(s.users.rows, ValidateLogin(body, c.isEmail).value.email).Some?
    requires !c.compare(ValidateLogin(body, c.isEmail).value.password,
                        UserByEmail(s.users.rows, ValidateLogin(body, c.isEmail).value.email).value.val.password)
    ensures Login(s, body, c, now, minutes).reply == Failed(AppError(401, Text(BadCredentials)))
  {
  }

  /** A new email appended at the end is found at the end. */
  lemma {:induction false} UserByEmailAppend(rows: seq<Row<User>>, x: Row<User>)
    requires forall i :: 0 <= i < |rows| ==> rows[i].val.email != x.val.email
    ensures UserByEmail(rows + [x], x.val.email) == Some(x)
  {
    if |rows| > 0 {
      assert (rows + [x])[1..] == rows[1..] + [x];
      assert forall i :: 0 < i < |rows| ==> rows[i] == rows[1..][i - 1];
      UserByEmailAppend(rows[1..], x);
    }
  }

  /** Logging in with the password one registered with succeeds, given a hash the comparison accepts. */
  lemma RegisterThenLogin(s: Store, regBody: Object<Value>, loginBody: Object<Value>, c: Crypto, now: int, minutes: int)
    requires Valid(s.users)
    requires Register(s, regBody, c, now, minutes).reply.Done?
    requires LoginBodyOk(loginBody, c.isEmail)
    requires ValidateLogin(loginBody, c.isEmail).value.email == ValidateRegister(regBody, c.isEmail).value.email
    requires ValidateLogin(loginBody, c.isEmail).value.password == ValidateRegister(regBody, c.isEmail).value.password
    requires !c.isEmail("")
    requires c.compare(ValidateRegister(regBody, c.isEmail).value.password,
                       c.hash(ValidateRegister(regBody, c.isEmail).value.password))
    ensures Login(Register(s, regBody, c, now, minutes).store, loginBody, c, now, minutes).reply.Done?
  {
    var reg := ValidateRegister(regBody, c.isEmail).value;
    var x := Row(s.users.next, User(reg.name, reg.email, c.hash(reg.password)));
    assert UserByEmail(s.users.rows, reg.email).None?;
    UserByEmailAppend(s.users.rows, x);
    assert Register(s, regBody, c, now, minutes).store.users.rows == s.users.rows + [x];
  }

  /** `logout`: overwrite the cookie with an empty value that expires ten seconds from `now`. */
  function Logout(now: int): (r: (Cookie, Reply<string>))
    ensures r.0.name == CookieName && r.0.value == ""
    ensures r.0.expires == now + 10000
    ensures r.1 == Done(200, LogoutMessage)
  {
    (Cookie(CookieName, "", now + 10 * 1000), Done(200, LogoutMessage))
  }
}

=== FILE: auth_schema.dfy ===
/** `registerSchema` and `loginSchema`; the email rule is the caller's predicate `isEmail`. */
module AuthSchema {
  import opened Wrappers
  import opened JsValues
  import opened Zod

  datatype Registration = Registration(name: string, email: string, password: string)

  datatype Credentials = Credentials(email: string, password: string)

  const EmailMessage: string := "Please enter a valid email address!"
  const PasswordMessage: string := "Password must contain at least 8 characters!"

  predicate EmailOk(v: Value, isEmail: string -> bool) {
    v.Str? && isEmail(v.s)
  }

  predicate PasswordOk(v: Value) {
    v.Str? && |v.s| >= 8
  }

  /** Register needs all three fields; the name may be any string, the empty one included. */
  predicate RegisterBodyOk(body: Object<Value>, isEmail: string -> bool) {
    && Get(body, "name").Some? && Get(body, "name").value.Str?
    && Get(body, "email").Some? && EmailOk(Get(body, "email").value, isEmail)
    && Get(body, "password").Some? && PasswordOk(Get(body, "password").value)
  }

  predicate LoginBodyOk(body: Object<Value>, isEmail: string -> bool) {
    && Get(body, "email").Some? && EmailOk(Get(body, "email").value, isEmail)
    && Get(body, "password").Some? && PasswordOk(Get(body, "password").value)
  }

  /** `z.string({ message: 'Name is required!' })` */
  function NameField(v: Option<Value>, isEmail: string -> bool): (r: Result<string, seq<string>>)
    ensures r.Ok? <==> v.Some? && v.value.Str?
    ensures r.Ok? ==> r.value == v.value.s
    ensures r.Err? ==> r.error == ["Name is required!"]
  {
    assert AllStr([], "", isEmail);
    ZString(v, Some("Name is required!"), [], isEmail)
  }

  /** `z.string({ message: 'Email is required!' }).email(...)` */
  function EmailField(v: Option<Value>, isEmail: string -> bool): (r: Result<string, seq<string>>)
    ensures r.Ok? <==> v.Some? && EmailOk(v.value, isEmail)
    ensures r.Ok? ==> r.value == v.value.s
    ensures r.Err? ==> r.error == (if v.Some? && v.value.Str? then [EmailMessage] else ["Email is required!"])
  {
    var checks := [Email(EmailMessage)];
    if v.Some? && v.value.Str? then AllStrOne(checks[0], v.value.s, isEmail); ZString(v, Some("Email is required!"), checks, isEmail)
    else ZString(v, Some("Email is required!"), checks, isEmail)
  }

  /** `z.string({ message: 'Password is required!' }).min(8, ...)` */
  function PasswordField(v: Option<Value>, isEmail: string -> bool): (r: Result<string, seq<string>>)
    ensures r.Ok? <==> v.Some? && PasswordOk(v.value)
    ensures r.Ok? ==> r.value == v.value.s
    ensures r.Err? ==> r.error == (if v.Some? && v.value.Str? then [PasswordMessage] else ["Password is required!"])
  {
    var checks := [MinLen(8, PasswordMessage)];
    if v.Some? && v.value.Str? then AllStrOne(checks[0], v.value.s, isEmail); ZString(v, Some("Password is required!"), checks, isEmail)
    else ZString(v, Some("Password is required!"), checks, isEmail)
  }

  /** `registerSchema.safeParse(body)` */
  function ValidateRegister(body: Object<Value>, isEmail: string -> bool): (r: Result<Registration, seq<Issue>>)
    ensures r.Ok? <==> RegisterBodyOk(body, isEmail)
    ensures r.Ok? ==>
              && Get(body, "name") == Some(Str(r.value.name))
              && Get(body, "email") == Some(Str(r.value.email)) && isEmail(r.value.email)
              && Get(body, "password") == Some(Str(r.value.password)) && |r.value.password| >= 8
    ensures Get(body, "name").None? ==> r.Err? && Issue("name", "Name is required!") in r.error
    ensures r.Err? ==> |r.error| > 0
  {
    var na := NameField(Get(body, "name"), isEmail);
    var em := EmailField(Get(body, "email"), isEmail);
    var pw := PasswordField(Get(body, "password"), isEmail);
    if na.Ok? && em.Ok? && pw.Ok? then Ok(Registration(na.value, em.value, pw.value))
    else
      var issues := Tag("name", Errors(na)) + Tag("email", Errors(em)) + Tag("password", Errors(pw));
      assert na.Err? ==> issues[0] == Issue("name", "Name is required!");
      Err(issues)
  }

  /** `loginSchema.safeParse(body)` */
  function ValidateLogin(body: Object<Value>, isEmail: string -> bool): (r: Result<Credentials, seq<Issue>>)
    ensures r.Ok? <==> LoginBodyOk(body, isEmail)
    ensures r.Ok? ==>
              && Get(body, "email") == Some(Str(r.value.email)) && isEmail(r.value.email)
              && Get(body, "password") == Some(Str(r.value.password)) && |r.value.password| >= 8
    ensures r.Err? ==> |r.error| > 0
  {
    var em := EmailField(Get(body, "email"), isEmail);
    var pw := PasswordField(Get(body, "password"), isEmail);
    if em.Ok? && pw.Ok? then Ok(Credentials(em.value, pw.value))
    else Err(Tag("email", Errors(em)) + Tag("password", Errors(pw)))
  }

  /** A body register accepts has a part login accepts: the two share their email and password rules. */
  lemma RegisterImpliesLogin(body: Object<Value>, isEmail: string -> bool)
    requires ValidateRegister(body, isEmail).Ok?
    ensures ValidateLogin(body, isEmail).Ok?
    ensures ValidateLogin(body, isEmail).value.email == ValidateRegister(body, isEmail).value.email
    ensures ValidateLogin(body, isEmail).value.password == ValidateRegister(body, isEmail).value.password
  {
  }
}

=== FILE: cashbook_controller.dfy ===
/** The cashbook endpoints: list, get, create, update, delete and the balance report. */
module CashbookController {
  import opened Wrappers
  import opened Tables
  import opened Replies
  import opened JsValues
  import opened Zod
  import opened ApiFeatures
  import opened CashbookSchema
  import opened Ledger

  const NotFound: string := "Cashbook not found!"

  const ListQuery: string := "SELECT * FROM cashbooks WHERE user_id = ?"

  /** `getAllCashbooks`: one page of the requester's cashbooks; the page count uses the whole table. */
  function ListCashbooks(s: Store, uid: nat, page: Option<int>, limit: Option<int>)
    : (r: Reply<(seq<Row<Cashbook>>, Page)>)
    ensures var p := Paginate(ListQuery, page, limit, Some(|s.cashbooks.rows|));
            && (r.Failed? <==> p.limit < 0 || (p.page - 1) * p.limit < 0)
            && (r.Failed? ==> r.error.code == 500)
            && (r.Done? ==> r.code == 200 && r.value.1 == p && |r.value.0| <= p.limit)
    ensures r.Done? ==> forall x :: x in r.value.0 ==> x in s.cashbooks.rows && x.val.userId == uid
  {
    var p := Paginate(ListQuery, page, limit, Some(|s.cashbooks.rows|));
    match Window(Where(s.cashbooks.rows, (c: Cashbook) => c.userId == uid), p.values[0], p.values[1])
    case None => Failed(AppError(500, Text(DatabaseRefused)))
    case Some(rows) => Done(200, (rows, p))
  }

  /** A first page at least as long as the requester's cashbooks lists all of them. */
  lemma ListShowsAllOwned(s: Store, uid: nat, limit: nat, x: Row<Cashbook>)
    requires x in s.cashbooks.rows && x.val.userId == uid
    requires |s.cashbooks.rows| <= limit
    ensures ListCashbooks(s, uid, None, Some(limit)).Done?
    ensures x in ListCashbooks(s, uid, None, Some(limit)).value.0
  {
    var owned := Where(s.cashbooks.rows, (c: Cashbook) => c.userId == uid);
    WindowWhole(owned, limit);
  }

  /** `getCashbook` */
  function GetCashbook(s: Store, uid: nat, id: nat): (r: Reply<Cashbook>)
    ensures r.Done? <==> OwnedCashbook(s, id, uid).Some?
    ensures r.Done? ==> r.code == 200 && r.value.userId == uid && Find(s.cashbooks.rows, id) == Some(r.value)
    ensures r.Failed? ==> r.error == AppError(404, Text(NotFound))
  {
    match OwnedCashbook(s, id, uid)
    case None => Failed(AppError(404, Text(NotFound)))
    case Some(c) => Done(200, c)
  }

  /** The stored row of a new cashbook: the validated fields, the requester, and a zero `current_balance`. */
  function NewRow(v: NewCashbook, uid: nat): Cashbook {
    Cashbook(uid, v.name, v.description, v.initialBalance, 0, v.isActive)
  }

  /** `createCashbook` */
  function CreateCashbook(s: Store, uid: nat, body: Object<Value>): (r: Step<Row<Cashbook>>)
    requires Wf(s)
    ensures Wf(r.store)
    ensures !CreateBodyOk(body) ==>
              r.store == s && r.reply.Failed? && r.reply.error.code == 422 && r.reply.error.message.Fields?
    ensures CreateBodyOk(body) ==>
              var v := ValidateCreate(body).value;
              && r.reply == Done(201, Row(s.cashbooks.next, NewRow(v, uid)))
              && r.store == s.(cashbooks := Insert(s.cashbooks, NewRow(v, uid)))
              && r.reply.value.val.userId == uid
              && r.reply.value.val.currentBalance == 0
  {
    match ValidateCreate(body)
    case Err(issues) => Step(Failed(AppError(422, Fields(ErrorMap(issues)))), s)
    case Ok(v) =>
      var cashbooks := Insert(s.cashbooks, NewRow(v, uid));
      Step(Done(201, Row(s.cashbooks.next, NewRow(v, uid))), s.(cashbooks := cashbooks))
  }

  /** A cashbook key not yet handed out has no transactions, so its balance is zero. */
  lemma FreshCashbookNet(s: Store)
    requires Wf(s)
    ensures Net(s.txns.rows, s.cashbooks.next) == 0
  {
    TotalNoneInScope(s.txns.rows, CashbookScope(s.cashbooks.next), Income);
    TotalNoneInScope(s.txns.rows, CashbookScope(s.cashbooks.next), Expense);
  }

  /** Creating a cashbook keeps every balance right: the new one starts at zero with no transactions. */
  lemma CreateKeepsBalances(s: Store, uid: nat, body: Object<Value>)
    requires Wf(s) && BalancesHold(s)
    ensures BalancesHold(CreateCashbook(s, uid, body).store)
  {
    if CreateBodyOk(body) {
      FreshCashbookNet(s);
    }
  }

  /** The fields of the patch replace the row's; the owner and `current_balance` never change. */
  function ApplyPatch(c: Cashbook, p: CashbookPatch): (r: Cashbook)
    ensures r.userId == c.userId && r.currentBalance == c.currentBalance
    ensures r.name == p.name.GetOr(c.name)
    ensures r.description == (if p.description.Some? then p.description else c.description)
    ensures r.initialBalance == p.initialBalance.GetOr(c.initialBalance)
    ensures r.isActive == p.isActive.GetOr(c.isActive)
    ensures p.IsEmpty() ==> r == c
  {
    c.(name := p.name.GetOr(c.name),
       description := if p.description.Some? then p.description else c.description,
       initialBalance := p.initialBalance.GetOr(c.initialBalance),
       isActive := p.isActive.GetOr(c.isActive))
  }

  /** The store after `UPDATE cashbooks SET ... WHERE cashbook_id = ?`. */
  function Patched(s: Store, id: nat, p: CashbookPatch): Store {
    s.(cashbooks := s.cashbooks.(rows := Update(s.cashbooks.rows, id, (c: Cashbook) => ApplyPatch(c, p))))
  }

  /**
   * `updateCashbook`: validate, check ownership, write the supplied fields.
   * A body with no field passes validation but makes `UPDATE ... SET  WHERE`,
   * which the database rejects.
   */
  function UpdateCashbook(s: Store, uid: nat, id: nat, body: Object<Value>): (r: Step<Cashbook>)
    ensures r.reply.Failed? ==> r.store == s
    ensures !UpdateBodyOk(body) ==> r.reply.Failed? && r.reply.error.code == 422
    ensures UpdateBodyOk(body) && OwnedCashbook(s, id, uid).None? ==> r.reply == Failed(AppError(404, Text(NotFound)))
    ensures UpdateBodyOk(body) && ValidateUpdate(body).value.IsEmpty() && OwnedCashbook(s, id, uid).Some? ==>
              r == Step(Failed(AppError(500, Text(DatabaseRefused))), s)
    ensures UpdateBodyOk(body) && !ValidateUpdate(body).value.IsEmpty() && OwnedCashbook(s, id, uid).Some? ==>
              r.reply.Done?
    ensures r.reply.Done? ==>
              && r.reply.code == 200
              && OwnedCashbook(s, id, uid).Some?
              && !ValidateUpdate(body).value.IsEmpty()
              && r.reply.value == ApplyPatch(OwnedCashbook(s, id, uid).value, ValidateUpdate(body).value)
              && r.store == Patched(s, id, ValidateUpdate(body).value)
  {
    match ValidateUpdate(body)
    case Err(issues) => Step(Failed(AppError(422, Fields(ErrorMap(issues)))), s)
    case Ok(p) =>
      match OwnedCashbook(s, id, uid)
      case None => Step(Failed(AppError(404, Text(NotFound))), s)
      case Some(c) =>
        if p.IsEmpty() then Step(Failed(AppError(500, Text(DatabaseRefused))), s)
        else
          Step(Done(200, ApplyPatch(c, p)), Patched(s, id, p))
  }

  /** Patching the addressed row keeps the store well formed and every balance right, and touches only that row. */
  lemma PatchedKeepsInvariants(s: Store, id: nat, p: CashbookPatch)
    requires Wf(s) && BalancesHold(s)
    ensures var r := Patched(s, id, p);
            && Wf(r) && BalancesHold(r)
            && r.txns == s.txns
            && |r.cashbooks.rows| == |s.cashbooks.rows|
            && forall i :: 0 <= i < |s.cashbooks.rows| && s.cashbooks.rows[i].id != id ==>
                 r.cashbooks.rows[i] == s.cashbooks.rows[i]
  {
    UpdateKeepsIds(s.cashbooks.rows, id, (c: Cashbook) => ApplyPatch(c, p));
    var rows := Patched(s, id, p).cashbooks.rows;
    assert forall i :: 0 <= i < |rows| ==> rows[i].id == s.cashbooks.rows[i].id;
  }

  /** An update keeps the store well formed and every balance right, and touches only the addressed row. */
  lemma UpdateKeepsInvariants(s: Store, uid: nat, id: nat, body: Object<Value>)
    requires Wf(s) && BalancesHold(s)
    ensures var r := UpdateCashbook(s, uid, id, body).store;
            && Wf(r) && BalancesHold(r)
            && r.txns == s.txns
            && |r.cashbooks.rows| == |s.cashbooks.rows|
            && forall i :: 0 <= i < |s.cashbooks.rows| && s.cashbooks.rows[i].id != id ==>
                 r.cashbooks.rows[i] == s.cashbooks.rows[i]
  {
    if UpdateCashbook(s, uid, id, body).reply.Done? {
      PatchedKeepsInvariants(s, id, ValidateUpdate(body).value);
    }
  }

  /** `deleteCashbook`: removes the addressed row if the requester owns it. */
  function DeleteCashbook(s: Store, uid: nat, id: nat): (r: Step<string>)
    ensures OwnedCashbook(s, id, uid).None? <==> r.reply == Failed(AppError(404, Text(NotFound)))
    ensures OwnedCashbook(s, id, uid).Some? ==> r.reply.Done?
    ensures r.reply.Failed? ==> r.store == s
    ensures r.reply.Done? ==>
              && r.reply == Done(200, "Cashbook deleted successfully!")
              && r.store == s.(cashbooks := s.cashbooks.(rows := Remove(s.cashbooks.rows, id)))
              && Ids(r.store.cashbooks.rows) == Ids(s.cashbooks.rows) - {id}
  {
    match OwnedCashbook(s, id, uid)
    case None => Step(Failed(AppError(404, Text(NotFound))), s)
    case Some(_) =>
      Step(Done(200, "Cashbook deleted successfully!"), s.(cashbooks := s.cashbooks.(rows := Remove(s.cashbooks.rows, id))))
  }

  /** Deleting keeps the store well formed and every remaining balance right. */
  lemma DeleteKeepsInvariants(s: Store, uid: nat, id: nat)
    requires Wf(s) && BalancesHold(s)
    ensures Wf(DeleteCashbook(s, uid, id).store) && BalancesHold(DeleteCashbook(s, uid, id).store)
  {
    var r := DeleteCashbook(s, uid, id).store;
    forall i | 0 <= i < |r.cashbooks.rows|
      ensures r.cashbooks.rows[i].val.currentBalance == Net(r.txns.rows, r.cashbooks.rows[i].id)
    {
      assert r.cashbooks.rows[i] in s.cashbooks.rows;
    }
  }

  /** The balance report of one cashbook. */
  datatype BalanceView = BalanceView(
    cashbookId: nat,
    name: string,
    initialBalance: int,
    storedBalance: int,
    calculatedBalance: int,
    totalIncome: int,
    totalExpense: int,
    netBalance: int)

  /**
   * `getCashbookBalance`: the totals over the cashbook's transactions, the
   * stored balance as it is, and the initial balance added to the
   * calculated one.
   */
  function CashbookBalance(s: Store, uid: nat, id: nat): (r: Reply<BalanceView>)
    ensures r.Failed? <==> OwnedCashbook(s, id, uid).None?
    ensures r.Failed? ==> r.error == AppError(404, Text(NotFound))
    ensures r.Done? ==>
              var c := OwnedCashbook(s, id, uid).value;
              var b := r.value;
              && r.code == 200
              && b.cashbookId == id && b.name == c.name
              && b.totalIncome == Total(s.txns.rows, CashbookScope(id), Income)
              && b.totalExpense == Total(s.txns.rows, CashbookScope(id), Expense)
              && b.calculatedBalance == b.totalIncome - b.totalExpense
              && b.storedBalance == c.currentBalance
              && b.initialBalance == c.initialBalance
              && b.netBalance == b.initialBalance + b.calculatedBalance
  {
    match OwnedCashbook(s, id, uid)
    case None => Failed(AppError(404, Text(NotFound)))
    case Some(c) =>
      var income := Total(s.txns.rows, CashbookScope(id), Income);
      var expense := Total(s.txns.rows, CashbookScope(id), Expense);
      Done(200, BalanceView(id, c.name, c.initialBalance, c.currentBalance, income - expense, income, expense,
                            c.initialBalance + (income - expense)))
  }

  /**
   * While the balances hold, the stored balance equals the calculated one,
   * and the net balance is the initial balance plus the stored one.
   */
  lemma BalanceAgrees(s: Store, uid: nat, id: nat)
    requires BalancesHold(s)
    requires CashbookBalance(s, uid, id).Done?
    ensures CashbookBalance(s, uid, id).value.storedBalance == CashbookBalance(s, uid, id).value.calculatedBalance
    ensures CashbookBalance(s, uid, id).value.netBalance
            == CashbookBalance(s, uid, id).value.initialBalance + CashbookBalance(s, uid, id).value.storedBalance
  {
    var c := OwnedCashbook(s, id, uid).value;
    var k :| 0 <= k < |s.cashbooks.rows| && s.cashbooks.rows[k] == Row(id, c);
  }
}

=== FILE: cashbook_schema.dfy ===
/** `createCashbookSchema` and `updateCashbookSchema`. */
module CashbookSchema {
  import opened Wrappers
  import opened JsValues
  import opened Zod
  import opened NameSchema

  /** A validated create body, with the defaults filled in. Money is in cents. */
  datatype NewCashbook = NewCashbook(
    name: string,
    description: Option<string>,
    initialBalance: int,
    isActive: bool)

  /** A validated update body: only the supplied fields; there is no `current_balance`. */
  datatype CashbookPatch = CashbookPatch(
    name: Option<string>,
    description: Option<string>,
    initialBalance: Option<int>,
    isActive: Option<bool>)
  {
    /** No field was supplied. */
    predicate IsEmpty() {
      name.None? && description.None? && initialBalance.None? && isActive.None?
    }
  }

  const FieldNames: set<string> := {"name", "description", "initial_balance", "is_active"}

  // ---------------------------------------------------------------------------
  // What each field accepts, stated directly

  predicate NameOk(v: Value) {
    v.Str? && 1 <= |v.s| <= 100
  }

  predicate DescriptionOk(v: Value) {
    v.Str? && |v.s| <= 500
  }

  predicate BalanceOk(v: Value) {
    v.Num? && v.cents >= 0
  }

  /** The create schema accepts exactly these bodies. */
  predicate CreateBodyOk(body: Object<Value>) {
    && Get(body, "name").Some? && NameOk(Get(body, "name").value)
    && (Get(body, "description").None? || DescriptionOk(Get(body, "description").value))
    && (Get(body, "initial_balance").None? || BalanceOk(Get(body, "initial_balance").value))
    && (Get(body, "is_active").None? || Get(body, "is_active").value.Bool?)
  }

  /** The update schema accepts any subset of the fields under the same bounds. */
  predicate UpdateBodyOk(body: Object<Value>) {
    && (Get(body, "name").None? || NameOk(Get(body, "name").value))
    && (Get(body, "description").None? || DescriptionOk(Get(body, "description").value))
    && (Get(body, "initial_balance").None? || BalanceOk(Get(body, "initial_balance").value))
    && (Get(body, "is_active").None? || Get(body, "is_active").value.Bool?)
  }

  // ---------------------------------------------------------------------------
  // The zod field definitions

  function DescriptionField(v: Option<Value>): (r: Result<Option<string>, seq<string>>)
    ensures r.Ok? <==> v.None? || DescriptionOk(v.value)
    ensures r.Ok? ==> (r.value.Some? <==> v.Some?)
    ensures r.Ok? && v.Some? ==> r.value.value == v.value.s
    ensures r.Err? ==> |r.error| > 0
  {
    var checks := [MaxLen(500, "Description must be less than 500 characters")];
    if v.Some? && v.value.Str? then AllStrOne(checks[0], v.value.s, NoEmailRule); Optional(v, ZString(v, None, checks, NoEmailRule))
    else Optional(v, ZString(v, None, checks, NoEmailRule))
  }

  function BalanceValue(v: Option<Value>): (r: Result<int, seq<string>>)
    ensures r.Ok? <==> v.Some? && BalanceOk(v.value)
    ensures r.Ok? ==> r.value == v.value.cents && r.value >= 0
    ensures r.Err? ==> |r.error| > 0
  {
    var checks := [AtLeast(0, "Initial balance cannot be negative")];
    if v.Some? && v.value.Num? then AllNumOne(checks[0], v.value.cents); ZNumber(v, checks)
    else ZNumber(v, checks)
  }

  function NameOpt(v: Option<Value>): (r: Result<Option<string>, seq<string>>)
    ensures r.Ok? <==> v.None? || NameOk(v.value)
    ensures r.Ok? ==> (r.value.Some? <==> v.Some?)
    ensures r.Ok? && v.Some? ==> r.value.value == v.value.s
    ensures r.Err? ==> |r.error| > 0
  {
    Optional(v, NameField(v, "Cashbook"))
  }

  function BalanceOpt(v: Option<Value>): (r: Result<Option<int>, seq<string>>)
    ensures r.Ok? <==> v.None? || BalanceOk(v.value)
    ensures r.Ok? ==> (r.value.Some? <==> v.Some?)
    ensures r.Ok? && v.Some? ==> r.value.value == v.value.cents
    ensures r.Err? ==> |r.error| > 0
  {
    Optional(v, BalanceValue(v))
  }

  function ActiveOpt(v: Option<Value>): (r: Result<Option<bool>, seq<string>>)
    ensures r.Ok? <==> v.None? || v.value.Bool?
    ensures r.Ok? ==> (r.value.Some? <==> v.Some?)
    ensures r.Ok? && v.Some? ==> r.value.value == v.value.b
    ensures r.Err? ==> |r.error| > 0
  {
    Optional(v, ZBool(v))
  }

  /** The issues of a failed parse, field by field in schema order. */
  function CashbookIssues(na: seq<string>, de: seq<string>, ib: seq<string>, ac: seq<string>): (r: seq<Issue>)
    ensures r == [] <==> na == [] && de == [] && ib == [] && ac == []
    ensures forall i :: 0 <= i < |r| ==> r[i].field in FieldNames
  {
    Tag("name", na) + Tag("description", de) + Tag("initial_balance", ib) + Tag("is_active", ac)
  }

  // ---------------------------------------------------------------------------
  // The schemas

  /** `createCashbookSchema.safeParse(body)`: `initial_balance` defaults to 0 and `is_active` to true. */
  function ValidateCreate(body: Object<Value>): (r: Result<NewCashbook, seq<Issue>>)
    ensures r.Ok? <==> CreateBodyOk(body)
    ensures r.Ok? ==>
              && Get(body, "name") == Some(Str(r.value.name))
              && 1 <= |r.value.name| <= 100
              && (r.value.description.Some? <==> Get(body, "description").Some?)
              && (r.value.description.Some? ==> Get(body, "description") == Some(Str(r.value.description.value)))
              && r.value.initialBalance >= 0
              && (Get(body, "initial_balance").None? ==> r.value.initialBalance == 0)
              && (Get(body, "initial_balance").Some? ==> Get(body, "initial_balance") == Some(Num(r.value.initialBalance)))
              && (Get(body, "is_active").None? ==> r.value.isActive)
              && (Get(body, "is_active").Some? ==> Get(body, "is_active") == Some(Bool(r.value.isActive)))
    ensures r.Err? ==> |r.error| > 0 && forall i :: 0 <= i < |r.error| ==> r.error[i].field in FieldNames
  {
    var na := NameField(Get(body, "name"), "Cashbook");
    var de := DescriptionField(Get(body, "description"));
    var ib := Default(Get(body, "initial_balance"), 0, BalanceValue(Get(body, "initial_balance")));
    var ac := Default(Get(body, "is_active"), true, ZBool(Get(body, "is_active")));
    if na.Ok? && de.Ok? && ib.Ok? && ac.Ok? then
      Ok(NewCashbook(na.value, de.value, ib.value, ac.value))
    else
      Err(CashbookIssues(Errors(na), Errors(de), Errors(ib), Errors(ac)))
  }

  /** `updateCashbookSchema.safeParse(body)`: every field optional, no defaults. */
  function ValidateUpdate(body: Object<Value>): (r: Result<CashbookPatch, seq<Issue>>)
    ensures r.Ok? <==> UpdateBodyOk(body)
    ensures r.Ok? ==>
              && (r.value.name.Some? <==> Get(body, "name").Some?)
              && (r.value.name.Some? ==> Get(body, "name") == Some(Str(r.value.name.value)) && 1 <= |r.value.name.value| <= 100)
              && (r.value.description.Some? <==> Get(body, "description").Some?)
              && (r.value.description.Some? ==> Get(body, "description") == Some(Str(r.value.description.value)))
              && (r.value.initialBalance.Some? <==> Get(body, "initial_balance").Some?)
              && (r.value.initialBalance.Some? ==>
                    Get(body, "initial_balance") == Some(Num(r.value.initialBalance.value)) && r.value.initialBalance.value >= 0)
              && (r.value.isActive.Some? <==> Get(body, "is_active").Some?)
              && (r.value.isActive.Some? ==> Get(body, "is_active") == Some(Bool(r.value.isActive.value)))
    ensures r.Err? ==> |r.error| > 0 && forall i :: 0 <= i < |r.error| ==> r.error[i].field in FieldNames
  {
    var na := NameOpt(Get(body, "name"));
    var de := DescriptionField(Get(body, "description"));
    var ib := BalanceOpt(Get(body, "initial_balance"));
    var ac := ActiveOpt(Get(body, "is_active"));
    if na.Ok? && de.Ok? && ib.Ok? && ac.Ok? then
      Ok(CashbookPatch(na.value, de.value, ib.value, ac.value))
    else
      Err(CashbookIssues(Errors(na), Errors(de), Errors(ib), Errors(ac)))
  }

  /** An empty body passes the update schema, and yields the empty patch. */
  lemma EmptyUpdateAccepted()
    ensures ValidateUpdate([]) == Ok(CashbookPatch(None, None, None, None))
  {
  }
}

=== FILE: category_assignment.dfy ===
/**
 * The category-assignment dialog: which links to add and which to remove
 * when the user saves a new selection, the requests it then sends, and
 * which categories it offers for a transaction.
 */
module CategoryAssignment {
  import opened Wrappers

  /** The elements of `xs`, as a set. */
  function Elems(xs: seq<int>): set<int> {
    set x | x in xs
  }

  /** `xs.filter(id => !excluded.includes(id))`, keeping order. */
  function Without(xs: seq<int>, excluded: seq<int>): (r: seq<int>)
    ensures forall x :: x in r ==> x in xs && x !in excluded
    ensures forall x :: x in xs && x !in excluded ==> x in r
    ensures |r| <= |xs|
  {
    if |xs| == 0 then []
    else
      var n := |xs| - 1;
      assert xs == xs[..n] + [xs[n]];
      Without(xs[..n], excluded) + (if xs[n] in excluded then [] else [xs[n]])
  }

  /** The selection before and after; an absent list reads as empty. */
  function Plan(current: Option<seq<int>>, chosen: Option<seq<int>>): (r: (seq<int>, seq<int>))
    ensures forall x :: x in r.0 <==> x in chosen.GetOr([]) && x !in current.GetOr([])
    ensures forall x :: x in r.1 <==> x in current.GetOr([]) && x !in chosen.GetOr([])
  {
    var now := current.GetOr([]);
    var wanted := chosen.GetOr([]);
    (Without(wanted, now), Without(now, wanted))
  }

  /** What is added was not linked; what is removed was linked; nothing is both. */
  lemma PlanSeparates(current: Option<seq<int>>, chosen: Option<seq<int>>)
    ensures Elems(Plan(current, chosen).0) !! Elems(current.GetOr([]))
    ensures Elems(Plan(current, chosen).1) <= Elems(current.GetOr([]))
    ensures Elems(Plan(current, chosen).0) !! Elems(Plan(current, chosen).1)
  {
  }

  /** Adding then removing the planned ids turns the old selection into the new one. */
  lemma PlanReconciles(current: Option<seq<int>>, chosen: Option<seq<int>>)
    ensures (Elems(current.GetOr([])) + Elems(Plan(current, chosen).0)) - Elems(Plan(current, chosen).1)
            == Elems(chosen.GetOr([]))
  {
  }

  /** An unchanged selection sends no request, whatever the order. */
  lemma {:induction false} PlanUnchanged(current: Option<seq<int>>, chosen: Option<seq<int>>)
    requires Elems(current.GetOr([])) == Elems(chosen.GetOr([]))
    ensures Plan(current, chosen) == ([], [])
  {
    var now := current.GetOr([]);
    var wanted := chosen.GetOr([]);
    assert forall i :: 0 <= i < |wanted| ==> wanted[i] in Elems(wanted);
    assert forall i :: 0 <= i < |now| ==> now[i] in Elems(now);
    WithoutCovered(wanted, now);
    WithoutCovered(now, wanted);
  }

  /** Filtering out a superset leaves nothing. */
  lemma {:induction false} WithoutCovered(xs: seq<int>, excluded: seq<int>)
    requires forall i :: 0 <= i < |xs| ==> xs[i] in excluded
    ensures Without(xs, excluded) == []
  {
    if |xs| > 0 {
      var n := |xs| - 1;
      WithoutCovered(xs[..n], excluded);
      assert Without(xs, excluded) == Without(xs[..n], excluded);
    }
  }

  /**
   * One request the dialog dispatches for a transaction. An id the request
   * leaves `undefined` is `None`.
   */
  datatype Request =
    | Assign(transactionId: int, categoryId: int)
    | Unassign(target: Option<int>, category: Option<int>)

  /** The notice `handleSubmit` shows once every request is dispatched. */
  const Updated: string := "Categories updated successfully"

  /** What a submission sent, the transaction's links once the server has answered, and the notice shown. */
  datatype Submitted = Submitted(sent: seq<Request>, links: set<int>, notice: string)

  /** One assign request per id, in order. */
  function Assigns(txn: int, ids: seq<int>): (r: seq<Request>)
    ensures |r| == |ids|
    ensures forall i :: 0 <= i < |ids| ==> r[i] == Assign(txn, ids[i])
  {
    if |ids| == 0 then [] else [Assign(txn, ids[0])] + Assigns(txn, ids[1..])
  }

  /** One removal request per id, carrying both ids. */
  function Unassigns(txn: int, ids: seq<int>): (r: seq<Request>)
    ensures |r| == |ids|
    ensures forall i :: 0 <= i < |ids| ==> r[i] == Unassign(Some(txn), Some(ids[i]))
  {
    if |ids| == 0 then [] else [Unassign(Some(txn), Some(ids[0]))] + Unassigns(txn, ids[1..])
  }

  /**
   * The removal requests the dialog builds: `mutate(transactionId, categoryId)`
   * hands the transaction id to `mutate` as its variables and the category id
   * as its options, so destructuring `{ transactionId, categoryId }` from a
   * number leaves both undefined.
   */
  function UnassignsAsWritten(ids: seq<int>): (r: seq<Request>)
    ensures |r| == |ids|
    ensures forall i :: 0 <= i < |ids| ==> r[i] == Unassign(None, None)
  {
    if |ids| == 0 then [] else [Unassign(None, None)] + UnassignsAsWritten(ids[1..])
  }

  /** Categories that accepted assign requests link to `txn`. */
  function Added(txn: int, sent: seq<Request>, ok: Request -> bool): set<int> {
    set q | q in sent && q.Assign? && q.transactionId == txn && ok(q) :: q.categoryId
  }

  /** Categories that accepted removal requests unlink from `txn`; a request without ids matches no link. */
  function Dropped(txn: int, sent: seq<Request>, ok: Request -> bool): set<int> {
    set q | q in sent && q.Unassign? && q.target == Some(txn) && q.category.Some? && ok(q) :: q.category.value
  }

  /**
   * The links of `txn` once the server has answered every request in `sent`;
   * `ok` stands for its answer to each one. The requests race, which is
   * harmless here because no id is both added and removed.
   */
  function Landed(links: set<int>, txn: int, sent: seq<Request>, ok: Request -> bool): set<int> {
    (links + Added(txn, sent, ok)) - Dropped(txn, sent, ok)
  }

  /**
   * `handleSubmit` with the removal requests carrying their ids. The
   * mutations are fire-and-forget (`mutate` returns nothing and reports
   * failures to `onError`), so the loop awaits nothing, every request is
   * sent and the success notice is shown whatever the server answers.
   */
  function Submit(txn: int, current: Option<seq<int>>, chosen: Option<seq<int>>, ok: Request -> bool): (r: Submitted)
    ensures |r.sent| == |Plan(current, chosen).0| + |Plan(current, chosen).1|
    ensures forall i :: 0 <= i < |Plan(current, chosen).0| ==> r.sent[i] == Assign(txn, Plan(current, chosen).0[i])
    ensures forall i :: 0 <= i < |Plan(current, chosen).1| ==>
              r.sent[|Plan(current, chosen).0| + i] == Unassign(Some(txn), Some(Plan(current, chosen).1[i]))
    ensures r.notice == Updated
    ensures r.links <= Elems(current.GetOr([])) + Elems(chosen.GetOr([]))
    ensures Elems(current.GetOr([])) * Elems(chosen.GetOr([])) <= r.links
    ensures (forall q :: q in r.sent ==> ok(q)) ==> r.links == Elems(chosen.GetOr([]))
  {
    var add := Plan(current, chosen).0;
    var drop := Plan(current, chosen).1;
    var sent := Assigns(txn, add) + Unassigns(txn, drop);
    SubmitLinks(txn, current, chosen, sent, ok);
    Submitted(sent, Landed(Elems(current.GetOr([])), txn, sent, ok), Updated)
  }

  /** Where the links of a submission end up. */
  lemma SubmitLinks(txn: int, current: Option<seq<int>>, chosen: Option<seq<int>>, sent: seq<Request>, ok: Request -> bool)
    requires sent == Assigns(txn, Plan(current, chosen).0) + Unassigns(txn, Plan(current, chosen).1)
    ensures Landed(Elems(current.GetOr([])), txn, sent, ok) <= Elems(current.GetOr([])) + Elems(chosen.GetOr([]))
    ensures Elems(current.GetOr([])) * Elems(chosen.GetOr([])) <= Landed(Elems(current.GetOr([])), txn, sent, ok)
    ensures (forall q :: q in sent ==> ok(q)) ==> Landed(Elems(current.GetOr([])), txn, sent, ok) == Elems(chosen.GetOr([]))
  {
    SentCovers(txn, Plan(current, chosen).0, Plan(current, chosen).1, sent, ok);
    PlanReconciles(current, chosen);
  }

  /** What the assign and removal requests of a plan can change. */
  lemma SentCovers(txn: int, add: seq<int>, drop: seq<int>, sent: seq<Request>, ok: Request -> bool)
    requires sent == Assigns(txn, add) + Unassigns(txn, drop)
    ensures Added(txn, sent, ok) <= Elems(add)
    ensures Dropped(txn, sent, ok) <= Elems(drop)
    ensures (forall q :: q in sent ==> ok(q)) ==> Added(txn, sent, ok) == Elems(add) && Dropped(txn, sent, ok) == Elems(drop)
  {
    var n := |add|;
    assert forall i :: 0 <= i < |drop| ==> sent[n + i] == Unassign(Some(txn), Some(drop[i]));
    if forall q :: q in sent ==> ok(q) {
      forall c | c in Elems(add) ensures c in Added(txn, sent, ok) {
        var i :| 0 <= i < |add| && add[i] == c;
        assert sent[i] == Assign(txn, c);
      }
      forall c | c in Elems(drop) ensures c in Dropped(txn, sent, ok) {
        var i :| 0 <= i < |drop| && drop[i] == c;
        assert sent[n + i] == Unassign(Some(txn), Some(c));
      }
    }
  }

  /** `handleSubmit` as written: removal requests carry no ids. */
  function SubmitAsWritten(txn: int, current: Option<seq<int>>, chosen: Option<seq<int>>, ok: Request -> bool): (r: Submitted)
    ensures var (add, drop) := Plan(current, chosen);
            |r.sent| == |add| + |drop| &&
            forall i :: |add| <= i < |r.sent| ==> r.sent[i] == Unassign(None, None)
    ensures r.notice == Updated
    ensures Elems(current.GetOr([])) <= r.links
  {
    var (add, drop) := Plan(current, chosen);
    var sent := Assigns(txn, add) + UnassignsAsWritten(drop);
    var links := Landed(Elems(current.GetOr([])), txn, sent, ok);
    assert forall i :: |add| <= i < |sent| ==> sent[i] == Unassign(None, None);
    assert Dropped(txn, sent, ok) == {};
    Submitted(sent, links, Updated)
  }

  /** The server accepting every request. */
  function AcceptAll(q: Request): bool { true }

  /** Everything accepted, yet clearing the only category keeps its link while the dialog reports success. */
  lemma RemovalLost()
    ensures SubmitAsWritten(7, Some([3]), Some([]), AcceptAll).links == {3}
    ensures SubmitAsWritten(7, Some([3]), Some([]), AcceptAll).notice == Updated
    ensures Submit(7, Some([3]), Some([]), AcceptAll).links == {}
  {
    assert Without([], [3]) == [];
    assert Without([3], []) == [3] by {
      assert Without([3][..0], []) == [];
    }
    var r := Submit(7, Some([3]), Some([]), AcceptAll);
    assert forall q :: q in r.sent ==> AcceptAll(q);
  }

  /** A category as the client holds it. */
  datatype Category = Category(id: int, name: string, kind: string)

  /** `getFilteredCategories`: nothing without a transaction, else the categories of its type. */
  function Offered(txnKind: Option<string>, categories: seq<Category>): (r: seq<Category>)
    ensures txnKind.None? ==> r == []
    ensures txnKind.Some? ==> forall c :: c in r <==> c in categories && c.kind == txnKind.value
    ensures |r| <= |categories|
  {
    match txnKind
    case None => []
    case Some(k) => OfKind(categories, k)
  }

  /** `categories.filter(category => category.type === kind)` */
  function OfKind(categories: seq<Category>, kind: string): (r: seq<Category>)
    ensures forall c :: c in r ==> c in categories && c.kind == kind
    ensures forall c :: c in categories && c.kind == kind ==> c in r
    ensures |r| <= |categories|
  {
    if |categories| == 0 then []
    else
      var n := |categories| - 1;
      assert categories == categories[..n] + [categories[n]];
      OfKind(categories[..n], kind) + (if categories[n].kind == kind then [categories[n]] else [])
  }
}

=== FILE: category_controller.dfy ===
/**
 * The category endpoints and the transaction-category links: ownership
 * scoping, duplicate rejection, and the guard against deleting a category
 * that is still in use.
 */
module CategoryController {
  import opened Wrappers
  import opened Tables
  import opened Replies
  import opened JsValues
  import opened Zod
  import opened ApiFeatures
  import opened CategorySchema
  import opened Ledger

  const NotFound: string := "Category not found!"
  const Duplicate: string := "Category with this name already exists for this type!"
  const InUse: string := "Cannot delete category that is being used in transactions!"
  const IdsRequired: string := "Transaction ID and Category ID are required!"
  const TxnDenied: string := "Transaction not found or access denied!"
  const CategoryDenied: string := "Category not found or access denied!"
  const AlreadyAssigned: string := "Category is already assigned to this transaction!"
  const NotRemoved: string := "Couldn't remove category from transaction!"

  // ---------------------------------------------------------------------------
  // Invariants

  /** No user has two categories with the same name and type. */
  ghost predicate CategoriesUnique(s: Store) {
    forall i, j :: 0 <= i < j < |s.categories.rows| ==> s.categories.rows[i].val != s.categories.rows[j].val
  }

  /** No transaction carries the same category twice. */
  ghost predicate LinksUnique(s: Store) {
    forall i, j :: 0 <= i < j < |s.links.rows| ==> s.links.rows[i].val != s.links.rows[j].val
  }

  /**
   * `SELECT * FROM categories WHERE name = ? AND type = ? AND user_id = ?`,
   * skipping the row with key `except` when one is given.
   */
  predicate Clash(rows: seq<Row<Category>>, c: Category, except: Option<nat>) {
    exists i :: 0 <= i < |rows| && rows[i].val == c && (except.None? || rows[i].id != except.value)
  }

  // ---------------------------------------------------------------------------
  // Reads

  const ListQuery: string := "SELECT * FROM categories WHERE user_id = ?"

  /** The requester's categories, of one type when a non-empty `type` is given. */
  predicate Listed(c: Category, uid: nat, kind: Option<string>) {
    c.userId == uid && (!Given(kind) || KindName(c.kind) == kind.value)
  }

  /** `getAllCategories` */
  function ListCategories(s: Store, uid: nat, kind: Option<string>, page: Option<int>, limit: Option<int>)
    : (r: Reply<(seq<Row<Category>>, Page)>)
    ensures var p := Paginate(ListQuery + (if Given(kind) then " AND type = ?" else ""), page, limit,
                              Some(|s.categories.rows|));
            && (r.Failed? <==> p.limit < 0 || (p.page - 1) * p.limit < 0)
            && (r.Done? ==> r.code == 200 && r.value.1 == p && |r.value.0| <= p.limit)
    ensures r.Done? ==> forall x :: x in r.value.0 ==> x in s.categories.rows && Listed(x.val, uid, kind)
  {
    var p := Paginate(ListQuery + (if Given(kind) then " AND type = ?" else ""), page, limit, Some(|s.categories.rows|));
    match Window(Where(s.categories.rows, (c: Category) => Listed(c, uid, kind)), p.values[0], p.values[1])
    case None => Failed(AppError(500, Text(DatabaseRefused)))
    case Some(rows) => Done(200, (rows, p))
  }

  /** With a large enough first page every matching category is listed. */
  lemma ListShowsAllMatching(s: Store, uid: nat, kind: Option<string>, limit: nat, x: Row<Category>)
    requires x in s.categories.rows && Listed(x.val, uid, kind)
    requires |s.categories.rows| <= limit
    ensures ListCategories(s, uid, kind, None, Some(limit)).Done?
    ensures x in ListCategories(s, uid, kind, None, Some(limit)).value.0
  {
    WindowWhole(Where(s.categories.rows, (c: Category) => Listed(c, uid, kind)), limit);
  }

  /** `getCategory` */
  function GetCategory(s: Store, uid: nat, id: nat): (r: Reply<Category>)
    ensures r.Done? <==> OwnedCategory(s, id, uid).Some?
    ensures r.Done? ==> r.code == 200 && r.value.userId == uid && Find(s.categories.rows, id) == Some(r.value)
    ensures r.Failed? ==> r.error == AppError(404, Text(NotFound))
  {
    match OwnedCategory(s, id, uid)
    case None => Failed(AppError(404, Text(NotFound)))
    case Some(c) => Done(200, c)
  }

  // ---------------------------------------------------------------------------
  // Create and update

  /** `createCategory`: validate, refuse a same-name same-type category of the requester, insert. */
  function CreateCategory(s: Store, uid: nat, body: Object<Value>): (r: Step<Row<Category>>)
    requires Valid(s.categories)
    ensures Valid(r.store.categories)
    ensures r.reply.Failed? ==> r.store == s
    ensures !CreateBodyOk(body) ==> r.reply.Failed? && r.reply.error.code == 422
    ensures CreateBodyOk(body) ==>
              var c := Category(uid, ValidateCreate(body).value.name, ValidateCreate(body).value.kind);
              if Clash(s.categories.rows, c, None)
              then r.reply == Failed(AppError(400, Text(Duplicate)))
              else && r.reply == Done(201, Row(s.categories.next, c))
                   && r.store == s.(categories := Insert(s.categories, c))
  {
    match ValidateCreate(body)
    case Err(issues) => Step(Failed(AppError(422, Fields(ErrorMap(issues)))), s)
    case Ok(v) =>
      var c := Category(uid, v.name, v.kind);
      if Clash(s.categories.rows, c, None) then Step(Failed(AppError(400, Text(Duplicate))), s)
      else Step(Done(201, Row(s.categories.next, c)), s.(categories := Insert(s.categories, c)))
  }

  /** Creating keeps categories unique. */
  lemma CreateKeepsUnique(s: Store, uid: nat, body: Object<Value>)
    requires Valid(s.categories) && CategoriesUnique(s)
    ensures CategoriesUnique(CreateCategory(s, uid, body).store)
  {
  }

  /** The same name with the other type is not a clash. */
  lemma OtherTypeAccepted(s: Store, uid: nat, name: string)
    requires Valid(s.categories)
    requires forall i :: 0 <= i < |s.categories.rows| ==> s.categories.rows[i].val != Category(uid, name, Expense)
    requires 1 <= |name| <= 100
    ensures CreateCategory(s, uid, [("name", Str(name)), ("type", Str("expense"))]).reply.Done?
  {
    var body := [("name", Str(name)), ("type", Str("expense"))];
    assert Get(body, "name") == Some(Str(name));
    assert Get(body, "type") == Some(Str("expense"));
  }

  /** The patch's fields replace the category's; the owner never changes. */
  function ApplyPatch(c: Category, p: CategoryPatch): (r: Category)
    ensures r.userId == c.userId
    ensures r.name == p.name.GetOr(c.name) && r.kind == p.kind.GetOr(c.kind)
  {
    c.(name := p.name.GetOr(c.name), kind := p.kind.GetOr(c.kind))
  }

  /** The store after `UPDATE categories SET ... WHERE category_id = ?`. */
  function Patched(s: Store, id: nat, p: CategoryPatch): Store {
    s.(categories := s.categories.(rows := Update(s.categories.rows, id, (c: Category) => ApplyPatch(c, p))))
  }

  /**
   * `updateCategory` as written: the duplicate check runs only when a name
   * is supplied, against the supplied type or else the stored one, and
   * skips the category itself. A change of type alone is not checked.
   */
  function UpdateCategory(s: Store, uid: nat, id: nat, body: Object<Value>): (r: Step<Category>)
    ensures r.reply.Failed? ==> r.store == s
    ensures !UpdateBodyOk(body) ==> r.reply.Failed? && r.reply.error.code == 422
    ensures UpdateBodyOk(body) && OwnedCategory(s, id, uid).None? ==> r.reply == Failed(AppError(404, Text(NotFound)))
    ensures UpdateBodyOk(body) && OwnedCategory(s, id, uid).Some? ==>
              var p := ValidateUpdate(body).value;
              var prior := OwnedCategory(s, id, uid).value;
              if p.name.Some? && Clash(s.categories.rows, Category(uid, p.name.value, p.kind.GetOr(prior.kind)), Some(id))
              then r.reply == Failed(AppError(400, Text(Duplicate)))
              else if p.IsEmpty() then r.reply.Failed? && r.reply.error.code == 500
              else r.reply == Done(200, ApplyPatch(prior, p)) && r.store == Patched(s, id, p)
  {
    match ValidateUpdate(body)
    case Err(issues) => Step(Failed(AppError(422, Fields(ErrorMap(issues)))), s)
    case Ok(p) =>
      match OwnedCategory(s, id, uid)
      case None => Step(Failed(AppError(404, Text(NotFound))), s)
      case Some(prior) =>
        if p.name.Some? && Clash(s.categories.rows, Category(uid, p.name.value, p.kind.GetOr(prior.kind)), Some(id)) then
          Step(Failed(AppError(400, Text(Duplicate))), s)
        else if p.IsEmpty() then Step(Failed(AppError(500, Text(DatabaseRefused))), s)
        else Step(Done(200, ApplyPatch(prior, p)), Patched(s, id, p))
  }

  /** Two same-named categories of user 1, one of each type. */
  const Food: Store := Store(
    Table([], 1),
    Table([], 1),
    Table([], 1),
    Table([Row(1, Category(1, "Food", Income)), Row(2, Category(1, "Food", Expense))], 3),
    Table([], 1))

  /** Switching the second one to income is accepted and leaves two identical categories. */
  lemma TypeOnlyUpdateDuplicates()
    ensures CategoriesUnique(Food)
    ensures UpdateCategory(Food, 1, 2, [("type", Str("income"))]).reply.Done?
    ensures !CategoriesUnique(UpdateCategory(Food, 1, 2, [("type", Str("income"))]).store)
  {
    var body := [("type", Str("income"))];
    assert Get(body, "type") == Some(Str("income"));
    assert Get(body, "name") == None;
    var p := CategoryPatch(None, Some(Income));
    assert ValidateUpdate(body) == Ok(p);
    assert OwnedCategory(Food, 2, 1) == Some(Category(1, "Food", Expense));
    var r := Patched(Food, 2, p);
    assert UpdateCategory(Food, 1, 2, body).store == r;
    assert r.categories.rows[0].val == r.categories.rows[1].val;
  }

  /**
   * `updateCategory` with the duplicate check the invariant needs: whenever
   * the name or the type changes, the resulting name and type must not
   * belong to another of the requester's categories.
   */
  function UpdateCategoryChecked(s: Store, uid: nat, id: nat, body: Object<Value>): (r: Step<Category>)
    ensures r.reply.Failed? ==> r.store == s
    ensures !UpdateBodyOk(body) ==> r.reply.Failed? && r.reply.error.code == 422
    ensures UpdateBodyOk(body) && OwnedCategory(s, id, uid).None? ==> r.reply == Failed(AppError(404, Text(NotFound)))
    ensures UpdateBodyOk(body) && OwnedCategory(s, id, uid).Some? ==>
              var p := ValidateUpdate(body).value;
              var prior := OwnedCategory(s, id, uid).value;
              if !p.IsEmpty() && Clash(s.categories.rows, ApplyPatch(prior, p), Some(id))
              then r.reply == Failed(AppError(400, Text(Duplicate)))
              else if p.IsEmpty() then r.reply.Failed? && r.reply.error.code == 500
              else r.reply == Done(200, ApplyPatch(prior, p)) && r.store == Patched(s, id, p)
  {
    match ValidateUpdate(body)
    case Err(issues) => Step(Failed(AppError(422, Fields(ErrorMap(issues)))), s)
    case Ok(p) =>
      match OwnedCategory(s, id, uid)
      case None => Step(Failed(AppError(404, Text(NotFound))), s)
      case Some(prior) =>
        if p.IsEmpty() then Step(Failed(AppError(500, Text(DatabaseRefused))), s)
        else if Clash(s.categories.rows, ApplyPatch(prior, p), Some(id)) then Step(Failed(AppError(400, Text(Duplicate))), s)
        else Step(Done(200, ApplyPatch(prior, p)), Patched(s, id, p))
  }

  /** The checked update keeps categories unique. */
  lemma UpdateCheckedKeepsUnique(s: Store, uid: nat, id: nat, body: Object<Value>)
    requires Valid(s.categories) && CategoriesUnique(s)
    ensures CategoriesUnique(UpdateCategoryChecked(s, uid, id, body).store)
  {
    var r := UpdateCategoryChecked(s, uid, id, body);
    if r.reply.Done? {
      var p := ValidateUpdate(body).value;
      var prior := OwnedCategory(s, id, uid).value;
      var rows := s.categories.rows;
      var u := r.store.categories.rows;
      FindUnique(rows, id, prior);
      forall i, j | 0 <= i < j < |u| ensures u[i].val != u[j].val {
        if rows[i].id == id {
          assert u[i].val == ApplyPatch(prior, p) && u[j] == rows[j];
        } else if rows[j].id == id {
          assert u[j].val == ApplyPatch(prior, p) && u[i] == rows[i];
        }
      }
    }
  }

  // ---------------------------------------------------------------------------
  // Delete

  /** `SELECT COUNT(*) FROM transaction_categories WHERE category_id = ?` is non-zero. */
  predicate InUseBy(links: seq<Row<Link>>, id: nat) {
    exists i :: 0 <= i < |links| && links[i].val.categoryId == id
  }

  /** `deleteCategory`: only an owned category that no link references is removed. */
  function DeleteCategory(s: Store, uid: nat, id: nat): (r: Step<string>)
    ensures r.reply.Failed? ==> r.store == s
    ensures OwnedCategory(s, id, uid).None? ==> r.reply == Failed(AppError(404, Text(NotFound)))
    ensures OwnedCategory(s, id, uid).Some? && InUseBy(s.links.rows, id) ==> r.reply == Failed(AppError(400, Text(InUse)))
    ensures r.reply.Done? <==> OwnedCategory(s, id, uid).Some? && !InUseBy(s.links.rows, id)
    ensures r.reply.Done? ==>
              && r.store == s.(categories := s.categories.(rows := Remove(s.categories.rows, id)))
              && Ids(r.store.categories.rows) == Ids(s.categories.rows) - {id}
  {
    match OwnedCategory(s, id, uid)
    case None => Step(Failed(AppError(404, Text(NotFound))), s)
    case Some(_) =>
      if InUseBy(s.links.rows, id) then Step(Failed(AppError(400, Text(InUse))), s)
      else Step(Done(200, "Category deleted successfully!"), s.(categories := s.categories.(rows := Remove(s.categories.rows, id))))
  }

  /** Every link still names an existing category. */
  ghost predicate LinksResolve(s: Store) {
    forall i :: 0 <= i < |s.links.rows| ==> s.links.rows[i].val.categoryId in Ids(s.categories.rows)
  }

  /** Deleting a category never leaves a link pointing at it, and keeps the other categories. */
  lemma DeleteKeepsLinksResolved(s: Store, uid: nat, id: nat)
    requires LinksResolve(s)
    ensures LinksResolve(DeleteCategory(s, uid, id).store)
  {
    var r := DeleteCategory(s, uid, id);
    if r.reply.Done? {
      forall i | 0 <= i < |s.links.rows| ensures s.links.rows[i].val.categoryId in Ids(r.store.categories.rows) {
        assert s.links.rows[i].val.categoryId != id;
      }
    }
  }

  // ---------------------------------------------------------------------------
  // Links

  /** `transaction_id` and `category_id` of the assign body; an absent field or a zero is falsy. */
  function Present(v: Option<int>): bool {
    v.Some? && v.value != 0
  }

  /** An id a lookup can match: row keys are positive (`Valid`), so anything else finds no row. */
  function AsKey(n: int): nat {
    if n > 0 then n else 0
  }

  /** The link table has a row for this pair. */
  predicate Linked(links: seq<Row<Link>>, l: Link) {
    exists i :: 0 <= i < |links| && links[i].val == l
  }

  /**
   * `assignCategoryToTransaction`: both ids required, both rows the
   * requester's, the pair not linked yet; then one link is added.
   */
  function AssignCategory(s: Store, uid: nat, txnId: Option<int>, categoryId: Option<int>): (r: Step<string>)
    requires Wf(s)
    ensures Valid(r.store.links)
    ensures r.reply.Failed? ==> r.store == s
    ensures Present(txnId) && Present(categoryId) && txnId.value < 0 ==> r.reply == Failed(AppError(404, Text(TxnDenied)))
    ensures !Present(txnId) || !Present(categoryId) ==> r.reply == Failed(AppError(400, Text(IdsRequired)))
    ensures Present(txnId) && Present(categoryId) ==>
              var t := AsKey(txnId.value);
              var c := AsKey(categoryId.value);
              if OwnedTxn(s, t, uid).None? then r.reply == Failed(AppError(404, Text(TxnDenied)))
              else if OwnedCategory(s, c, uid).None? then r.reply == Failed(AppError(404, Text(CategoryDenied)))
              else if Linked(s.links.rows, Link(t, c)) then r.reply == Failed(AppError(400, Text(AlreadyAssigned)))
              else r.reply.Done? && r.reply.code == 201 && r.store == s.(links := Insert(s.links, Link(t, c)))
  {
    if !Present(txnId) || !Present(categoryId) then Step(Failed(AppError(400, Text(IdsRequired))), s)
    else
      var t := AsKey(txnId.value);
      var c := AsKey(categoryId.value);
      if OwnedTxn(s, t, uid).None? then Step(Failed(AppError(404, Text(TxnDenied))), s)
      else if OwnedCategory(s, c, uid).None? then Step(Failed(AppError(404, Text(CategoryDenied))), s)
      else if Linked(s.links.rows, Link(t, c)) then Step(Failed(AppError(400, Text(AlreadyAssigned))), s)
      else
        Step(Done(201, "Category assigned to transaction successfully!"), s.(links := Insert(s.links, Link(t, c))))
  }

  /** Assigning never creates a duplicate link. */
  lemma AssignKeepsLinksUnique(s: Store, uid: nat, txnId: Option<int>, categoryId: Option<int>)
    requires Wf(s) && LinksUnique(s)
    ensures LinksUnique(AssignCategory(s, uid, txnId, categoryId).store)
  {
  }

  /** The filter of the DELETE below: every link but `l`. */
  function Other(l: Link): Link -> bool {
    (x: Link) => x != l
  }

  /** The rows of a link table minus every row for one pair: `DELETE ... WHERE transaction_id = ? AND category_id = ?`. */
  function Unlink(rows: seq<Row<Link>>, l: Link): (r: (seq<Row<Link>>, nat))
    ensures r.0 == Where(rows, Other(l))
    ensures r.1 == |rows| - |r.0|
    ensures r.1 == 0 <==> !Linked(rows, l)
  {
    var kept := Where(rows, Other(l));
    UnlinkCount(rows, l);
    (kept, |rows| - |kept|)
  }

  /** The number of rows that match the pair. */
  function Matches(rows: seq<Row<Link>>, l: Link): nat {
    if |rows| == 0 then 0 else Matches(rows[..|rows| - 1], l) + (if rows[|rows| - 1].val == l then 1 else 0)
  }

  /** The DELETE removes exactly the matching rows; none match when the pair is unlinked. */
  lemma {:induction false} UnlinkCount(rows: seq<Row<Link>>, l: Link)
    ensures |Where(rows, Other(l))| + Matches(rows, l) == |rows|
    ensures Matches(rows, l) == 0 <==> !Linked(rows, l)
  {
    if |rows| > 0 {
      var n := |rows| - 1;
      UnlinkCount(rows[..n], l);
      WhereLast(rows, Other(l));
      LinkedLast(rows, l);
    }
  }

  /** A pair is linked in a table iff it is linked before the last row or by it. */
  lemma LinkedLast(rows: seq<Row<Link>>, l: Link)
    requires |rows| > 0
    ensures Linked(rows, l) <==> Linked(rows[..|rows| - 1], l) || rows[|rows| - 1].val == l
  {
    var n := |rows| - 1;
    if Linked(rows, l) {
      var i :| 0 <= i < |rows| && rows[i].val == l;
      if i < n { assert rows[..n][i].val == l; }
    }
    if Linked(rows[..n], l) {
      var i :| 0 <= i < n && rows[..n][i].val == l;
      assert rows[i].val == l;
    }
  }

  /** With unique links at most one row matches a pair. */
  lemma {:induction false} MatchesAtMostOne(rows: seq<Row<Link>>, l: Link)
    requires forall i, j :: 0 <= i < j < |rows| ==> rows[i].val != rows[j].val
    ensures Matches(rows, l) <= 1
  {
    if |rows| > 0 {
      var n := |rows| - 1;
      var prefix := rows[..n];
      assert forall i :: 0 <= i < n ==> prefix[i] == rows[i];
      MatchesAtMostOne(prefix, l);
      if rows[n].val == l {
        UnlinkCount(prefix, l);
        assert forall i :: 0 <= i < n ==> prefix[i].val != l;
      }
    }
  }

  /**
   * `removeCategoryFromTransaction`: after the ownership checks, delete the
   * pair's rows; anything but exactly one deleted row is an error, though
   * the rows are gone all the same.
   */
  function RemoveCategory(s: Store, uid: nat, txnId: nat, categoryId: nat): (r: Step<string>)
    ensures OwnedTxn(s, txnId, uid).None? ==> r == Step(Failed(AppError(404, Text(TxnDenied))), s)
    ensures OwnedTxn(s, txnId, uid).Some? && OwnedCategory(s, categoryId, uid).None? ==>
              r == Step(Failed(AppError(404, Text(CategoryDenied))), s)
    ensures OwnedTxn(s, txnId, uid).Some? && OwnedCategory(s, categoryId, uid).Some? ==>
              && r.store == s.(links := s.links.(rows := Unlink(s.links.rows, Link(txnId, categoryId)).0))
              && (r.reply.Done? <==> Unlink(s.links.rows, Link(txnId, categoryId)).1 == 1)
    ensures r.reply.Done? ==> !Linked(r.store.links.rows, Link(txnId, categoryId))
    ensures !Linked(s.links.rows, Link(txnId, categoryId)) ==> r.store == s && r.reply.Failed?
    ensures OwnedTxn(s, txnId, uid).Some? && OwnedCategory(s, categoryId, uid).Some? && !Linked(s.links.rows, Link(txnId, categoryId)) ==>
              r == Step(Failed(AppError(500, Text(NotRemoved))), s)
  {
    if OwnedTxn(s, txnId, uid).None? then Step(Failed(AppError(404, Text(TxnDenied))), s)
    else if OwnedCategory(s, categoryId, uid).None? then Step(Failed(AppError(404, Text(CategoryDenied))), s)
    else
      var l := Link(txnId, categoryId);
      var (kept, removed) := Unlink(s.links.rows, l);
      assert !Linked(s.links.rows, l) ==> kept == s.links.rows by {
        if !Linked(s.links.rows, l) { WhereAll(s.links.rows, l); }
      }
      var s1 := s.(links := s.links.(rows := kept));
      if removed != 1 then Step(Failed(AppError(500, Text(NotRemoved))), s1)
      else Step(Done(200, "Category removed from transaction successfully!"), s1)
  }

  /** Filtering out a pair that no row carries keeps every row. */
  lemma {:induction false} WhereAll(rows: seq<Row<Link>>, l: Link)
    requires !Linked(rows, l)
    ensures Where(rows, Other(l)) == rows
  {
    if |rows| > 0 {
      var n := |rows| - 1;
      LinkedLast(rows, l);
      WhereAll(rows[..n], l);
      WhereLast(rows, Other(l));
      assert rows == rows[..n] + [rows[n]];
    }
  }

  /** With unique links, removing an existing link succeeds and removing a missing one fails without change. */
  lemma RemoveLinkOutcome(s: Store, uid: nat, txnId: nat, categoryId: nat)
    requires LinksUnique(s)
    requires OwnedTxn(s, txnId, uid).Some? && OwnedCategory(s, categoryId, uid).Some?
    ensures RemoveCategory(s, uid, txnId, categoryId).reply.Done? <==> Linked(s.links.rows, Link(txnId, categoryId))
  {
    MatchesAtMostOne(s.links.rows, Link(txnId, categoryId));
    UnlinkCount(s.links.rows, Link(txnId, categoryId));
  }
}

=== FILE: category_schema.dfy ===
/** `createCategorySchema` and `updateCategorySchema`. */
module CategorySchema {
  import opened Wrappers
  import opened JsValues
  import opened Zod
  import opened NameSchema
  import opened Ledger
  import opened KindSchema

  /** A validated create body. */
  datatype NewCategory = NewCategory(name: string, kind: Kind)

  /** A validated update body: only the supplied fields. */
  datatype CategoryPatch = CategoryPatch(name: Option<string>, kind: Option<Kind>) {

    /** No field was supplied. */
    predicate IsEmpty() {
      name.None? && kind.None?
    }
  }

  const FieldNames: set<string> := {"name", "type"}

  predicate NameOk(v: Value) {
    v.Str? && 1 <= |v.s| <= 100
  }

  /** The create schema accepts exactly these bodies. */
  predicate CreateBodyOk(body: Object<Value>) {
    && Get(body, "name").Some? && NameOk(Get(body, "name").value)
    && Get(body, "type").Some? && KindOk(Get(body, "type").value)
  }

  /** The update schema accepts any subset of the two fields, the empty body included. */
  predicate UpdateBodyOk(body: Object<Value>) {
    && (Get(body, "name").None? || NameOk(Get(body, "name").value))
    && (Get(body, "type").None? || KindOk(Get(body, "type").value))
  }

  /** `createCategorySchema.safeParse(body)` */
  function ValidateCreate(body: Object<Value>): (r: Result<NewCategory, seq<Issue>>)
    ensures r.Ok? <==> CreateBodyOk(body)
    ensures r.Ok? ==>
              && Get(body, "name") == Some(Str(r.value.name))
              && 1 <= |r.value.name| <= 100
              && Get(body, "type") == Some(Str(KindName(r.value.kind)))
    ensures r.Err? ==> |r.error| > 0 && forall i :: 0 <= i < |r.error| ==> r.error[i].field in FieldNames
    ensures r.Err? && !(Get(body, "type").Some? && KindOk(Get(body, "type").value)) ==>
              Issue("type", TypeMessage) in r.error
  {
    var na := NameField(Get(body, "name"), "Category");
    var ty := KindField(Get(body, "type"));
    if na.Ok? && ty.Ok? then Ok(NewCategory(na.value, ty.value))
    else
      var issues := Tag("name", Errors(na)) + Tag("type", Errors(ty));
      assert ty.Err? ==> issues[|issues| - 1] == Issue("type", TypeMessage);
      Err(issues)
  }

  /** `updateCategorySchema.safeParse(body)` */
  function ValidateUpdate(body: Object<Value>): (r: Result<CategoryPatch, seq<Issue>>)
    ensures r.Ok? <==> UpdateBodyOk(body)
    ensures r.Ok? ==>
              && (r.value.name.Some? <==> Get(body, "name").Some?)
              && (r.value.name.Some? ==> Get(body, "name") == Some(Str(r.value.name.value)) && 1 <= |r.value.name.value| <= 100)
              && (r.value.kind.Some? <==> Get(body, "type").Some?)
              && (r.value.kind.Some? ==> Get(body, "type") == Some(Str(KindName(r.value.kind.value))))
    ensures r.Err? ==> |r.error| > 0 && forall i :: 0 <= i < |r.error| ==> r.error[i].field in FieldNames
  {
    var na := Optional(Get(body, "name"), NameField(Get(body, "name"), "Category"));
    var ty := Optional(Get(body, "type"), KindField(Get(body, "type")));
    if na.Ok? && ty.Ok? then Ok(CategoryPatch(na.value, ty.value))
    else Err(Tag("name", Errors(na)) + Tag("type", Errors(ty)))
  }
}

=== FILE: error_controller.dfy ===
/**
 * The global error handler: fill in the defaults, prefer the SQL message,
 * parse a validation error's field map, then answer according to the
 * environment.
 */
module ErrorController {
  import opened Wrappers
  import opened Text
  import opened Replies

  /** `NODE_ENV` */
  datatype Env = Development | Production | Other

  /**
   * The error reaching the handler, as far as the handler reads it: its
   * class name, its message, and the enumerable fields an `ErrorStack` or a
   * database error carries.
   */
  datatype Thrown = Thrown(
    name: string,
    message: Msg,
    sqlMessage: Option<string>,
    statusCode: Option<int>,
    status: Option<string>,
    isOperational: bool)

  /** The `status` field of a response body: a boolean or an `ErrorStack` status label. */
  datatype Status = Flag(b: bool) | Label(s: string)

  /**
   * What the client gets: a JSON body with this code, status and message;
   * nothing at all; or a crash inside the handler (a 422 whose message is
   * not the JSON of a field map).
   */
  datatype Outcome = Sent(code: int, status: Status, message: Msg) | Silent | Crashed

  const GenericMessage: string := "Something went wrong!"
  const InvalidToken: string := "Invalid token. Please log in again!"
  const ExpiredToken: string := "Your token has expired! Please log in again"

  /** The handler's working copy: `{ status: 'error', statusCode: 500, message, ...err }`. */
  datatype Working = Working(status: string, statusCode: int, message: Msg, isOperational: bool)

  /** The defaults, overridden by the fields the error carries; a non-empty `sqlMessage` replaces the message. */
  function Normalise(err: Thrown): (w: Working)
    ensures w.status == err.status.GetOr("error")
    ensures w.statusCode == err.statusCode.GetOr(500)
    ensures err.sqlMessage.Some? && err.sqlMessage.value != "" ==> w.message == Text(err.sqlMessage.value)
    ensures err.sqlMessage.None? || err.sqlMessage.value == "" ==> w.message == err.message
    ensures w.isOperational == err.isOperational
  {
    var message := if err.sqlMessage.Some? && err.sqlMessage.value != "" then Text(err.sqlMessage.value) else err.message;
    Working(err.status.GetOr("error"), err.statusCode.GetOr(500), message, err.isOperational)
  }

  /** `new ErrorStack(message, code)`, operational, with the status label `statusOf` gives for its code. */
  function Stack(message: string, code: int, statusOf: int -> string): Working {
    Working(statusOf(code), code, Text(message), true)
  }

  /** `sendErrorProd`: operational errors keep code, label and message on `/api` routes; others are masked. */
  function SendProd(w: Working, url: string): (o: Outcome)
    ensures !StartsWith(url, "/api") ==> o == Silent
    ensures StartsWith(url, "/api") && w.isOperational ==> o == Sent(w.statusCode, Label(w.status), w.message)
    ensures StartsWith(url, "/api") && !w.isOperational ==> o == Sent(500, Flag(false), Text(GenericMessage))
  {
    if !StartsWith(url, "/api") then Silent
    else if w.isOperational then Sent(w.statusCode, Label(w.status), w.message)
    else Sent(500, Flag(false), Text(GenericMessage))
  }

  /**
   * The handler. `statusOf` is the status label `ErrorStack` derives from a
   * code; it is not part of this model.
   */
  function Handle(err: Thrown, url: string, env: Env, statusOf: int -> string): (o: Outcome)
    ensures Normalise(err).statusCode == 422 && Normalise(err).message.Text? ==> o == Crashed
    ensures env == Other && o != Crashed ==> o == Silent
    ensures env == Development && o != Crashed ==>
              o == Sent(Normalise(err).statusCode, Flag(false), Normalise(err).message)
    ensures env == Production && !StartsWith(url, "/api") && o != Crashed ==> o == Silent
    ensures env == Production && o != Crashed && err.name != "JsonWebTokenError" && err.name != "TokenExpiredError" ==>
              o == SendProd(Normalise(err), url)
    ensures env == Production && o != Crashed && err.name == "JsonWebTokenError" ==>
              o == SendProd(Stack(InvalidToken, 401, statusOf), url)
    ensures env == Production && o != Crashed && err.name == "TokenExpiredError" ==>
              o == SendProd(Stack(ExpiredToken, 401, statusOf), url)
    ensures o.Sent? && o.code != 500 && o.code != Normalise(err).statusCode ==>
              env == Production && o.code == 401
              && (err.name == "JsonWebTokenError" || err.name == "TokenExpiredError")
  {
    var w := Normalise(err);
    if w.statusCode == 422 && w.message.Text? then Crashed
    else
      match env
      case Development => Sent(w.statusCode, Flag(false), w.message)
      case Other => Silent
      case Production =>
        var w1 := if err.name == "JsonWebTokenError" then Stack(InvalidToken, 401, statusOf) else w;
        var w2 := if err.name == "TokenExpiredError" then Stack(ExpiredToken, 401, statusOf) else w1;
        SendProd(w2, url)
  }

  /** A validation error reaches the client, in either answering environment, as its field map with code 422. */
  lemma ValidationErrorKeepsFields(fields: map<string, string>, url: string, env: Env, statusOf: int -> string)
    requires env == Development || StartsWith(url, "/api")
    requires env != Other
    ensures var o := Handle(Thrown("Error", Fields(fields), None, Some(422), Some(statusOf(422)), true), url, env, statusOf);
            o.Sent? && o.code == 422 && o.message == Fields(fields)
  {
  }

  /** In production an invalid or expired token becomes a 401 with its fixed message on `/api` routes. */
  lemma TokenErrorsBecome401(err: Thrown, url: string, statusOf: int -> string)
    requires err.name == "JsonWebTokenError" || err.name == "TokenExpiredError"
    requires StartsWith(url, "/api")
    requires !(Normalise(err).statusCode == 422 && Normalise(err).message.Text?)
    ensures Handle(err, url, Production, statusOf)
            == Sent(401, Label(statusOf(401)),
                    Text(if err.name == "JsonWebTokenError" then InvalidToken else ExpiredToken))
  {
  }

  /** A database error in production is masked as a 500, whatever its message. */
  lemma DatabaseErrorMasked(sqlMessage: string, url: string, statusOf: int -> string)
    requires StartsWith(url, "/api")
    ensures Handle(Thrown("Error", Text(""), Some(sqlMessage), None, None, false), url, Production, statusOf)
            == Sent(500, Flag(false), Text(GenericMessage))
  {
  }

  /** In development the database message is shown, with code 500. */
  lemma DatabaseErrorShownInDevelopment(sqlMessage: string, url: string, statusOf: int -> string)
    requires sqlMessage != ""
    ensures Handle(Thrown("Error", Text(""), Some(sqlMessage), None, None, false), url, Development, statusOf)
            == Sent(500, Flag(false), Text(sqlMessage))
  {
  }
}

=== FILE: jsvalues.dfy ===
/** Request bodies as the server receives them: JSON values and objects with ordered, unique keys. */
module JsValues {
  import opened Wrappers

  /**
   * A JSON value of a request body. Numbers are carried as an exact count of
   * hundredths (`Num(1050)` is 10.5); `DateObj` is a JavaScript `Date`.
   */
  datatype Value = Null | Bool(b: bool) | Num(cents: int) | Str(s: string) | DateObj | Arr(items: seq<Value>) | Obj

  /** The type name zod reports in "Expected X, received Y". */
  function TypeName(v: Value): string {
    match v
    case Null => "null"
    case Bool(_) => "boolean"
    case Num(_) => "number"
    case Str(_) => "string"
    case DateObj => "date"
    case Arr(_) => "array"
    case Obj => "object"
  }

  /** A JavaScript object: its own keys in insertion order with their values. */
  type Object<V> = seq<(string, V)>

  /** Object keys are unique. */
  ghost predicate UniqueKeys<V>(o: Object<V>) {
    forall i, j :: 0 <= i < j < |o| ==> o[i].0 != o[j].0
  }

  function Keys<V>(o: Object<V>): set<string> {
    set i | 0 <= i < |o| :: o[i].0
  }

  /** `o[k]`, absent when the object has no such key. */
  function Get<V>(o: Object<V>, k: string): Option<V> {
    if |o| == 0 then None
    else if o[0].0 == k then Some(o[0].1)
    else Get(o[1..], k)
  }

  /** A key is found exactly when the object has it. */
  lemma GetKeys<V>(o: Object<V>, k: string)
    ensures Get(o, k).Some? <==> k in Keys(o)
  {
    if |o| > 0 && o[0].0 != k {
      GetKeys(o[1..], k);
      assert Keys(o) == {o[0].0} + Keys(o[1..]) by {
        assert forall i :: 0 < i < |o| ==> o[i] == o[1..][i - 1];
      }
    }
  }
}

=== FILE: kind_schema.dfy ===
/**
 * The `type` field shared by the transaction and category schemas:
 * `z.enum(['income', 'expense'], { errorMap })`.
 */
module KindSchema {
  import opened Wrappers
  import opened JsValues
  import opened Zod
  import opened Ledger

  const TypeMessage: string := "Type must be either income or expense"

  predicate KindOk(v: Value) {
    v.Str? && (v.s == "income" || v.s == "expense")
  }

  /** Every failure, a missing field included, reports the one custom message. */
  function KindField(v: Option<Value>): (r: Result<Kind, seq<string>>)
    ensures r.Ok? <==> v.Some? && KindOk(v.value)
    ensures r.Ok? ==> v.value.s == KindName(r.value)
    ensures r.Err? ==> r.error == [TypeMessage]
  {
    match ZEnum(v, ["income", "expense"], TypeMessage)
    case Ok(s) => Ok(if s == "income" then Income else Expense)
    case Err(e) => Err(e)
  }
}

=== FILE: ledger.dfy ===
/**
 * The data model of the ledger: users, cashbooks, transactions, categories
 * and transaction-category links held in an abstract store, with money in
 * integer cents, plus the aggregates the controllers compute over it.
 */
module Ledger {
  import opened Wrappers
  import opened Tables
  import opened Replies

  /** A transaction or category type. */
  datatype Kind = Income | Expense

  /** The enum literal stored in the `type` column. */
  function KindName(k: Kind): (r: string)
    ensures r == "income" || r == "expense"
    ensures k == Income <==> r == "income"
  {
    match k
    case Income => "income"
    case Expense => "expense"
  }

  datatype User = User(name: string, email: string, password: string)

  datatype Cashbook = Cashbook(
    userId: nat,
    name: string,
    description: Option<string>,
    initialBalance: int,
    currentBalance: int,
    isActive: bool)

  /** A transaction date as validated: the text `dddd-dd-dd` or a date value. */
  datatype TxnDate = DateText(text: string) | DateValue

  datatype Txn = Txn(
    userId: nat,
    cashbookId: nat,
    kind: Kind,
    amount: int,
    sourcePerson: string,
    description: Option<string>,
    date: TxnDate)

  datatype Category = Category(userId: nat, name: string, kind: Kind)

  /** A `transaction_categories` row. */
  datatype Link = Link(txnId: nat, categoryId: nat)

  datatype Store = Store(
    users: Table<User>,
    cashbooks: Table<Cashbook>,
    txns: Table<Txn>,
    categories: Table<Category>,
    links: Table<Link>)

  /** The result of one request: the reply and the store after it. */
  datatype Step<V> = Step(reply: Reply<V>, store: Store)

  /**
   * Well-formed store: every table has valid keys, and every transaction
   * names a cashbook key that has been handed out (so a new cashbook starts
   * with no transactions).
   */
  ghost predicate Wf(s: Store) {
    && Valid(s.users)
    && Valid(s.cashbooks)
    && Valid(s.txns)
    && Valid(s.categories)
    && Valid(s.links)
    && forall i :: 0 <= i < |s.txns.rows| ==> s.txns.rows[i].val.cashbookId < s.cashbooks.next
  }

  // ---------------------------------------------------------------------------
  // Ownership-scoped lookups: `SELECT * FROM t WHERE id = ? AND user_id = ?`

  function OwnedCashbook(s: Store, id: nat, uid: nat): (r: Option<Cashbook>)
    ensures r.Some? ==> r.value.userId == uid && Find(s.cashbooks.rows, id) == r
    ensures r.None? ==> Find(s.cashbooks.rows, id).None? || Find(s.cashbooks.rows, id).value.userId != uid
  {
    match Find(s.cashbooks.rows, id)
    case Some(c) => if c.userId == uid then Some(c) else None
    case None => None
  }

  function OwnedTxn(s: Store, id: nat, uid: nat): (r: Option<Txn>)
    ensures r.Some? ==> r.value.userId == uid && Find(s.txns.rows, id) == r
    ensures r.None? ==> Find(s.txns.rows, id).None? || Find(s.txns.rows, id).value.userId != uid
  {
    match Find(s.txns.rows, id)
    case Some(t) => if t.userId == uid then Some(t) else None
    case None => None
  }

  function OwnedCategory(s: Store, id: nat, uid: nat): (r: Option<Category>)
    ensures r.Some? ==> r.value.userId == uid && Find(s.categories.rows, id) == r
    ensures r.None? ==> Find(s.categories.rows, id).None? || Find(s.categories.rows, id).value.userId != uid
  {
    match Find(s.categories.rows, id)
    case Some(c) => if c.userId == uid then Some(c) else None
    case None => None
  }

  // ---------------------------------------------------------------------------
  // Aggregates over transactions

  /** The WHERE clause of an aggregate: optionally one user, optionally one cashbook. */
  datatype Scope = Scope(user: Option<nat>, cashbook: Option<nat>)

  predicate InScope(t: Txn, sc: Scope) {
    && (sc.user.None? || t.userId == sc.user.value)
    && (sc.cashbook.None? || t.cashbookId == sc.cashbook.value)
  }

  /** `WHERE cashbook_id = ?` */
  function CashbookScope(cb: nat): Scope {
    Scope(None, Some(cb))
  }

  /** No row carries a negative amount. */
  predicate NoNegative(rows: seq<Row<Txn>>) {
    forall i :: 0 <= i < |rows| ==> rows[i].val.amount >= 0
  }

  /** `SUM(CASE WHEN type = k THEN amount ELSE 0 END)` over the rows in scope. */
  function Total(rows: seq<Row<Txn>>, sc: Scope, k: Kind): (r: int)
    ensures NoNegative(rows) ==> r >= 0
  {
    if |rows| == 0 then 0
    else
      var last := rows[|rows| - 1].val;
      Total(rows[..|rows| - 1], sc, k) + (if InScope(last, sc) && last.kind == k then last.amount else 0)
  }

  /** `SUM(CASE WHEN type = 'income' THEN amount ELSE -amount END)` over the rows in scope. */
  function Signed(rows: seq<Row<Txn>>, sc: Scope): int {
    if |rows| == 0 then 0
    else
      var last := rows[|rows| - 1].val;
      Signed(rows[..|rows| - 1], sc)
        + (if !InScope(last, sc) then 0 else if last.kind == Income then last.amount else -last.amount)
  }

  /** `COUNT(*)` over the rows in scope. */
  function Count(rows: seq<Row<Txn>>, sc: Scope): nat {
    if |rows| == 0 then 0
    else Count(rows[..|rows| - 1], sc) + (if InScope(rows[|rows| - 1].val, sc) then 1 else 0)
  }

  /** Income minus expense of one cashbook's transactions. */
  function Net(rows: seq<Row<Txn>>, cb: nat): (r: int)
    ensures r == Signed(rows, CashbookScope(cb))
  {
    SignedIsNet(rows, CashbookScope(cb));
    Total(rows, CashbookScope(cb), Income) - Total(rows, CashbookScope(cb), Expense)
  }

  /** The signed sum the SQL computes in one pass is income minus expense. */
  lemma {:induction false} SignedIsNet(rows: seq<Row<Txn>>, sc: Scope)
    ensures Signed(rows, sc) == Total(rows, sc, Income) - Total(rows, sc, Expense)
  {
    if |rows| > 0 {
      SignedIsNet(rows[..|rows| - 1], sc);
    }
  }

  /** Appending a row adds its amount to the total it falls in. */
  lemma TotalAppend(rows: seq<Row<Txn>>, x: Row<Txn>, sc: Scope, k: Kind)
    ensures Total(rows + [x], sc, k)
            == Total(rows, sc, k) + (if InScope(x.val, sc) && x.val.kind == k then x.val.amount else 0)
    ensures Count(rows + [x], sc) == Count(rows, sc) + (if InScope(x.val, sc) then 1 else 0)
  {
    assert (rows + [x])[..|rows|] == rows;
  }

  /** Rows outside the scope contribute nothing. */
  lemma {:induction false} TotalNoneInScope(rows: seq<Row<Txn>>, sc: Scope, k: Kind)
    requires forall i :: 0 <= i < |rows| ==> !InScope(rows[i].val, sc)
    ensures Total(rows, sc, k) == 0
  {
    if |rows| > 0 {
      TotalNoneInScope(rows[..|rows| - 1], sc, k);
    }
  }

  /** Deleting rows that are outside the scope leaves the total unchanged. */
  lemma {:induction false} TotalRemoveOutside(rows: seq<Row<Txn>>, id: nat, sc: Scope, k: Kind)
    requires forall i :: 0 <= i < |rows| && rows[i].id == id ==> !InScope(rows[i].val, sc)
    ensures Total(Remove(rows, id), sc, k) == Total(rows, sc, k)
  {
    if |rows| > 0 {
      var n := |rows| - 1;
      TotalRemoveOutside(rows[..n], id, sc, k);
      if rows[n].id != id {
        TotalAppend(Remove(rows[..n], id), rows[n], sc, k);
      }
    }
  }

  /** Updating rows that are outside the scope before and after leaves the total unchanged. */
  lemma {:induction false} TotalUpdateOutside(rows: seq<Row<Txn>>, id: nat, f: Txn -> Txn, sc: Scope, k: Kind)
    requires forall i :: 0 <= i < |rows| && rows[i].id == id ==>
               !InScope(rows[i].val, sc) && !InScope(f(rows[i].val), sc)
    ensures Total(Update(rows, id, f), sc, k) == Total(rows, sc, k)
  {
    if |rows| > 0 {
      var n := |rows| - 1;
      var last := rows[n];
      var moved := if last.id == id then Row(id, f(last.val)) else last;
      var p := Update(rows[..n], id, f);
      assert Update(rows, id, f) == p + [moved];
      TotalUpdateOutside(rows[..n], id, f, sc, k);
      TotalAppend(p, moved, sc, k);
      TotalAppend(rows[..n], last, sc, k);
      assert rows == rows[..n] + [last];
      if last.id == id {
        assert !InScope(last.val, sc) && !InScope(moved.val, sc);
      }
    }
  }

  // ---------------------------------------------------------------------------
  // The derived balance

  /**
   * Every cashbook's stored `current_balance` is income minus expense of its
   * transactions. The initial balance is not part of it.
   */
  ghost predicate BalancesHold(s: Store) {
    forall i :: 0 <= i < |s.cashbooks.rows| ==>
      s.cashbooks.rows[i].val.currentBalance == Net(s.txns.rows, s.cashbooks.rows[i].id)
  }

  /** The balances hold for every cashbook whose key is not in `skip`. */
  ghost predicate HoldsExcept(s: Store, skip: set<nat>) {
    forall i :: 0 <= i < |s.cashbooks.rows| && s.cashbooks.rows[i].id !in skip ==>
      s.cashbooks.rows[i].val.currentBalance == Net(s.txns.rows, s.cashbooks.rows[i].id)
  }

  /**
   * `updateCashbookBalance(cb)`: sums the cashbook's income and expense
   * transactions and writes the difference to `current_balance` of that
   * cashbook only.
   */
  function Recompute(s: Store, cb: nat): (r: Store)
    ensures r == s.(cashbooks := r.cashbooks)
    ensures r.cashbooks.next == s.cashbooks.next
    ensures |r.cashbooks.rows| == |s.cashbooks.rows|
    ensures forall i :: 0 <= i < |s.cashbooks.rows| ==>
              var c := s.cashbooks.rows[i];
              r.cashbooks.rows[i]
              == if c.id == cb
                 then Row(cb, c.val.(currentBalance :=
                        Total(s.txns.rows, CashbookScope(cb), Income) - Total(s.txns.rows, CashbookScope(cb), Expense)))
                 else c
  {
    var balance := Net(s.txns.rows, cb);
    s.(cashbooks := s.cashbooks.(rows := Update(s.cashbooks.rows, cb, (c: Cashbook) => c.(currentBalance := balance))))
  }

  /** Recomputing keeps the store well formed. */
  lemma RecomputeWf(s: Store, cb: nat)
    requires Wf(s)
    ensures Wf(Recompute(s, cb))
  {
    var r := Recompute(s, cb);
    assert forall i :: 0 <= i < |r.cashbooks.rows| ==> r.cashbooks.rows[i].id == s.cashbooks.rows[i].id;
  }

  /** Recomputing `cb` repairs `cb` and leaves the others as they were. */
  lemma RecomputeExcept(s: Store, cb: nat, skip: set<nat>)
    requires HoldsExcept(s, skip + {cb})
    ensures HoldsExcept(Recompute(s, cb), skip)
  {
  }

  /** Recomputing both disturbed cashbooks, one after the other, repairs every balance. */
  lemma RecomputeBoth(s: Store, a: nat, b: nat)
    requires HoldsExcept(s, {a, b})
    ensures BalancesHold(Recompute(Recompute(s, a), b))
  {
    assert {a, b} == {b} + {a};
    RecomputeExcept(s, a, {b});
    RecomputeExcept(Recompute(s, a), b, {});
  }

  /** Adding a transaction disturbs the balance of its own cashbook only. */
  lemma AppendHoldsExcept(s: Store, s1: Store, x: Row<Txn>)
    requires BalancesHold(s)
    requires s1.cashbooks == s.cashbooks && s1.txns.rows == s.txns.rows + [x]
    ensures HoldsExcept(s1, {x.val.cashbookId})
  {
    forall i | 0 <= i < |s1.cashbooks.rows| && s1.cashbooks.rows[i].id != x.val.cashbookId
      ensures s1.cashbooks.rows[i].val.currentBalance == Net(s1.txns.rows, s1.cashbooks.rows[i].id)
    {
      var cb := s1.cashbooks.rows[i].id;
      TotalAppend(s.txns.rows, x, CashbookScope(cb), Income);
      TotalAppend(s.txns.rows, x, CashbookScope(cb), Expense);
    }
  }

  /**
   * If the balances of all cashbooks other than `cb` already hold, they hold
   * everywhere after recomputing `cb`.
   */
  lemma RecomputeRestores(s: Store, cb: nat)
    requires forall i :: 0 <= i < |s.cashbooks.rows| && s.cashbooks.rows[i].id != cb ==>
               s.cashbooks.rows[i].val.currentBalance == Net(s.txns.rows, s.cashbooks.rows[i].id)
    ensures BalancesHold(Recompute(s, cb))
  {
  }
}

=== FILE: name_schema.dfy ===
/**
 * The `name` field shared by the cashbook and category schemas:
 * `z.string().min(1, ...).max(100, ...)` with messages naming the entity.
 */
module NameSchema {
  import opened Wrappers
  import opened JsValues
  import opened Zod

  /** `name` of a cashbook or category: 1 to 100 characters; `entity` is "Cashbook" or "Category". */
  function NameField(v: Option<Value>, entity: string): (r: Result<string, seq<string>>)
    ensures r.Ok? <==> v.Some? && v.value.Str? && 1 <= |v.value.s| <= 100
    ensures r.Ok? ==> r.value == v.value.s
    ensures v == Some(Str("")) ==> r == Err([entity + " name is required"])
    ensures v.Some? && v.value.Str? && |v.value.s| > 100 ==> r == Err([entity + " name must be less than 100 characters"])
  {
    Sized(v, 1, 100, entity + " name is required", entity + " name must be less than 100 characters")
  }
}

=== FILE: prepare.dfy ===
/** `prepare(data)`: an object's keys and the matching values as two parallel lists. */
module Prepare {
  import opened Wrappers
  import opened JsValues

  /**
   * `{ keys: Object.keys(data), values: keys.map(key => data[key]) }`: the
   * keys are the object's own keys, each once and in order, and each value
   * sits at the index of its key.
   */
  function Prepare<V>(data: Object<V>): (r: (seq<string>, seq<V>))
    requires UniqueKeys(data)
    ensures |r.0| == |data| && |r.1| == |data|
    ensures forall i :: 0 <= i < |r.0| ==> Get(data, r.0[i]) == Some(r.1[i])
    ensures forall i :: 0 <= i < |r.0| ==> r.0[i] == data[i].0
    ensures forall i, j :: 0 <= i < j < |r.0| ==> r.0[i] != r.0[j]
    ensures forall k :: k in r.0 <==> k in Keys(data)
  {
    if |data| == 0 then ([], [])
    else
      var rest := Prepare(data[1..]);
      var r := ([data[0].0] + rest.0, [data[0].1] + rest.1);
      assert forall i :: 0 < i < |data| ==> data[i] == data[1..][i - 1];
      assert forall j :: 0 <= j < |rest.0| ==> rest.0[j] != data[0].0;
      assert Keys(data) == {data[0].0} + Keys(data[1..]);
      assert forall k :: k in Keys(data[1..]) ==> Get(data, k) == Get(data[1..], k);
      r
  }
}

=== FILE: protect.dfy ===
/**
 * The `protect` middleware: choose the token (cookie first, then a Bearer
 * header), verify it with the caller's `verify`, and load the user it names.
 */
module Protect {
  import opened Wrappers
  import opened Tables
  import opened Replies
  import opened Text
  import opened Ledger

  const NotLoggedIn: string := "You are not logged in! Please log in to get access."
  const UserGone: string := "The user belonging to this token does no longer exist."

  /** What `jwt.verify` does with a token: decode its payload, or throw an error of the given name. */
  datatype Verified = Decoded(id: nat) | Threw(name: string)

  /** How the middleware ends: `next()` with `req.user` set, `next(error)`, or a thrown error passed on by `tryCatch`. */
  datatype Gate = Pass(user: User) | Deny(error: AppError) | Thrown(name: string)

  /** `authorization.split(' ')[1]`, absent when there is no second piece. */
  function SecondPiece(h: string): (r: Option<string>)
    ensures r.Some? <==> ' ' in h
    ensures r.Some? ==> |Split(h, ' ')| > 1 && r.value == Split(h, ' ')[1] && ' ' !in r.value
  {
    var pieces := Split(h, ' ');
    SplitOne(h, ' ');
    if |pieces| > 1 then Some(pieces[1]) else None
  }

  /**
   * The token: a non-empty auth cookie (`AuthController.CookieName`) wins;
   * otherwise a header starting with `Bearer` supplies its second
   * space-separated piece.
   */
  function TokenOf(cookie: Option<string>, authorization: Option<string>): (r: Option<string>)
    ensures cookie.Some? && cookie.value != "" ==> r == cookie
    ensures (cookie.None? || cookie.value == "") && (authorization.None? || !StartsWith(authorization.value, "Bearer")) ==>
              r.None?
    ensures (cookie.None? || cookie.value == "") && authorization.Some? && StartsWith(authorization.value, "Bearer") ==>
              r == SecondPiece(authorization.value)
    ensures r.Some? && r != cookie ==> ' ' !in r.value
  {
    if cookie.Some? && cookie.value != "" then cookie
    else if authorization.Some? && StartsWith(authorization.value, "Bearer") then SecondPiece(authorization.value)
    else None
  }

  /** `Bearer <t>` yields `t` when no cookie is set and `t` has no space. */
  lemma BearerToken(cookie: Option<string>, t: string)
    requires cookie.None? || cookie.value == ""
    requires ' ' !in t
    ensures TokenOf(cookie, Some("Bearer " + t)) == Some(t)
  {
    var h := "Bearer " + t;
    assert h[..6] == "Bearer";
    assert h == "Bearer" + [' '] + t;
    SplitAfterPrefix("Bearer", ' ', t);
    SplitNoSeparator(t, ' ');
  }

  /** A header without the space yields no token, hence the 401. */
  lemma BareBearerRejected(users: Table<User>, verify: string -> Verified)
    ensures Protect(users, None, Some("Bearer"), verify) == Deny(AppError(401, Text(NotLoggedIn)))
  {
    SplitNoSeparator("Bearer", ' ');
  }

  /** `protect(req, res, next)` */
  function Protect(users: Table<User>, cookie: Option<string>, authorization: Option<string>,
                   verify: string -> Verified): (g: Gate)
    ensures TokenOf(cookie, authorization).None? || TokenOf(cookie, authorization) == Some("") ==>
              g == Deny(AppError(401, Text(NotLoggedIn)))
    ensures g.Pass? ==>
              var t := TokenOf(cookie, authorization);
              && t.Some? && t.value != "" && verify(t.value).Decoded?
              && Find(users.rows, verify(t.value).id) == Some(g.user)
    ensures g.Deny? ==> g.error.code == 401
    ensures g.Thrown? ==> verify(TokenOf(cookie, authorization).value) == Threw(g.name)
    ensures TokenOf(cookie, authorization).Some? && TokenOf(cookie, authorization).value != ""
            && verify(TokenOf(cookie, authorization).value).Threw? ==>
              g == Thrown(verify(TokenOf(cookie, authorization).value).name)
  {
    match TokenOf(cookie, authorization)
    case None => Deny(AppError(401, Text(NotLoggedIn)))
    case Some(t) =>
      if t == "" then Deny(AppError(401, Text(NotLoggedIn)))
      else
        match verify(t)
        case Threw(name) => Thrown(name)
        case Decoded(id) =>
          match Find(users.rows, id)
          case None => Deny(AppError(401, Text(UserGone)))
          case Some(u) => Pass(u)
  }

  /** A verified token of an existing user passes, whichever way it arrived. */
  lemma ValidTokenPasses(users: Table<User>, cookie: Option<string>, authorization: Option<string>,
                         verify: string -> Verified, i: nat)
    requires UniqueIds(users.rows) && i < |users.rows|
    requires TokenOf(cookie, authorization).Some? && TokenOf(cookie, authorization).value != ""
    requires verify(TokenOf(cookie, authorization).value) == Decoded(users.rows[i].id)
    ensures Protect(users, cookie, authorization, verify) == Pass(users.rows[i].val)
  {
    FindAt(users.rows, i);
  }

  /** A token naming no user is refused with the second 401. */
  lemma MissingUserDenied(users: Table<User>, cookie: Option<string>, authorization: Option<string>,
                          verify: string -> Verified)
    requires TokenOf(cookie, authorization).Some? && TokenOf(cookie, authorization).value != ""
    requires verify(TokenOf(cookie, authorization).value).Decoded?
    requires verify(TokenOf(cookie, authorization).value).id !in Ids(users.rows)
    ensures Protect(users, cookie, authorization, verify) == Deny(AppError(401, Text(UserGone)))
  {
  }
}

=== FILE: replies.dfy ===
/** What a controller hands back: a success with its status code, or an error for the global handler. */
module Replies {

  /** The message of an error the database raises; its exact wording is the database's and is not modelled. */
  const DatabaseRefused: string := "The database refused the statement"

  /**
   * An error's message: plain text, or the field-to-message map that a
   * validation failure serialises with JSON.stringify (the error handler
   * parses it back, so the pair is kept as the map itself).
   */
  datatype Msg = Text(text: string) | Fields(fields: map<string, string>)

  /**
   * An error passed to `next`: an `ErrorStack(message, statusCode)` the
   * controller builds, or an error the database raises, which reaches the
   * handler with code 500 and the `DatabaseRefused` message.
   */
  datatype AppError = AppError(code: int, message: Msg)

  /** A controller's answer: `res.status(code).json(...)` or `next(error)`. */
  datatype Reply<V> = Done(code: int, value: V) | Failed(error: AppError)
}

=== FILE: tables.dfy ===
/**
 * An abstract relational table: rows in insertion order, each carrying its
 * auto-increment key, and the key the next INSERT will receive. The SQL
 * statements of the controllers become the functions below.
 */
module Tables {
  import opened Wrappers

  /** A row: its primary key and its other columns. */
  datatype Row<T> = Row(id: nat, val: T)

  /** A table: its rows and the next auto-increment key. */
  datatype Table<T> = Table(rows: seq<Row<T>>, next: nat)

  /** No two rows share a primary key. */
  ghost predicate UniqueIds<T>(rows: seq<Row<T>>) {
    forall i, j :: 0 <= i < j < |rows| ==> rows[i].id != rows[j].id
  }

  /** Keys are positive, unique and below the auto-increment counter. */
  ghost predicate Valid<T>(t: Table<T>) {
    && 0 < t.next
    && (forall i :: 0 <= i < |t.rows| ==> 0 < t.rows[i].id < t.next)
    && UniqueIds(t.rows)
  }

  /** The primary keys present in the table. */
  function Ids<T>(rows: seq<Row<T>>): set<nat> {
    set i | 0 <= i < |rows| :: rows[i].id
  }

  /** `SELECT * ... WHERE id = ?`, taking the first row found. */
  function Find<T>(rows: seq<Row<T>>, id: nat): (r: Option<T>)
    ensures r.Some? <==> id in Ids(rows)
    ensures r.Some? ==> exists i :: 0 <= i < |rows| && rows[i] == Row(id, r.value)
  {
    if |rows| == 0 then None
    else if rows[0].id == id then Some(rows[0].val)
    else
      var r := Find(rows[1..], id);
      assert Ids(rows) == {rows[0].id} + Ids(rows[1..]) by {
        assert forall i :: 0 < i < |rows| ==> rows[i] == rows[1..][i - 1];
      }
      r
  }

  /** With unique keys, looking up a row's key yields that row. */
  lemma {:induction false} FindAt<T>(rows: seq<Row<T>>, i: nat)
    requires UniqueIds(rows)
    requires i < |rows|
    ensures Find(rows, rows[i].id) == Some(rows[i].val)
  {
    if i > 0 {
      assert rows[0].id != rows[i].id;
      assert rows[1..][i - 1] == rows[i];
      FindAt(rows[1..], i - 1);
    }
  }

  /** With unique keys, every row carrying the key found holds the value found. */
  lemma FindUnique<T>(rows: seq<Row<T>>, id: nat, v: T)
    requires UniqueIds(rows)
    requires Find(rows, id) == Some(v)
    ensures forall i :: 0 <= i < |rows| && rows[i].id == id ==> rows[i].val == v
  {
    var k :| 0 <= k < |rows| && rows[k] == Row(id, v);
    forall i | 0 <= i < |rows| && rows[i].id == id ensures rows[i].val == v {
      if i != k {
        assert false;
      }
    }
  }

  /** Appending a row adds exactly its key. */
  lemma IdsAppend<T>(rows: seq<Row<T>>, x: Row<T>)
    ensures Ids(rows + [x]) == Ids(rows) + {x.id}
  {
    var r := rows + [x];
    assert forall i :: 0 <= i < |rows| ==> r[i] == rows[i];
    assert r[|rows|] == x;
    forall k | k in Ids(r) ensures k in Ids(rows) + {x.id} {
      var i :| 0 <= i < |r| && r[i].id == k;
      if i < |rows| { assert rows[i].id == k; }
    }
  }

  /** `INSERT`: the new row receives the counter as its key. */
  function Insert<T>(t: Table<T>, v: T): (r: Table<T>)
    requires Valid(t)
    ensures Valid(r)
    ensures t.next !in Ids(t.rows)
    ensures Find(r.rows, t.next) == Some(v)
    ensures Ids(r.rows) == Ids(t.rows) + {t.next}
    ensures |r.rows| == |t.rows| + 1 && r.rows[|t.rows|] == Row(t.next, v)
    ensures forall i :: 0 <= i < |t.rows| ==> r.rows[i] == t.rows[i]
  {
    var r := Table(t.rows + [Row(t.next, v)], t.next + 1);
    assert r.rows[|t.rows|] == Row(t.next, v);
    FindAt(r.rows, |t.rows|);
    IdsAppend(t.rows, Row(t.next, v));
    r
  }

  /** `DELETE ... WHERE id = ?`: drops every row with that key, keeps the order of the rest. */
  function Remove<T>(rows: seq<Row<T>>, id: nat): (r: seq<Row<T>>)
    ensures Ids(r) == Ids(rows) - {id}
    ensures forall x :: x in r ==> x in rows && x.id != id
    ensures forall x :: x in rows && x.id != id ==> x in r
    ensures UniqueIds(rows) ==> UniqueIds(r)
    ensures |r| <= |rows|
  {
    if |rows| == 0 then []
    else
      var n := |rows| - 1;
      var prefix := Remove(rows[..n], id);
      var last := rows[n];
      assert rows == rows[..n] + [last];
      IdsAppend(rows[..n], last);
      if last.id == id then prefix
      else
        var r := prefix + [last];
        IdsAppend(prefix, last);
        assert UniqueIds(rows) ==> last.id !in Ids(rows[..n]);
        assert UniqueIds(rows) ==> UniqueIds(r) by {
          if UniqueIds(rows) {
            assert UniqueIds(rows[..n]);
            forall i, j | 0 <= i < j < |r| ensures r[i].id != r[j].id {
              if j == |prefix| {
                assert r[i] in prefix;
                assert r[i].id in Ids(prefix);
              } else {
                assert r[i] == prefix[i] && r[j] == prefix[j];
              }
            }
          }
        }
        r
  }

  /**
   * `UPDATE ... SET ... WHERE id = ?`: applies `f` to every row with that key,
   * leaving every other row and the order untouched.
   */
  function Update<T>(rows: seq<Row<T>>, id: nat, f: T -> T): (r: seq<Row<T>>)
    ensures |r| == |rows|
    ensures forall i :: 0 <= i < |rows| ==>
              r[i] == (if rows[i].id == id then Row(id, f(rows[i].val)) else rows[i])
  {
    if |rows| == 0 then []
    else
      var n := |rows| - 1;
      var last := rows[n];
      Update(rows[..n], id, f) + [if last.id == id then Row(id, f(last.val)) else last]
  }

  /** An update keeps the set of keys, hence their uniqueness. */
  lemma UpdateKeepsIds<T>(rows: seq<Row<T>>, id: nat, f: T -> T)
    ensures Ids(Update(rows, id, f)) == Ids(rows)
    ensures UniqueIds(rows) ==> UniqueIds(Update(rows, id, f))
  {
    var r := Update(rows, id, f);
    assert forall i :: 0 <= i < |rows| ==> r[i].id == rows[i].id;
  }

  /** `SELECT * ... WHERE keep(row)`: the rows that satisfy `keep`, in table order. */
  function Where<T>(rows: seq<Row<T>>, keep: T -> bool): (r: seq<Row<T>>)
    ensures forall x :: x in r ==> x in rows && keep(x.val)
    ensures forall x :: x in rows && keep(x.val) ==> x in r
    ensures |r| <= |rows|
    ensures Ids(r) <= Ids(rows)
    ensures UniqueIds(rows) ==> UniqueIds(r)
  {
    if |rows| == 0 then []
    else
      var n := |rows| - 1;
      var prefix := Where(rows[..n], keep);
      var last := rows[n];
      assert rows == rows[..n] + [last];
      IdsAppend(rows[..n], last);
      if !keep(last.val) then prefix
      else
        var r := prefix + [last];
        IdsAppend(prefix, last);
        assert UniqueIds(rows) ==> UniqueIds(r) by {
          if UniqueIds(rows) {
            assert last.id !in Ids(rows[..n]);
            forall i, j | 0 <= i < j < |r| ensures r[i].id != r[j].id {
              if j == |prefix| {
                assert r[i] in prefix;
                assert r[i].id in Ids(prefix);
              } else {
                assert r[i] == prefix[i] && r[j] == prefix[j];
              }
            }
          }
        }
        r
  }

  /** Filtering a table is filtering all but its last row, then that row. */
  lemma WhereLast<T>(rows: seq<Row<T>>, keep: T -> bool)
    requires |rows| > 0
    ensures Where(rows, keep) == Where(rows[..|rows| - 1], keep) + (if keep(rows[|rows| - 1].val) then [rows[|rows| - 1]] else [])
  {
  }

  /** `LIMIT limit OFFSET offset` on a result; a negative limit or offset is an SQL error. */
  function Window<X>(xs: seq<X>, limit: int, offset: int): (r: Option<seq<X>>)
    ensures r.Some? <==> limit >= 0 && offset >= 0
    ensures r.Some? ==> |r.value| <= limit && forall x :: x in r.value ==> x in xs
    ensures r.Some? && offset + limit <= |xs| ==> |r.value| == limit
    ensures r.Some? && offset >= |xs| ==> r.value == []
    ensures r.Some? && offset < |xs| ==> |r.value| == if offset + limit < |xs| then limit else |xs| - offset
    ensures r.Some? ==> forall i :: 0 <= i < |r.value| ==> offset + i < |xs| && r.value[i] == xs[offset + i]
  {
    if limit < 0 || offset < 0 then None
    else
      var lo := if offset < |xs| then offset else |xs|;
      var hi := if offset + limit < |xs| then offset + limit else |xs|;
      Some(xs[lo..hi])
  }

  /** Two consecutive pages are the double-size page at the first offset. */
  lemma WindowsTile<X>(xs: seq<X>, limit: nat, offset: nat)
    ensures Window(xs, limit, offset).value + Window(xs, limit, offset + limit).value
            == Window(xs, 2 * limit, offset).value
  {
    var lo := if offset < |xs| then offset else |xs|;
    var mid := if offset + limit < |xs| then offset + limit else |xs|;
    var hi := if offset + 2 * limit < |xs| then offset + 2 * limit else |xs|;
    assert xs[lo..hi] == xs[lo..mid] + xs[mid..hi];
  }

  /** The first page of a limit at least as large as the result is the whole result. */
  lemma WindowWhole<X>(xs: seq<X>, limit: nat)
    requires |xs| <= limit
    ensures Window(xs, limit, 0) == Some(xs)
  {
    assert xs[0..|xs|] == xs;
  }
}

=== FILE: text.dfy ===
/** The few string operations the server uses: `startsWith`, `split` on one character, `join`. */
module Text {

  /** `s.startsWith(p)` */
  predicate StartsWith(s: string, p: string) {
    |p| <= |s| && s[..|p|] == p
  }

  /** `parts.join(sep)` */
  function Join(parts: seq<string>, sep: string): string {
    if |parts| == 0 then ""
    else if |parts| == 1 then parts[0]
    else parts[0] + sep + Join(parts[1..], sep)
  }

  /**
   * `s.split(c)` for a one-character separator: the maximal pieces between
   * separators, empty pieces included, so there is always at least one.
   */
  function Split(s: string, c: char): (r: seq<string>)
    ensures |r| >= 1
    ensures forall i :: 0 <= i < |r| ==> c !in r[i]
  {
    if |s| == 0 then [""]
    else
      var rest := Split(s[1..], c);
      if s[0] == c then [""] + rest
      else [[s[0]] + rest[0]] + rest[1..]
  }

  /** Splitting and joining back with the same separator gives the string again. */
  lemma {:induction false} SplitJoin(s: string, c: char)
    ensures Join(Split(s, c), [c]) == s
  {
    if |s| > 0 {
      var rest := Split(s[1..], c);
      SplitJoin(s[1..], c);
      assert s == [s[0]] + s[1..];
      if s[0] != c {
        var r := Split(s, c);
        assert r[1..] == rest[1..];
        if |rest| > 1 {
          assert rest == [rest[0]] + rest[1..];
          assert Join(rest, [c]) == rest[0] + [c] + Join(rest[1..], [c]);
        }
      }
    }
  }

  /** A string without the separator is a single piece. */
  lemma {:induction false} SplitNoSeparator(s: string, c: char)
    requires c !in s
    ensures Split(s, c) == [s]
  {
    if |s| > 0 {
      assert c !in s[1..] by {
        assert forall i :: 0 <= i < |s[1..]| ==> s[1..][i] == s[i + 1];
      }
      SplitNoSeparator(s[1..], c);
      assert s == [s[0]] + s[1..];
    }
  }

  /** There is more than one piece exactly when the separator occurs. */
  lemma SplitOne(s: string, c: char)
    ensures |Split(s, c)| == 1 <==> c !in s
  {
    if c !in s {
      SplitNoSeparator(s, c);
    } else {
      SplitJoin(s, c);
    }
  }

  /** A separator-free prefix followed by the separator becomes the first piece. */
  lemma {:induction false} SplitAfterPrefix(a: string, c: char, b: string)
    requires c !in a
    ensures Split(a + [c] + b, c) == [a] + Split(b, c)
  {
    if |a| == 0 {
      assert a + [c] + b == [c] + b;
      assert ([c] + b)[1..] == b;
    } else {
      var s := a + [c] + b;
      assert s[1..] == a[1..] + [c] + b;
      assert c !in a[1..] by {
        assert forall i :: 0 <= i < |a[1..]| ==> a[1..][i] == a[i + 1];
      }
      SplitAfterPrefix(a[1..], c, b);
      assert [a[0]] + a[1..] == a;
    }
  }
}

=== FILE: transaction_controller.dfy ===
/**
 * The transaction endpoints and `updateCashbookBalance`: every write that
 * can change a cashbook's transactions recomputes that cashbook's stored
 * balance, so the stored balances stay equal to income minus expense.
 */
module TransactionController {
  import opened Wrappers
  import opened Tables
  import opened Replies
  import opened JsValues
  import opened Zod
  import opened Prepare
  import opened ApiFeatures
  import opened TransactionSchema
  import opened Ledger

  const TxnNotFound: string := "Transaction not found!"
  const CashbookDenied: string := "Cashbook not found or access denied!"

  /** Reading `transaction.cashbook_id` when the re-fetch found nothing. */
  const UndefinedRead: string := "Cannot read properties of undefined (reading 'cashbook_id')"

  // ---------------------------------------------------------------------------
  // The column list of the INSERT

  /** The columns of the `transactions` table a write may name. */
  const TxnColumns: set<string> :=
    {"user_id", "cashbook_id", "type", "amount", "source_person", "description", "transaction_date"}

  function DateJson(d: TxnDate): Value {
    match d
    case DateText(t) => Str(t)
    case DateValue => DateObj
  }

  function IdsJson(ids: seq<nat>): Value {
    Arr(seq(|ids|, i requires 0 <= i < |ids| => Num(100 * ids[i])))
  }

  /** The parsed body's fields other than `category_ids`, in schema order. */
  function Columns(v: NewTxn): Object<Value> {
    [("cashbook_id", Num(100 * v.cashbookId)), ("type", Str(KindName(v.kind))), ("amount", Num(v.amount)),
     ("source_person", Str(v.sourcePerson))]
    + (if v.description.Some? then [("description", Str(v.description.value))] else [])
    + [("transaction_date", DateJson(v.date))]
  }

  /** `{ ...result.data, user_id }` as the create handler builds it: `category_ids` (always present) included. */
  function CreateDataAsWritten(v: NewTxn, uid: nat): (o: Object<Value>)
    ensures UniqueKeys(o)
  {
    var o := Columns(v) + [("category_ids", IdsJson(v.categoryIds)), ("user_id", Num(100 * uid))];
    assert forall i :: 0 <= i < |o| ==> o[i].0 in TxnColumns + {"category_ids"};
    o
  }

  /** The INSERT as written names a `category_ids` column, which the table does not have. */
  lemma CategoryIdsReachInsert(v: NewTxn, uid: nat)
    ensures "category_ids" in Prepare.Prepare(CreateDataAsWritten(v, uid)).0
    ensures "category_ids" !in TxnColumns
  {
    var o := CreateDataAsWritten(v, uid);
    assert o[|o| - 2].0 == "category_ids";
    assert "category_ids" in Keys(o);
  }

  /** The row data the insert should carry: the parsed body without `category_ids`, plus the requester. */
  function RowData(v: NewTxn, uid: nat): (o: Object<Value>)
    ensures UniqueKeys(o)
  {
    Columns(v) + [("user_id", Num(100 * uid))]
  }

  /** Every key of the corrected data is a column of the table. */
  lemma RowDataColumnsExist(v: NewTxn, uid: nat)
    ensures forall k :: k in Prepare.Prepare(RowData(v, uid)).0 ==> k in TxnColumns
    ensures "user_id" in Prepare.Prepare(RowData(v, uid)).0
  {
    var o := RowData(v, uid);
    assert forall i :: 0 <= i < |o| ==> o[i].0 in TxnColumns;
    assert o[|o| - 1].0 == "user_id";
    assert "user_id" in Keys(o);
  }

  /** An optional field as a one-entry object, or nothing when it was not supplied. */
  function Entry<X>(key: string, x: Option<X>, json: X -> Value): (o: Object<Value>)
    ensures |o| <= 1 && (o == [] <==> x.None?)
    ensures forall i :: 0 <= i < |o| ==> o[i].0 == key
  {
    if x.Some? then [(key, json(x.value))] else []
  }

  /** The supplied fields of an update body other than `category_ids`, in schema order. */
  function PatchColumns(p: TxnPatch): (o: Object<Value>)
    ensures forall i :: 0 <= i < |o| ==> o[i].0 in TxnColumns - {"user_id"}
    ensures UniqueKeys(o)
  {
    var a := Entry("cashbook_id", p.cashbookId, (n: nat) => Num(100 * n));
    var b := Entry("type", p.kind, (k: Kind) => Str(KindName(k)));
    var c := Entry("amount", p.amount, (n: int) => Num(n));
    var d := Entry("source_person", p.sourcePerson, (t: string) => Str(t));
    var e := Entry("description", p.description, (t: string) => Str(t));
    var f := Entry("transaction_date", p.date, DateJson);
    var o := a + b + c + d + e + f;
    assert forall i :: 0 <= i < |o| ==>
      o[i].0 == (if i < |a| then "cashbook_id" else if i < |a + b| then "type" else if i < |a + b + c| then "amount"
                 else if i < |a + b + c + d| then "source_person" else if i < |a + b + c + d + e| then "description"
                 else "transaction_date");
    o
  }

  /** `result.data` as the update handler passes it to `prepare`: `category_ids` is always there. */
  function UpdateDataAsWritten(p: TxnPatch): (o: Object<Value>)
    ensures UniqueKeys(o)
  {
    var o := PatchColumns(p) + [("category_ids", IdsJson(p.categoryIds))];
    assert forall i :: 0 <= i < |o| - 1 ==> o[i].0 in TxnColumns;
    o
  }

  /** The UPDATE as written always SETs `category_ids`, so even a body with no field reaches the table. */
  lemma CategoryIdsReachUpdate(p: TxnPatch)
    ensures "category_ids" in Prepare.Prepare(UpdateDataAsWritten(p)).0
    ensures |Prepare.Prepare(UpdateDataAsWritten(p)).0| > 0
  {
    var o := UpdateDataAsWritten(p);
    assert o[|o| - 1].0 == "category_ids";
    assert "category_ids" in Keys(o);
  }

  /** Without `category_ids` the SET list names table columns only, and is empty exactly when no field was supplied. */
  lemma PatchColumnsExist(p: TxnPatch)
    ensures forall k :: k in Prepare.Prepare(PatchColumns(p)).0 ==> k in TxnColumns
    ensures Prepare.Prepare(PatchColumns(p)).0 == [] <==> NoColumns(p)
  {
  }

  /** The database runs a write only when it names at least one column and every column it names exists. */
  predicate Runs(cols: seq<string>) {
    |cols| > 0 && forall k :: k in cols ==> k in TxnColumns
  }

  /** A write naming `cols`: it goes on to `done` when the database runs it, and fails leaving `s` untouched otherwise. */
  function Execute<X>(cols: seq<string>, s: Store, done: Step<X>): (r: Step<X>)
    ensures Runs(cols) ==> r == done
    ensures !Runs(cols) ==> r == Step(Failed(AppError(500, Text(DatabaseRefused))), s)
  {
    if Runs(cols) then done else Step(Failed(AppError(500, Text(DatabaseRefused))), s)
  }

  /** The corrected INSERT runs. */
  lemma RowDataRuns(v: NewTxn, uid: nat)
    ensures Runs(Prepare.Prepare(RowData(v, uid)).0)
  {
    RowDataColumnsExist(v, uid);
  }

  /** The INSERT as written is refused. */
  lemma CreateDataRefused(v: NewTxn, uid: nat)
    ensures !Runs(Prepare.Prepare(CreateDataAsWritten(v, uid)).0)
  {
    var cols := Prepare.Prepare(CreateDataAsWritten(v, uid)).0;
    CategoryIdsReachInsert(v, uid);
    assert "category_ids" in cols && "category_ids" !in TxnColumns;
  }

  /** The UPDATE as written is refused, whatever the patch. */
  lemma UpdateDataRefused(p: TxnPatch)
    ensures !Runs(Prepare.Prepare(UpdateDataAsWritten(p)).0)
  {
    var cols := Prepare.Prepare(UpdateDataAsWritten(p)).0;
    CategoryIdsReachUpdate(p);
    assert "category_ids" in cols && "category_ids" !in TxnColumns;
  }

  /** The corrected UPDATE runs exactly when the patch supplies a field. */
  lemma PatchRuns(p: TxnPatch)
    ensures Runs(Prepare.Prepare(PatchColumns(p)).0) <==> !NoColumns(p)
  {
    PatchColumnsExist(p);
  }

  /** The value a stored row holds in a column, as the body spells it; `None` for NULL or a column the table lacks. */
  function Cell(t: Txn, col: string): Option<Value> {
    if col == "user_id" then Some(Num(100 * t.userId))
    else if col == "cashbook_id" then Some(Num(100 * t.cashbookId))
    else if col == "type" then Some(Str(KindName(t.kind)))
    else if col == "amount" then Some(Num(t.amount))
    else if col == "source_person" then Some(Str(t.sourcePerson))
    else if col == "description" then (if t.description.Some? then Some(Str(t.description.value)) else None)
    else if col == "transaction_date" then Some(DateJson(t.date))
    else None
  }

  /** The stored row: in every column it holds what the corrected INSERT supplies for that column. */
  function NewRow(v: NewTxn, uid: nat): (r: Txn)
    ensures forall k :: Cell(r, k) == Get(RowData(v, uid), k)
    ensures r.userId == uid
  {
    var r := Txn(uid, v.cashbookId, v.kind, v.amount, v.sourcePerson, v.description, v.date);
    var o := RowData(v, uid);
    var d := if v.description.Some? then [("description", Str(v.description.value))] else [];
    var e1, e2, e3 := ("cashbook_id", Num(100 * v.cashbookId)), ("type", Str(KindName(v.kind))), ("amount", Num(v.amount));
    var e4, e5, e6 := ("source_person", Str(v.sourcePerson)), ("transaction_date", DateJson(v.date)), ("user_id", Num(100 * uid));
    var t6: Object<Value> := [e6];
    var t5 := [e5] + t6;
    var t4 := d + t5;
    var t3 := [e4] + t4;
    var t2 := [e3] + t3;
    var t1 := [e2] + t2;
    assert o == [e1] + t1;
    forall k ensures Cell(r, k) == Get(o, k) {
      GetCons(e1, t1, k);
      GetCons(e2, t2, k);
      GetCons(e3, t3, k);
      GetCons(e4, t4, k);
      GetSplit(d, t5, k);
      GetCons(e5, t6, k);
      GetCons(e6, [], k);
      assert [e6] + [] == t6;
    }
    r
  }

  /** Looking a key up past a leading entry. */
  lemma GetCons(e: (string, Value), rest: Object<Value>, k: string)
    ensures Get([e] + rest, k) == if e.0 == k then Some(e.1) else Get(rest, k)
  {
    assert ([e] + rest)[1..] == rest;
  }

  /** Looking a key up in a concatenation: the first part wins. */
  lemma {:induction false} GetSplit(a: Object<Value>, b: Object<Value>, k: string)
    ensures Get(a + b, k) == if Get(a, k).Some? then Get(a, k) else Get(b, k)
  {
    if |a| > 0 {
      assert (a + b)[1..] == a[1..] + b;
      GetSplit(a[1..], b, k);
    } else {
      assert a + b == b;
    }
  }

  // ---------------------------------------------------------------------------
  // Reads

  /** The rows the list query returns before paging: the JOIN drops transactions whose cashbook is gone. */
  predicate Listed(s: Store, t: Txn, uid: nat, cashbookId: Option<nat>, kind: Option<string>) {
    && t.userId == uid
    && (cashbookId.None? || t.cashbookId == cashbookId.value)
    && (!Given(kind) || KindName(t.kind) == kind.value)
    && Find(s.cashbooks.rows, t.cashbookId).Some?
  }

  const ListQuery: string :=
    "SELECT t.*, c.name as cashbook_name FROM transactions t JOIN cashbooks c ON t.cashbook_id = c.cashbook_id WHERE t.user_id = ?"

  /** The list query with the filters the request supplies. */
  function ListSql(cashbookId: Option<nat>, kind: Option<string>): string {
    ListQuery + (if cashbookId.Some? then " AND t.cashbook_id = ?" else "") + (if Given(kind) then " AND t.type = ?" else "")
  }

  /** `getAllTransactions`: one page of the requester's transactions, narrowed by cashbook and type. */
  function ListTransactions(s: Store, uid: nat, cashbookId: Option<nat>, kind: Option<string>,
                            page: Option<int>, limit: Option<int>): (r: Reply<(seq<Row<Txn>>, Page)>)
    ensures var p := Paginate(ListSql(cashbookId, kind), page, limit, Some(|s.txns.rows|));
            && (r.Failed? <==> p.limit < 0 || (p.page - 1) * p.limit < 0)
            && (r.Done? ==> r.code == 200 && r.value.1 == p && |r.value.0| <= p.limit)
    ensures r.Done? ==> forall x :: x in r.value.0 ==> x in s.txns.rows && Listed(s, x.val, uid, cashbookId, kind)
  {
    var p := Paginate(ListSql(cashbookId, kind), page, limit, Some(|s.txns.rows|));
    match Window(Where(s.txns.rows, (t: Txn) => Listed(s, t, uid, cashbookId, kind)), p.values[0], p.values[1])
    case None => Failed(AppError(500, Text(DatabaseRefused)))
    case Some(rows) => Done(200, (rows, p))
  }

  /** With a large enough first page every matching transaction is listed. */
  lemma ListShowsAllMatching(s: Store, uid: nat, cashbookId: Option<nat>, kind: Option<string>, limit: nat, x: Row<Txn>)
    requires x in s.txns.rows && Listed(s, x.val, uid, cashbookId, kind)
    requires |s.txns.rows| <= limit
    ensures ListTransactions(s, uid, cashbookId, kind, None, Some(limit)).Done?
    ensures x in ListTransactions(s, uid, cashbookId, kind, None, Some(limit)).value.0
  {
    WindowWhole(Where(s.txns.rows, (t: Txn) => Listed(s, t, uid, cashbookId, kind)), limit);
  }

  /** `getTransaction`: the requester's transaction, provided its cashbook still exists. */
  function GetTransaction(s: Store, uid: nat, id: nat): (r: Reply<Txn>)
    ensures r.Done? <==> OwnedTxn(s, id, uid).Some? && Find(s.cashbooks.rows, OwnedTxn(s, id, uid).value.cashbookId).Some?
    ensures r.Done? ==> r.code == 200 && r.value.userId == uid && Find(s.txns.rows, id) == Some(r.value)
    ensures r.Failed? ==> r.error == AppError(404, Text(TxnNotFound))
  {
    match OwnedTxn(s, id, uid)
    case None => Failed(AppError(404, Text(TxnNotFound)))
    case Some(t) => if Find(s.cashbooks.rows, t.cashbookId).Some? then Done(200, t) else Failed(AppError(404, Text(TxnNotFound)))
  }

  datatype Stats = Stats(totalTransactions: nat, totalIncome: int, totalExpense: int, netAmount: int)

  /** `getTransactionStats`: count and sums over the requester's transactions, optionally in one owned cashbook. */
  function TransactionStats(s: Store, uid: nat, cashbookId: Option<nat>): (r: Reply<Stats>)
    ensures r.Failed? <==> cashbookId.Some? && OwnedCashbook(s, cashbookId.value, uid).None?
    ensures r.Failed? ==> r.error == AppError(404, Text(CashbookDenied))
    ensures r.Done? ==>
              var sc := Scope(Some(uid), cashbookId);
              && r.code == 200
              && r.value.totalTransactions == |Where(s.txns.rows, (t: Txn) => InScope(t, sc))|
              && r.value.totalIncome == Total(s.txns.rows, sc, Income)
              && r.value.totalExpense == Total(s.txns.rows, sc, Expense)
              && r.value.netAmount == r.value.totalIncome - r.value.totalExpense
  {
    if cashbookId.Some? && OwnedCashbook(s, cashbookId.value, uid).None? then Failed(AppError(404, Text(CashbookDenied)))
    else
      var sc := Scope(Some(uid), cashbookId);
      SignedIsNet(s.txns.rows, sc);
      CountIsWhere(s.txns.rows, sc);
      Done(200, Stats(Count(s.txns.rows, sc), Total(s.txns.rows, sc, Income), Total(s.txns.rows, sc, Expense),
                      Signed(s.txns.rows, sc)))
  }

  /** `COUNT(*)` is the number of rows the same WHERE selects. */
  lemma {:induction false} CountIsWhere(rows: seq<Row<Txn>>, sc: Scope)
    ensures Count(rows, sc) == |Where(rows, (t: Txn) => InScope(t, sc))|
  {
    if |rows| > 0 {
      CountIsWhere(rows[..|rows| - 1], sc);
    }
  }

  // ---------------------------------------------------------------------------
  // Writes

  /** A stored transaction's key lies below the cashbook counter. */
  lemma OwnedCashbookBelowNext(s: Store, id: nat, uid: nat)
    requires Wf(s) && OwnedCashbook(s, id, uid).Some?
    ensures id < s.cashbooks.next
  {
    var k :| 0 <= k < |s.cashbooks.rows| && s.cashbooks.rows[k] == Row(id, OwnedCashbook(s, id, uid).value);
  }

  /** A transaction of an existing cashbook can be inserted without breaking well-formedness. */
  lemma InsertTxnWf(s: Store, t: Txn)
    requires Wf(s) && t.cashbookId < s.cashbooks.next
    ensures Wf(s.(txns := Insert(s.txns, t)))
  {
  }

  /**
   * `createTransaction`, storing the row without `category_ids`: validate,
   * check the cashbook is the requester's, insert, recompute that cashbook.
   */
  function CreateTransaction(s: Store, uid: nat, body: Object<Value>): (r: Step<Row<Txn>>)
    requires Wf(s)
    ensures Wf(r.store)
    ensures !CreateBodyOk(body) ==>
              r.store == s && r.reply == Failed(AppError(422, Fields(ErrorMap(ValidateCreate(body).error))))
    ensures CreateBodyOk(body) && OwnedCashbook(s, ValidateCreate(body).value.cashbookId, uid).None? ==>
              r.store == s && r.reply == Failed(AppError(404, Text(CashbookDenied)))
    ensures CreateBodyOk(body) && OwnedCashbook(s, ValidateCreate(body).value.cashbookId, uid).Some? ==> r.reply.Done?
    ensures r.reply.Done? ==>
              var v := ValidateCreate(body).value;
              && CreateBodyOk(body)
              && r.reply == Done(201, Row(s.txns.next, NewRow(v, uid)))
              && r.reply.value.val.userId == uid
              && OwnedCashbook(s, v.cashbookId, uid).Some?
              && r.store == Recompute(s.(txns := Insert(s.txns, NewRow(v, uid))), v.cashbookId)
    ensures r.reply.Failed? ==> r.store == s
  {
    match ValidateCreate(body)
    case Err(issues) => Step(Failed(AppError(422, Fields(ErrorMap(issues)))), s)
    case Ok(v) =>
      match OwnedCashbook(s, v.cashbookId, uid)
      case None => Step(Failed(AppError(404, Text(CashbookDenied))), s)
      case Some(_) =>
        OwnedCashbookBelowNext(s, v.cashbookId, uid);
        var s1 := s.(txns := Insert(s.txns, NewRow(v, uid)));
        InsertTxnWf(s, NewRow(v, uid));
        RecomputeWf(s1, v.cashbookId);
        var done := Step(Done(201, Row(s.txns.next, NewRow(v, uid))), Recompute(s1, v.cashbookId));
        RowDataRuns(v, uid);
        assert Execute(Prepare.Prepare(RowData(v, uid)).0, s, done) == done;
        Execute(Prepare.Prepare(RowData(v, uid)).0, s, done)
  }

  /**
   * `createTransaction` as written: the INSERT names `category_ids`, so the
   * database refuses every valid, owned create and nothing is stored.
   */
  function CreateTransactionAsWritten(s: Store, uid: nat, body: Object<Value>): (r: Step<Row<Txn>>)
    requires Wf(s)
    ensures r.store == s
    ensures !CreateBodyOk(body) ==> r.reply == Failed(AppError(422, Fields(ErrorMap(ValidateCreate(body).error))))
    ensures CreateBodyOk(body) && OwnedCashbook(s, ValidateCreate(body).value.cashbookId, uid).None? ==>
              r.reply == Failed(AppError(404, Text(CashbookDenied)))
    ensures CreateBodyOk(body) && OwnedCashbook(s, ValidateCreate(body).value.cashbookId, uid).Some? ==>
              r.reply == Failed(AppError(500, Text(DatabaseRefused)))
  {
    match ValidateCreate(body)
    case Err(issues) => Step(Failed(AppError(422, Fields(ErrorMap(issues)))), s)
    case Ok(v) =>
      match OwnedCashbook(s, v.cashbookId, uid)
      case None => Step(Failed(AppError(404, Text(CashbookDenied))), s)
      case Some(_) =>
        CreateDataRefused(v, uid);
        Execute(Prepare.Prepare(CreateDataAsWritten(v, uid)).0, s, CreateTransaction(s, uid, body))
  }

  /** Creating a transaction keeps every stored balance equal to income minus expense. */
  lemma CreateKeepsBalances(s: Store, uid: nat, body: Object<Value>)
    requires Wf(s) && BalancesHold(s)
    ensures BalancesHold(CreateTransaction(s, uid, body).store)
  {
    var r := CreateTransaction(s, uid, body);
    if r.reply.Done? {
      var v := ValidateCreate(body).value;
      var x := Row(s.txns.next, NewRow(v, uid));
      var s1 := s.(txns := Insert(s.txns, NewRow(v, uid)));
      assert s1.txns.rows == s.txns.rows + [x];
      AppendHoldsExcept(s, s1, x);
      RecomputeExcept(s1, v.cashbookId, {});
      assert r.store == Recompute(s1, v.cashbookId);
    }
  }

  /** The patch's fields replace the row's; the owner never changes. */
  function ApplyPatch(t: Txn, p: TxnPatch): (r: Txn)
    ensures r.userId == t.userId
    ensures r.cashbookId == p.cashbookId.GetOr(t.cashbookId)
    ensures r.kind == p.kind.GetOr(t.kind) && r.amount == p.amount.GetOr(t.amount)
    ensures r.sourcePerson == p.sourcePerson.GetOr(t.sourcePerson)
    ensures r.description == (if p.description.Some? then p.description else t.description)
    ensures r.date == p.date.GetOr(t.date)
  {
    t.(cashbookId := p.cashbookId.GetOr(t.cashbookId),
       kind := p.kind.GetOr(t.kind),
       amount := p.amount.GetOr(t.amount),
       sourcePerson := p.sourcePerson.GetOr(t.sourcePerson),
       description := if p.description.Some? then p.description else t.description,
       date := p.date.GetOr(t.date))
  }

  /** The corrected UPDATE writes exactly the patch: a column it SETs takes the supplied value, any other keeps its own. */
  lemma PatchColumnsAreTheUpdate(prior: Txn, p: TxnPatch, k: string)
    ensures Cell(ApplyPatch(prior, p), k) == if Get(PatchColumns(p), k).Some? then Get(PatchColumns(p), k) else Cell(prior, k)
  {
    var a := Entry("cashbook_id", p.cashbookId, (n: nat) => Num(100 * n));
    var b := Entry("type", p.kind, (k: Kind) => Str(KindName(k)));
    var c := Entry("amount", p.amount, (n: int) => Num(n));
    var d := Entry("source_person", p.sourcePerson, (t: string) => Str(t));
    var e := Entry("description", p.description, (t: string) => Str(t));
    var f := Entry("transaction_date", p.date, DateJson);
    assert PatchColumns(p) == a + b + c + d + e + f;
    GetSplit(a + b + c + d + e, f, k);
    GetSplit(a + b + c + d, e, k);
    GetSplit(a + b + c, d, k);
    GetSplit(a + b, c, k);
    GetSplit(a, b, k);
    GetEntry("cashbook_id", p.cashbookId, (n: nat) => Num(100 * n), k);
    GetEntry("type", p.kind, (k: Kind) => Str(KindName(k)), k);
    GetEntry("amount", p.amount, (n: int) => Num(n), k);
    GetEntry("source_person", p.sourcePerson, (t: string) => Str(t), k);
    GetEntry("description", p.description, (t: string) => Str(t), k);
    GetEntry("transaction_date", p.date, DateJson, k);
  }

  /** Looking a key up in an optional entry. */
  lemma GetEntry<X>(key: string, x: Option<X>, json: X -> Value, k: string)
    ensures Get(Entry(key, x, json), k) == if x.Some? && key == k then Some(json(x.value)) else None
  {
  }

  /** No column is left to SET once `category_ids` is kept out of the UPDATE. */
  predicate NoColumns(p: TxnPatch) {
    && p.cashbookId.None? && p.kind.None? && p.amount.None? && p.sourcePerson.None?
    && p.description.None? && p.date.None?
  }

  /** The store after the UPDATE statement, before any recomputation. */
  function Patched(s: Store, id: nat, p: TxnPatch): Store {
    s.(txns := s.txns.(rows := Update(s.txns.rows, id, (t: Txn) => ApplyPatch(t, p))))
  }

  /**
   * `updateTransaction`, with `category_ids` kept out of the UPDATE:
   * validate, check ownership of the transaction and of a new cashbook,
   * write, then recompute the prior and the new cashbook when the
   * transaction moved, else its one cashbook. The re-fetch joins on the
   * cashbook: when that cashbook is gone, reading the missing row fails
   * after the write.
   */
  function UpdateTransaction(s: Store, uid: nat, id: nat, body: Object<Value>): (r: Step<Row<Txn>>)
    requires Wf(s)
    ensures Wf(r.store)
    ensures !UpdateBodyOk(body) ==>
              r.store == s && r.reply == Failed(AppError(422, Fields(ErrorMap(ValidateUpdate(body).error))))
    ensures UpdateBodyOk(body) ==> r == ApplyUpdate(s, uid, id, ValidateUpdate(body).value)
  {
    match ValidateUpdate(body)
    case Err(issues) => Step(Failed(AppError(422, Fields(ErrorMap(issues)))), s)
    case Ok(p) => ApplyUpdate(s, uid, id, p)
  }

  /** The part of `updateTransaction` after validation, on the parsed patch. */
  function ApplyUpdate(s: Store, uid: nat, id: nat, p: TxnPatch): (r: Step<Row<Txn>>)
    requires Wf(s)
    ensures Wf(r.store)
    ensures OwnedTxn(s, id, uid).None? ==> r.store == s && r.reply == Failed(AppError(404, Text(TxnNotFound)))
    ensures OwnedTxn(s, id, uid).Some? && p.cashbookId.Some? && OwnedCashbook(s, p.cashbookId.value, uid).None? ==>
              r.store == s && r.reply == Failed(AppError(404, Text(CashbookDenied)))
    ensures OwnedTxn(s, id, uid).Some? && NoColumns(p) && !(p.cashbookId.Some? && OwnedCashbook(s, p.cashbookId.value, uid).None?) ==>
              r.store == s && r.reply == Failed(AppError(500, Text(DatabaseRefused)))
    ensures OwnedTxn(s, id, uid).Some? && !NoColumns(p)
            && !(p.cashbookId.Some? && OwnedCashbook(s, p.cashbookId.value, uid).None?)
            && ((p.cashbookId.Some? && p.cashbookId.value != OwnedTxn(s, id, uid).value.cashbookId)
                || Find(s.cashbooks.rows, OwnedTxn(s, id, uid).value.cashbookId).Some?) ==>
              r.reply.Done?
    ensures r.reply.Done? ==>
              var prior := OwnedTxn(s, id, uid).value;
              && OwnedTxn(s, id, uid).Some?
              && r.reply == Done(200, Row(id, ApplyPatch(prior, p)))
              && (if p.cashbookId.Some? && p.cashbookId.value != prior.cashbookId
                  then r.store == Recompute(Recompute(Patched(s, id, p), prior.cashbookId), p.cashbookId.value)
                  else r.store == Recompute(Patched(s, id, p), prior.cashbookId))
    ensures r.reply.Failed? && r.store != s ==>
              var prior := OwnedTxn(s, id, uid).value;
              && OwnedTxn(s, id, uid).Some?
              && r.reply == Failed(AppError(500, Text(UndefinedRead)))
              && r.store == Patched(s, id, p)
              && ApplyPatch(prior, p).cashbookId == prior.cashbookId
              && Find(s.cashbooks.rows, prior.cashbookId).None?
  {
    match OwnedTxn(s, id, uid)
    case None => Step(Failed(AppError(404, Text(TxnNotFound))), s)
    case Some(prior) =>
      if p.cashbookId.Some? && OwnedCashbook(s, p.cashbookId.value, uid).None? then
        Step(Failed(AppError(404, Text(CashbookDenied))), s)
      else
        var s1 := Patched(s, id, p);
        PatchedWf(s, uid, id, p);
        var updated := ApplyPatch(prior, p);
        PatchRuns(p);
        Execute(Prepare.Prepare(PatchColumns(p)).0, s,
          if p.cashbookId.Some? && p.cashbookId.value != prior.cashbookId then
            RecomputeWf(s1, prior.cashbookId);
            RecomputeWf(Recompute(s1, prior.cashbookId), p.cashbookId.value);
            Step(Done(200, Row(id, updated)), Recompute(Recompute(s1, prior.cashbookId), p.cashbookId.value))
          else if Find(s.cashbooks.rows, prior.cashbookId).None? then
            Step(Failed(AppError(500, Text(UndefinedRead))), s1)
          else
            RecomputeWf(s1, prior.cashbookId);
            Step(Done(200, Row(id, updated)), Recompute(s1, prior.cashbookId)))
  }

  /**
   * `updateTransaction` as written: the UPDATE always SETs `category_ids`,
   * so the database refuses every valid update of an owned transaction and
   * nothing changes.
   */
  function UpdateTransactionAsWritten(s: Store, uid: nat, id: nat, body: Object<Value>): (r: Step<Row<Txn>>)
    requires Wf(s)
    ensures r.store == s
    ensures !UpdateBodyOk(body) ==> r.reply == Failed(AppError(422, Fields(ErrorMap(ValidateUpdate(body).error))))
    ensures UpdateBodyOk(body) ==> r == ApplyUpdateAsWritten(s, uid, id, ValidateUpdate(body).value)
  {
    match ValidateUpdate(body)
    case Err(issues) => Step(Failed(AppError(422, Fields(ErrorMap(issues)))), s)
    case Ok(p) => ApplyUpdateAsWritten(s, uid, id, p)
  }

  /** The part of `updateTransaction` as written after validation: an owned transaction is never updated. */
  function ApplyUpdateAsWritten(s: Store, uid: nat, id: nat, p: TxnPatch): (r: Step<Row<Txn>>)
    requires Wf(s)
    ensures r.store == s
    ensures OwnedTxn(s, id, uid).None? ==> r.reply == Failed(AppError(404, Text(TxnNotFound)))
    ensures OwnedTxn(s, id, uid).Some? && p.cashbookId.Some? && OwnedCashbook(s, p.cashbookId.value, uid).None? ==>
              r.reply == Failed(AppError(404, Text(CashbookDenied)))
    ensures OwnedTxn(s, id, uid).Some? && !(p.cashbookId.Some? && OwnedCashbook(s, p.cashbookId.value, uid).None?) ==>
              r.reply == Failed(AppError(500, Text(DatabaseRefused)))
  {
    match OwnedTxn(s, id, uid)
    case None => Step(Failed(AppError(404, Text(TxnNotFound))), s)
    case Some(prior) =>
      if p.cashbookId.Some? && OwnedCashbook(s, p.cashbookId.value, uid).None? then
        Step(Failed(AppError(404, Text(CashbookDenied))), s)
      else
        UpdateDataRefused(p);
        Execute(Prepare.Prepare(UpdateDataAsWritten(p)).0, s, ApplyUpdate(s, uid, id, p))
  }

  /** The UPDATE keeps the store well formed when any new cashbook is the requester's. */
  lemma PatchedWf(s: Store, uid: nat, id: nat, p: TxnPatch)
    requires Wf(s)
    requires p.cashbookId.Some? ==> OwnedCashbook(s, p.cashbookId.value, uid).Some?
    ensures Wf(Patched(s, id, p))
  {
    UpdateKeepsIds(s.txns.rows, id, (t: Txn) => ApplyPatch(t, p));
    var rows := Patched(s, id, p).txns.rows;
    assert forall i :: 0 <= i < |rows| ==> rows[i].id == s.txns.rows[i].id;
    if p.cashbookId.Some? {
      OwnedCashbookBelowNext(s, p.cashbookId.value, uid);
    }
  }

  /** The UPDATE changes no cashbook's totals except the prior and the new cashbook's. */
  lemma PatchedKeepsOthers(s: Store, id: nat, prior: Txn, p: TxnPatch, cb: nat, k: Kind)
    requires UniqueIds(s.txns.rows) && Find(s.txns.rows, id) == Some(prior)
    requires cb != prior.cashbookId && cb != ApplyPatch(prior, p).cashbookId
    ensures Total(Patched(s, id, p).txns.rows, CashbookScope(cb), k) == Total(s.txns.rows, CashbookScope(cb), k)
  {
    FindUnique(s.txns.rows, id, prior);
    TotalUpdateOutside(s.txns.rows, id, (t: Txn) => ApplyPatch(t, p), CashbookScope(cb), k);
  }

  /** After the UPDATE the balances still hold everywhere except at the old and the new cashbook. */
  lemma PatchedHoldsExcept(s: Store, id: nat, prior: Txn, p: TxnPatch)
    requires UniqueIds(s.txns.rows) && Find(s.txns.rows, id) == Some(prior)
    requires BalancesHold(s)
    ensures HoldsExcept(Patched(s, id, p), {prior.cashbookId, ApplyPatch(prior, p).cashbookId})
  {
    var s1 := Patched(s, id, p);
    forall i | 0 <= i < |s1.cashbooks.rows| && s1.cashbooks.rows[i].id !in {prior.cashbookId, ApplyPatch(prior, p).cashbookId}
      ensures s1.cashbooks.rows[i].val.currentBalance == Net(s1.txns.rows, s1.cashbooks.rows[i].id)
    {
      PatchedKeepsOthers(s, id, prior, p, s1.cashbooks.rows[i].id, Income);
      PatchedKeepsOthers(s, id, prior, p, s1.cashbooks.rows[i].id, Expense);
    }
  }

  /** A transaction whose cashbook is gone, and stays gone, can change without touching any balance. */
  lemma PatchedDanglingHolds(s: Store, id: nat, prior: Txn, p: TxnPatch)
    requires UniqueIds(s.txns.rows) && Find(s.txns.rows, id) == Some(prior)
    requires BalancesHold(s)
    requires ApplyPatch(prior, p).cashbookId == prior.cashbookId
    requires Find(s.cashbooks.rows, prior.cashbookId).None?
    ensures BalancesHold(Patched(s, id, p))
  {
    PatchedHoldsExcept(s, id, prior, p);
    var s1 := Patched(s, id, p);
    forall i | 0 <= i < |s1.cashbooks.rows|
      ensures s1.cashbooks.rows[i].id != prior.cashbookId
    {
      assert s1.cashbooks.rows[i].id in Ids(s.cashbooks.rows);
    }
  }

  /** Applying a patch keeps every stored balance equal to income minus expense. */
  lemma ApplyUpdateKeepsBalances(s: Store, uid: nat, id: nat, p: TxnPatch)
    requires Wf(s) && BalancesHold(s)
    ensures BalancesHold(ApplyUpdate(s, uid, id, p).store)
  {
    var r := ApplyUpdate(s, uid, id, p);
    if r.store != s {
      var prior := OwnedTxn(s, id, uid).value;
      var s1 := Patched(s, id, p);
      var nb := ApplyPatch(prior, p).cashbookId;
      PatchedHoldsExcept(s, id, prior, p);
      if r.reply.Failed? {
        PatchedDanglingHolds(s, id, prior, p);
      } else if p.cashbookId.Some? && p.cashbookId.value != prior.cashbookId {
        RecomputeBoth(s1, prior.cashbookId, nb);
      } else {
        assert {prior.cashbookId, nb} == {} + {prior.cashbookId};
        RecomputeExcept(s1, prior.cashbookId, {});
      }
    }
  }

  /** Updating a transaction keeps every stored balance equal to income minus expense. */
  lemma UpdateKeepsBalances(s: Store, uid: nat, id: nat, body: Object<Value>)
    requires Wf(s) && BalancesHold(s)
    ensures BalancesHold(UpdateTransaction(s, uid, id, body).store)
  {
    if UpdateBodyOk(body) {
      ApplyUpdateKeepsBalances(s, uid, id, ValidateUpdate(body).value);
    }
  }

  /** `deleteTransaction`: check ownership, delete, recompute the cashbook it belonged to. */
  function DeleteTransaction(s: Store, uid: nat, id: nat): (r: Step<string>)
    requires Wf(s)
    ensures Wf(r.store)
    ensures OwnedTxn(s, id, uid).None? <==> r.reply == Failed(AppError(404, Text(TxnNotFound)))
    ensures OwnedTxn(s, id, uid).Some? ==> r.reply.Done?
    ensures r.reply.Failed? ==> r.store == s
    ensures r.reply.Done? ==>
              && r.reply == Done(200, "Transaction deleted successfully!")
              && r.store == Recompute(s.(txns := s.txns.(rows := Remove(s.txns.rows, id))), OwnedTxn(s, id, uid).value.cashbookId)
              && Ids(r.store.txns.rows) == Ids(s.txns.rows) - {id}
  {
    match OwnedTxn(s, id, uid)
    case None => Step(Failed(AppError(404, Text(TxnNotFound))), s)
    case Some(prior) =>
      var s1 := s.(txns := s.txns.(rows := Remove(s.txns.rows, id)));
      assert forall i :: 0 <= i < |s1.txns.rows| ==> s1.txns.rows[i] in s.txns.rows;
      RecomputeWf(s1, prior.cashbookId);
      Step(Done(200, "Transaction deleted successfully!"), Recompute(s1, prior.cashbookId))
  }

  /** Deleting a transaction keeps every stored balance equal to income minus expense. */
  lemma DeleteKeepsBalances(s: Store, uid: nat, id: nat)
    requires Wf(s) && BalancesHold(s)
    ensures BalancesHold(DeleteTransaction(s, uid, id).store)
  {
    var r := DeleteTransaction(s, uid, id);
    if r.reply.Done? {
      var prior := OwnedTxn(s, id, uid).value;
      var s1 := s.(txns := s.txns.(rows := Remove(s.txns.rows, id)));
      FindUnique(s.txns.rows, id, prior);
      forall i | 0 <= i < |s1.cashbooks.rows| && s1.cashbooks.rows[i].id != prior.cashbookId
        ensures s1.cashbooks.rows[i].val.currentBalance == Net(s1.txns.rows, s1.cashbooks.rows[i].id)
      {
        var cb := s1.cashbooks.rows[i].id;
        TotalRemoveOutside(s.txns.rows, id, CashbookScope(cb), Income);
        TotalRemoveOutside(s.txns.rows, id, CashbookScope(cb), Expense);
      }
      RecomputeRestores(s1, prior.cashbookId);
    }
  }
}

=== FILE: transaction_schema.dfy ===
/** `createTransactionSchema` and `updateTransactionSchema`. */
module TransactionSchema {
  import opened Wrappers
  import opened JsValues
  import opened Zod
  import opened Ledger
  import opened KindSchema

  /** 999,999,999.99 in cents. */
  const MaxAmountCents: int := 99999999999

  /** A validated create body. Amounts are in cents. */
  datatype NewTxn = NewTxn(
    cashbookId: nat,
    kind: Kind,
    amount: int,
    sourcePerson: string,
    description: Option<string>,
    date: TxnDate,
    categoryIds: seq<nat>)

  /** A validated update body: only the supplied fields, except `category_ids`, which defaults to `[]`. */
  datatype TxnPatch = TxnPatch(
    cashbookId: Option<nat>,
    kind: Option<Kind>,
    amount: Option<int>,
    sourcePerson: Option<string>,
    description: Option<string>,
    date: Option<TxnDate>,
    categoryIds: seq<nat>)

  /** The schema's keys: the only fields an issue can name. */
  const FieldNames: set<string> :=
    {"cashbook_id", "type", "amount", "source_person", "description", "transaction_date", "category_ids"}

  // ---------------------------------------------------------------------------
  // What each field accepts, stated directly

  predicate PositiveInt(v: Value) {
    v.Num? && v.cents % 100 == 0 && v.cents > 0
  }

  predicate AmountOk(v: Value) {
    v.Num? && 0 < v.cents <= MaxAmountCents
  }

  predicate LengthOk(v: Value, lo: nat, hi: nat) {
    v.Str? && lo <= |v.s| <= hi
  }

  predicate DateOk(v: Value) {
    (v.Str? && DateShaped(v.s)) || v.DateObj?
  }

  predicate IdsOk(v: Value) {
    v.Arr? && forall i :: 0 <= i < |v.items| ==> PositiveInt(v.items[i])
  }

  /** The create schema accepts exactly these bodies. */
  predicate CreateBodyOk(body: Object<Value>) {
    && Get(body, "cashbook_id").Some? && PositiveInt(Get(body, "cashbook_id").value)
    && Get(body, "type").Some? && KindOk(Get(body, "type").value)
    && Get(body, "amount").Some? && AmountOk(Get(body, "amount").value)
    && Get(body, "source_person").Some? && LengthOk(Get(body, "source_person").value, 1, 150)
    && (Get(body, "description").None? || LengthOk(Get(body, "description").value, 0, 1000))
    && Get(body, "transaction_date").Some? && DateOk(Get(body, "transaction_date").value)
    && (Get(body, "category_ids").None? || IdsOk(Get(body, "category_ids").value))
  }

  /** The update schema accepts any subset of the fields under the same bounds. */
  predicate UpdateBodyOk(body: Object<Value>) {
    && (Get(body, "cashbook_id").None? || PositiveInt(Get(body, "cashbook_id").value))
    && (Get(body, "type").None? || KindOk(Get(body, "type").value))
    && (Get(body, "amount").None? || AmountOk(Get(body, "amount").value))
    && (Get(body, "source_person").None? || LengthOk(Get(body, "source_person").value, 1, 150))
    && (Get(body, "description").None? || LengthOk(Get(body, "description").value, 0, 1000))
    && (Get(body, "transaction_date").None? || DateOk(Get(body, "transaction_date").value))
    && (Get(body, "category_ids").None? || IdsOk(Get(body, "category_ids").value))
  }

  // ---------------------------------------------------------------------------
  // The zod field definitions

  function CashbookIdField(v: Option<Value>): (r: Result<nat, seq<string>>)
    ensures r.Ok? <==> v.Some? && PositiveInt(v.value)
    ensures r.Ok? ==> r.value > 0 && v.value.cents == 100 * r.value
    ensures r.Err? ==> |r.error| > 0
    ensures v.Some? && v.value.Num? && v.value.cents % 100 != 0 ==> "Cashbook ID must be an integer" in r.error
    ensures v.Some? && v.value.Num? && v.value.cents <= 0 ==> "Cashbook ID must be positive" in r.error
  {
    var checks := [IsInt("Cashbook ID must be an integer"), Positive("Cashbook ID must be positive")];
    if v.Some? && v.value.Num? then AllNumPair(checks[0], checks[1], v.value.cents); PositiveIdOf(ZNumber(v, checks))
    else PositiveIdOf(ZNumber(v, checks))
  }

  function PositiveIdOf(r: Result<int, seq<string>>): (id: Result<nat, seq<string>>)
    requires r.Ok? ==> r.value > 0 && r.value % 100 == 0
    ensures id.Ok? <==> r.Ok?
    ensures id.Ok? ==> id.value > 0 && r.value == 100 * id.value
    ensures id.Err? ==> id.error == r.error
  {
    match r
    case Ok(c) => Ok(c / 100)
    case Err(e) => Err(e)
  }

  function AmountField(v: Option<Value>): (r: Result<int, seq<string>>)
    ensures r.Ok? <==> v.Some? && AmountOk(v.value)
    ensures r.Ok? ==> 0 < r.value <= MaxAmountCents && v.value.cents == r.value
    ensures r.Err? ==> |r.error| > 0
    ensures v.Some? && v.value.Num? && v.value.cents <= 0 ==> r == Err(["Amount must be positive"])
    ensures v.Some? && v.value.Num? && v.value.cents > MaxAmountCents ==> r == Err(["Amount cannot exceed 999,999,999.99"])
  {
    var checks := [Positive("Amount must be positive"), AtMost(MaxAmountCents, "Amount cannot exceed 999,999,999.99")];
    if v.Some? && v.value.Num? then
      AllNumPair(checks[0], checks[1], v.value.cents);
      NumFailuresPair(checks[0], checks[1], v.value.cents);
      assert ["Amount must be positive"] + [] == ["Amount must be positive"];
      assert [] + ["Amount cannot exceed 999,999,999.99"] == ["Amount cannot exceed 999,999,999.99"];
      ZNumber(v, checks)
    else ZNumber(v, checks)
  }

  function SourcePersonField(v: Option<Value>): (r: Result<string, seq<string>>)
    ensures r.Ok? <==> v.Some? && LengthOk(v.value, 1, 150)
    ensures r.Ok? ==> r.value == v.value.s
    ensures r.Err? ==> |r.error| > 0
  {
    Sized(v, 1, 150, "Source person is required", "Source person must be less than 150 characters")
  }

  function DescriptionField(v: Option<Value>): (r: Result<string, seq<string>>)
    ensures r.Ok? <==> v.Some? && LengthOk(v.value, 0, 1000)
    ensures r.Ok? ==> r.value == v.value.s
    ensures r.Err? ==> |r.error| > 0
  {
    var checks := [MaxLen(1000, "Description must be less than 1000 characters")];
    if v.Some? && v.value.Str? then AllStrOne(checks[0], v.value.s, NoEmailRule); ZString(v, None, checks, NoEmailRule)
    else ZString(v, None, checks, NoEmailRule)
  }

  /**
   * `z.string().regex(...).or(z.date())`: a string that fails the pattern
   * reports the pattern's message; anything that is neither a string nor a
   * date (a missing field included) reports zod's union failure.
   */
  function DateField(v: Option<Value>): (r: Result<TxnDate, seq<string>>)
    ensures r.Ok? <==> v.Some? && DateOk(v.value)
    ensures r.Ok? && v.value.Str? ==> r.value == DateText(v.value.s)
    ensures r.Ok? && v.value.DateObj? ==> r.value == DateValue
    ensures r.Err? ==> |r.error| == 1
  {
    if v.Some? && v.value.DateObj? then Ok(DateValue)
    else if v.Some? && v.value.Str? then
      var checks := [DatePattern("Transaction date must be in YYYY-MM-DD format")];
      AllStrOne(checks[0], v.value.s, NoEmailRule);
      match ZString(v, None, checks, NoEmailRule)
      case Ok(s) => Ok(DateText(s))
      case Err(e) => Err(e)
    else Err(["Invalid input"])
  }

  /** The elements of `z.array(z.number().int().positive())`; every bad element reports. */
  function IdItems(items: seq<Value>): (r: Result<seq<nat>, seq<string>>)
    ensures r.Ok? <==> forall i :: 0 <= i < |items| ==> PositiveInt(items[i])
    ensures r.Ok? ==> |r.value| == |items| && forall i :: 0 <= i < |items| ==> items[i].cents == 100 * r.value[i]
    ensures r.Err? ==> |r.error| > 0
  {
    if |items| == 0 then Ok([])
    else
      var checks := [IsInt("Category ID must be an integer"), Positive("Category ID must be positive")];
      var head := ZNumber(Some(items[0]), checks);
      assert head.Ok? <==> PositiveInt(items[0]) by {
        if items[0].Num? { AllNumPair(checks[0], checks[1], items[0].cents); }
      }
      var tail := IdItems(items[1..]);
      assert forall i :: 0 < i < |items| ==> items[i] == items[1..][i - 1];
      match (head, tail)
      case (Ok(c), Ok(ids)) => Ok([(c / 100) as nat] + ids)
      case (Ok(_), Err(e)) => Err(e)
      case (Err(e), Ok(_)) => Err(e)
      case (Err(e1), Err(e2)) => Err(e1 + e2)
  }

  /** The parsed ids are the body's `category_ids`, element by element, and `[]` when it is absent. */
  predicate IdsCarried(v: Option<Value>, ids: seq<nat>) {
    && (v.None? ==> ids == [])
    && (v.Some? ==> v.value.Arr? && |v.value.items| == |ids|
                    && forall i :: 0 <= i < |ids| ==> v.value.items[i] == Num(100 * ids[i]))
  }

  /** `category_ids`: an array of positive integers, `[]` when absent. */
  function CategoryIdsField(v: Option<Value>): (r: Result<seq<nat>, seq<string>>)
    ensures r.Ok? <==> v.None? || IdsOk(v.value)
    ensures v.None? ==> r == Ok([])
    ensures r.Ok? && v.Some? ==>
              |r.value| == |v.value.items| && forall i :: 0 <= i < |r.value| ==> v.value.items[i] == Num(100 * r.value[i])
    ensures r.Ok? ==> IdsCarried(v, r.value)
    ensures r.Err? ==> |r.error| > 0
  {
    Default(v, [],
      if v.Some? && v.value.Arr? then IdItems(v.value.items)
      else if v.Some? then Err([TypeMismatch("array", v.value)])
      else Ok([]))
  }

  /** Every issue names a field of the transaction schemas. */
  predicate Known(issues: seq<Issue>) {
    forall i :: 0 <= i < |issues| ==> issues[i].field in FieldNames
  }

  /** Issues of two halves of a body both name schema fields. */
  lemma KnownAppend(a: seq<Issue>, b: seq<Issue>)
    requires Known(a) && Known(b)
    ensures Known(a + b)
  {
    assert forall i :: |a| <= i < |a + b| ==> (a + b)[i] == b[i - |a|];
  }

  /** The issues of a failed parse, field by field in schema order. */
  function TxnIssues(cb: seq<string>, ty: seq<string>, am: seq<string>, sp: seq<string>,
                     de: seq<string>, dt: seq<string>, ci: seq<string>): (r: seq<Issue>)
    ensures r == [] <==> cb == [] && ty == [] && am == [] && sp == [] && de == [] && dt == [] && ci == []
    ensures Known(r)
  {
    Tag("cashbook_id", cb) + Tag("type", ty) + Tag("amount", am) + Tag("source_person", sp)
    + Tag("description", de) + Tag("transaction_date", dt) + Tag("category_ids", ci)
  }

  // ---------------------------------------------------------------------------
  // The schemas

  /** `createTransactionSchema.safeParse(body)` */
  function ValidateCreate(body: Object<Value>): (r: Result<NewTxn, seq<Issue>>)
    ensures r.Ok? <==> CreateBodyOk(body)
    ensures r.Ok? ==>
              && r.value.cashbookId > 0
              && Get(body, "cashbook_id") == Some(Num(100 * r.value.cashbookId))
              && Get(body, "type") == Some(Str(KindName(r.value.kind)))
              && 0 < r.value.amount <= MaxAmountCents
              && Get(body, "amount") == Some(Num(r.value.amount))
              && 1 <= |r.value.sourcePerson| <= 150
              && Get(body, "source_person") == Some(Str(r.value.sourcePerson))
              && (r.value.description.Some? <==> Get(body, "description").Some?)
              && (r.value.description.Some? ==>
                    |r.value.description.value| <= 1000 && Get(body, "description") == Some(Str(r.value.description.value)))
              && Get(body, "transaction_date") == Some(if r.value.date.DateText? then Str(r.value.date.text) else DateObj)
              && IdsCarried(Get(body, "category_ids"), r.value.categoryIds)
    ensures r.Err? ==> |r.error| > 0 && Known(r.error)
  {
    var cb := CashbookIdField(Get(body, "cashbook_id"));
    var ty := KindField(Get(body, "type"));
    var am := AmountField(Get(body, "amount"));
    var sp := SourcePersonField(Get(body, "source_person"));
    var de := OptDescription(Get(body, "description"));
    var dt := DateField(Get(body, "transaction_date"));
    var ci := CategoryIdsField(Get(body, "category_ids"));
    if cb.Ok? && ty.Ok? && am.Ok? && sp.Ok? && de.Ok? && dt.Ok? && ci.Ok? then
      Ok(NewTxn(cb.value, ty.value, am.value, sp.value, de.value, dt.value, ci.value))
    else
      Err(TxnIssues(Errors(cb), Errors(ty), Errors(am), Errors(sp), Errors(de), Errors(dt), Errors(ci)))
  }

  /** The body value a parsed date came from: the string it was, or the `Date` object. */
  function DateAsValue(d: TxnDate): Value {
    if d.DateText? then Str(d.text) else DateObj
  }

  /** Every value of a patch is the one its body field carried. */
  predicate PatchCarried(f: UpdateFields, p: TxnPatch) {
    && (p.cashbookId.Some? ==> f.cashbookId == Some(Num(100 * p.cashbookId.value)))
    && (p.kind.Some? ==> f.kind == Some(Str(KindName(p.kind.value))))
    && (p.amount.Some? ==> f.amount == Some(Num(p.amount.value)))
    && (p.sourcePerson.Some? ==> f.sourcePerson == Some(Str(p.sourcePerson.value)))
    && (p.description.Some? ==> f.description == Some(Str(p.description.value)))
    && (p.date.Some? ==> f.date == Some(DateAsValue(p.date.value)))
    && IdsCarried(f.categoryIds, p.categoryIds)
  }

  // `.optional()` on each field of the update schema

  function OptCashbookId(v: Option<Value>): (r: Result<Option<nat>, seq<string>>)
    ensures r.Ok? <==> v.None? || PositiveInt(v.value)
    ensures r.Ok? ==> (r.value.Some? <==> v.Some?)
    ensures r.Ok? && r.value.Some? ==> r.value.value > 0 && v.value.cents == 100 * r.value.value
    ensures r.Err? ==> |r.error| > 0
  {
    Optional(v, CashbookIdField(v))
  }

  function OptKind(v: Option<Value>): (r: Result<Option<Kind>, seq<string>>)
    ensures r.Ok? <==> v.None? || KindOk(v.value)
    ensures r.Ok? ==> (r.value.Some? <==> v.Some?)
    ensures r.Ok? && r.value.Some? ==> v == Some(Str(KindName(r.value.value)))
    ensures r.Err? ==> |r.error| > 0
  {
    Optional(v, KindField(v))
  }

  function OptAmount(v: Option<Value>): (r: Result<Option<int>, seq<string>>)
    ensures r.Ok? <==> v.None? || AmountOk(v.value)
    ensures r.Ok? ==> (r.value.Some? <==> v.Some?)
    ensures r.Ok? && r.value.Some? ==> 0 < r.value.value <= MaxAmountCents && v == Some(Num(r.value.value))
    ensures r.Err? ==> |r.error| > 0
  {
    Optional(v, AmountField(v))
  }

  function OptSourcePerson(v: Option<Value>): (r: Result<Option<string>, seq<string>>)
    ensures r.Ok? <==> v.None? || LengthOk(v.value, 1, 150)
    ensures r.Ok? ==> (r.value.Some? <==> v.Some?)
    ensures r.Ok? && r.value.Some? ==> v == Some(Str(r.value.value))
    ensures r.Err? ==> |r.error| > 0
  {
    Optional(v, SourcePersonField(v))
  }

  function OptDescription(v: Option<Value>): (r: Result<Option<string>, seq<string>>)
    ensures r.Ok? <==> v.None? || LengthOk(v.value, 0, 1000)
    ensures r.Ok? ==> (r.value.Some? <==> v.Some?)
    ensures r.Ok? && r.value.Some? ==> v == Some(Str(r.value.value))
    ensures r.Err? ==> |r.error| > 0
  {
    Optional(v, DescriptionField(v))
  }

  function OptDate(v: Option<Value>): (r: Result<Option<TxnDate>, seq<string>>)
    ensures r.Ok? <==> v.None? || DateOk(v.value)
    ensures r.Ok? ==> (r.value.Some? <==> v.Some?)
    ensures r.Ok? && r.value.Some? ==> v == Some(DateAsValue(r.value.value))
    ensures r.Err? ==> |r.error| > 0
  {
    Optional(v, DateField(v))
  }

  /** The fields an update body supplies, in schema order. */
  datatype UpdateFields = UpdateFields(
    cashbookId: Option<Value>,
    kind: Option<Value>,
    amount: Option<Value>,
    sourcePerson: Option<Value>,
    description: Option<Value>,
    date: Option<Value>,
    categoryIds: Option<Value>)

  function UpdateFieldsOf(body: Object<Value>): UpdateFields {
    UpdateFields(
      Get(body, "cashbook_id"), Get(body, "type"), Get(body, "amount"), Get(body, "source_person"),
      Get(body, "description"), Get(body, "transaction_date"), Get(body, "category_ids"))
  }

  /** The update schema on the first three fields. */
  function ParseUpdateHead(f: UpdateFields): (r: Result<(Option<nat>, Option<Kind>, Option<int>), seq<Issue>>)
    ensures r.Ok? <==>
              && (f.cashbookId.None? || PositiveInt(f.cashbookId.value))
              && (f.kind.None? || KindOk(f.kind.value))
              && (f.amount.None? || AmountOk(f.amount.value))
    ensures r.Ok? ==>
              && (r.value.0.Some? <==> f.cashbookId.Some?)
              && (r.value.0.Some? ==> r.value.0.value > 0 && f.cashbookId.value == Num(100 * r.value.0.value))
              && (r.value.1.Some? <==> f.kind.Some?)
              && (r.value.2.Some? <==> f.amount.Some?)
              && (r.value.2.Some? ==> 0 < r.value.2.value <= MaxAmountCents)
              && (r.value.1.Some? ==> f.kind == Some(Str(KindName(r.value.1.value))))
              && (r.value.2.Some? ==> f.amount == Some(Num(r.value.2.value)))
    ensures r.Err? ==> |r.error| > 0 && Known(r.error)
  {
    var cb := OptCashbookId(f.cashbookId);
    var ty := OptKind(f.kind);
    var am := OptAmount(f.amount);
    if cb.Ok? && ty.Ok? && am.Ok? then Ok((cb.value, ty.value, am.value))
    else Err(TxnIssues(Errors(cb), Errors(ty), Errors(am), [], [], [], []))
  }

  /** The update schema on the last four fields. */
  function ParseUpdateTail(f: UpdateFields)
    : (r: Result<(Option<string>, Option<string>, Option<TxnDate>, seq<nat>), seq<Issue>>)
    ensures r.Ok? <==>
              && (f.sourcePerson.None? || LengthOk(f.sourcePerson.value, 1, 150))
              && (f.description.None? || LengthOk(f.description.value, 0, 1000))
              && (f.date.None? || DateOk(f.date.value))
              && (f.categoryIds.None? || IdsOk(f.categoryIds.value))
    ensures r.Ok? ==>
              && (r.value.0.Some? <==> f.sourcePerson.Some?)
              && (r.value.0.Some? ==> 1 <= |r.value.0.value| <= 150)
              && (r.value.1.Some? <==> f.description.Some?)
              && (r.value.2.Some? <==> f.date.Some?)
              && (f.categoryIds.None? ==> r.value.3 == [])
              && (r.value.0.Some? ==> f.sourcePerson == Some(Str(r.value.0.value)))
              && (r.value.1.Some? ==> f.description == Some(Str(r.value.1.value)))
              && (r.value.2.Some? ==> f.date == Some(DateAsValue(r.value.2.value)))
              && IdsCarried(f.categoryIds, r.value.3)
    ensures r.Err? ==> |r.error| > 0 && Known(r.error)
  {
    var sp := OptSourcePerson(f.sourcePerson);
    var de := OptDescription(f.description);
    var dt := OptDate(f.date);
    var ci := CategoryIdsField(f.categoryIds);
    if sp.Ok? && de.Ok? && dt.Ok? && ci.Ok? then Ok((sp.value, de.value, dt.value, ci.value))
    else Err(TxnIssues([], [], [], Errors(sp), Errors(de), Errors(dt), Errors(ci)))
  }

  /** The update schema on the supplied fields: the issues of both halves, in schema order. */
  function ParseUpdate(f: UpdateFields): (r: Result<TxnPatch, seq<Issue>>)
    ensures r.Ok? <==>
              && (f.cashbookId.None? || PositiveInt(f.cashbookId.value))
              && (f.kind.None? || KindOk(f.kind.value))
              && (f.amount.None? || AmountOk(f.amount.value))
              && (f.sourcePerson.None? || LengthOk(f.sourcePerson.value, 1, 150))
              && (f.description.None? || LengthOk(f.description.value, 0, 1000))
              && (f.date.None? || DateOk(f.date.value))
              && (f.categoryIds.None? || IdsOk(f.categoryIds.value))
    ensures r.Ok? ==>
              && (r.value.cashbookId.Some? <==> f.cashbookId.Some?)
              && (r.value.cashbookId.Some? ==>
                    r.value.cashbookId.value > 0 && f.cashbookId.value == Num(100 * r.value.cashbookId.value))
              && (r.value.kind.Some? <==> f.kind.Some?)
              && (r.value.amount.Some? <==> f.amount.Some?)
              && (r.value.amount.Some? ==> 0 < r.value.amount.value <= MaxAmountCents)
              && (r.value.sourcePerson.Some? <==> f.sourcePerson.Some?)
              && (r.value.sourcePerson.Some? ==> 1 <= |r.value.sourcePerson.value| <= 150)
              && (r.value.description.Some? <==> f.description.Some?)
              && (r.value.date.Some? <==> f.date.Some?)
              && (f.categoryIds.None? ==> r.value.categoryIds == [])
    ensures r.Ok? ==> PatchCarried(f, r.value)
    ensures r.Err? ==> |r.error| > 0 && Known(r.error)
  {
    var h := ParseUpdateHead(f);
    var t := ParseUpdateTail(f);
    if h.Ok? && t.Ok? then
      Ok(TxnPatch(h.value.0, h.value.1, h.value.2, t.value.0, t.value.1, t.value.2, t.value.3))
    else
      var a := if h.Err? then h.error else [];
      var b := if t.Err? then t.error else [];
      KnownAppend(a, b);
      Err(a + b)
  }

  /** `updateTransactionSchema.safeParse(body)` */
  function ValidateUpdate(body: Object<Value>): (r: Result<TxnPatch, seq<Issue>>)
    ensures r.Ok? <==> UpdateBodyOk(body)
    ensures r.Ok? ==>
              && (r.value.cashbookId.Some? <==> Get(body, "cashbook_id").Some?)
              && (r.value.cashbookId.Some? ==>
                    r.value.cashbookId.value > 0 && Get(body, "cashbook_id") == Some(Num(100 * r.value.cashbookId.value)))
              && (r.value.kind.Some? <==> Get(body, "type").Some?)
              && (r.value.amount.Some? <==> Get(body, "amount").Some?)
              && (r.value.amount.Some? ==> 0 < r.value.amount.value <= MaxAmountCents)
              && (r.value.sourcePerson.Some? <==> Get(body, "source_person").Some?)
              && (r.value.sourcePerson.Some? ==> 1 <= |r.value.sourcePerson.value| <= 150)
              && (r.value.description.Some? <==> Get(body, "description").Some?)
              && (r.value.date.Some? <==> Get(body, "transaction_date").Some?)
              && (Get(body, "category_ids").None? ==> r.value.categoryIds == [])
    ensures r.Ok? ==>
              && (r.value.kind.Some? ==> Get(body, "type") == Some(Str(KindName(r.value.kind.value))))
              && (r.value.amount.Some? ==> Get(body, "amount") == Some(Num(r.value.amount.value)))
              && (r.value.sourcePerson.Some? ==> Get(body, "source_person") == Some(Str(r.value.sourcePerson.value)))
              && (r.value.description.Some? ==> Get(body, "description") == Some(Str(r.value.description.value)))
              && (r.value.date.Some? ==> Get(body, "transaction_date") == Some(DateAsValue(r.value.date.value)))
              && IdsCarried(Get(body, "category_ids"), r.value.categoryIds)
    ensures r.Err? ==> |r.error| > 0 && Known(r.error)
  {
    ParseUpdate(UpdateFieldsOf(body))
  }
}

=== FILE: wrappers.dfy ===
/** Optional values and results with an error payload, used throughout the model. */
module Wrappers {

  /** A value that may be absent: a missing body field, a row a query did not find. */
  datatype Option<+T> = None | Some(value: T) {

    /** The value, or `default` when absent. */
    function GetOr(default: T): T {
      if Some? then value else default
    }
  }

  /** The outcome of a validation: the parsed value or what went wrong. */
  datatype Result<+T, +E> = Ok(value: T) | Err(error: E)
}

=== FILE: zod.dfy ===
/**
 * The parts of zod's `safeParse` the request schemas use: typed fields with
 * checks run in declaration order, optional fields, defaults, and the
 * issue list a failed parse reports.
 */
module Zod {
  import opened Wrappers
  import opened JsValues

  /** One issue of a failed parse: the top-level field (`issue.path[0]`) and the message. */
  datatype Issue = Issue(field: string, message: string)

  /** zod's message for a value of the wrong type. */
  function TypeMismatch(expected: string, v: Value): string {
    "Expected " + expected + ", received " + TypeName(v)
  }

  /** A string check; `Email` defers to the (opaque) email predicate, `DatePattern` is `/^\d{4}-\d{2}-\d{2}$/`. */
  datatype StrCheck = MinLen(n: nat, msg: string) | MaxLen(n: nat, msg: string) | Email(msg: string) | DatePattern(msg: string)

  /** A number check; bounds are in hundredths, like `Num`. */
  datatype NumCheck = IsInt(msg: string) | Positive(msg: string) | AtMost(cents: int, msg: string) | AtLeast(cents: int, msg: string)

  predicate IsDigit(c: char) {
    '0' <= c <= '9'
  }

  /** Four digits, a dash, two digits, a dash, two digits, and nothing else. */
  predicate DateShaped(s: string) {
    && |s| == 10
    && s[4] == '-' && s[7] == '-'
    && forall i :: 0 <= i < 10 && i != 4 && i != 7 ==> IsDigit(s[i])
  }

  predicate StrHolds(c: StrCheck, s: string, isEmail: string -> bool) {
    match c
    case MinLen(n, _) => |s| >= n
    case MaxLen(n, _) => |s| <= n
    case Email(_) => isEmail(s)
    case DatePattern(_) => DateShaped(s)
  }

  predicate NumHolds(c: NumCheck, cents: int) {
    match c
    case IsInt(_) => cents % 100 == 0
    case Positive(_) => cents > 0
    case AtMost(m, _) => cents <= m
    case AtLeast(m, _) => cents >= m
  }

  /** All checks pass. */
  predicate AllStr(checks: seq<StrCheck>, s: string, isEmail: string -> bool) {
    |checks| == 0 || (StrHolds(checks[0], s, isEmail) && AllStr(checks[1..], s, isEmail))
  }

  predicate AllNum(checks: seq<NumCheck>, cents: int) {
    |checks| == 0 || (NumHolds(checks[0], cents) && AllNum(checks[1..], cents))
  }

  /** Two checks pass exactly when each does. */
  lemma AllNumPair(a: NumCheck, b: NumCheck, cents: int)
    ensures AllNum([a, b], cents) <==> NumHolds(a, cents) && NumHolds(b, cents)
  {
    assert [a, b][1..] == [b];
    assert [b][1..] == [];
    assert AllNum([a, b], cents) == (NumHolds(a, cents) && AllNum([b], cents));
    assert AllNum([b], cents) == (NumHolds(b, cents) && AllNum([], cents));
  }

  lemma AllNumOne(a: NumCheck, cents: int)
    ensures AllNum([a], cents) <==> NumHolds(a, cents)
  {
    assert [a][1..] == [];
  }

  lemma AllStrOne(a: StrCheck, s: string, isEmail: string -> bool)
    ensures AllStr([a], s, isEmail) <==> StrHolds(a, s, isEmail)
  {
    assert [a][1..] == [];
  }

  lemma AllStrPair(a: StrCheck, b: StrCheck, s: string, isEmail: string -> bool)
    ensures AllStr([a, b], s, isEmail) <==> StrHolds(a, s, isEmail) && StrHolds(b, s, isEmail)
  {
    assert [a, b][1..] == [b];
    assert [b][1..] == [];
    assert AllStr([a, b], s, isEmail) == (StrHolds(a, s, isEmail) && AllStr([b], s, isEmail));
    assert AllStr([b], s, isEmail) == (StrHolds(b, s, isEmail) && AllStr([], s, isEmail));
  }

  /** Every check runs; the failing ones report their messages in order. */
  function StrFailures(s: string, checks: seq<StrCheck>, isEmail: string -> bool): (r: seq<string>)
    ensures |r| <= |checks|
    ensures r == [] <==> AllStr(checks, s, isEmail)
    ensures forall i :: 0 <= i < |checks| && !StrHolds(checks[i], s, isEmail) ==> checks[i].msg in r
    ensures forall m :: m in r ==> exists i :: 0 <= i < |checks| && !StrHolds(checks[i], s, isEmail) && checks[i].msg == m
  {
    if |checks| == 0 then []
    else
      (if StrHolds(checks[0], s, isEmail) then [] else [checks[0].msg])
      + StrFailures(s, checks[1..], isEmail)
  }

  /** The failures of two runs of checks, one after the other, are those of the first run followed by those of the second. */
  lemma {:induction false} StrFailuresAppend(s: string, a: seq<StrCheck>, b: seq<StrCheck>, isEmail: string -> bool)
    ensures StrFailures(s, a + b, isEmail) == StrFailures(s, a, isEmail) + StrFailures(s, b, isEmail)
  {
    if |a| == 0 {
      assert a + b == b;
    } else {
      assert (a + b)[1..] == a[1..] + b;
      StrFailuresAppend(s, a[1..], b, isEmail);
    }
  }

  function NumFailures(cents: int, checks: seq<NumCheck>): (r: seq<string>)
    ensures |r| <= |checks|
    ensures r == [] <==> AllNum(checks, cents)
    ensures forall i :: 0 <= i < |checks| && !NumHolds(checks[i], cents) ==> checks[i].msg in r
    ensures forall m :: m in r ==> exists i :: 0 <= i < |checks| && !NumHolds(checks[i], cents) && checks[i].msg == m
  {
    if |checks| == 0 then []
    else
      (if NumHolds(checks[0], cents) then [] else [checks[0].msg])
      + NumFailures(cents, checks[1..])
  }

  /** Two number checks report their failures in check order. */
  lemma NumFailuresPair(a: NumCheck, b: NumCheck, cents: int)
    ensures NumFailures(cents, [a, b])
            == (if NumHolds(a, cents) then [] else [a.msg]) + (if NumHolds(b, cents) then [] else [b.msg])
  {
    assert [a, b][1..] == [b];
    assert [b][1..] == [];
    assert (if NumHolds(b, cents) then [] else [b.msg]) + [] == (if NumHolds(b, cents) then [] else [b.msg]);
  }

  /**
   * `z.string(params).check...`: a missing field or a non-string reports the
   * custom message, else zod's default; a string reports its failed checks.
   */
  function ZString(v: Option<Value>, custom: Option<string>, checks: seq<StrCheck>, isEmail: string -> bool)
    : (r: Result<string, seq<string>>)
    ensures r.Ok? <==> v.Some? && v.value.Str? && AllStr(checks, v.value.s, isEmail)
    ensures r.Ok? ==> r.value == v.value.s
    ensures r.Err? ==> |r.error| > 0
    ensures v.None? ==> r == Err([custom.GetOr("Required")])
    ensures r.Err? && v.Some? && v.value.Str? ==> r.error == StrFailures(v.value.s, checks, isEmail)
  {
    match v
    case None => Err([custom.GetOr("Required")])
    case Some(Str(s)) =>
      var failed := StrFailures(s, checks, isEmail);
      if failed == [] then Ok(s) else Err(failed)
    case Some(other) => Err([custom.GetOr(TypeMismatch("string", other))])
  }

  /** The email predicate of a schema that has no `.email()` check. */
  function NoEmailRule(s: string): bool {
    false
  }

  /** `z.string().min(lo, short).max(hi, long)`: a string whose length lies in `[lo, hi]`. */
  function Sized(v: Option<Value>, lo: nat, hi: nat, short: string, long: string): (r: Result<string, seq<string>>)
    ensures r.Ok? <==> v.Some? && v.value.Str? && lo <= |v.value.s| <= hi
    ensures r.Ok? ==> r.value == v.value.s
    ensures r.Err? ==> |r.error| > 0
    ensures v.None? ==> r == Err(["Required"])
    ensures v.Some? && v.value.Str? && |v.value.s| < lo <= hi ==> r == Err([short])
    ensures v.Some? && v.value.Str? && lo <= hi < |v.value.s| ==> r == Err([long])
  {
    var checks := [MinLen(lo, short), MaxLen(hi, long)];
    if v.Some? && v.value.Str? then
      var s := v.value.s;
      AllStrPair(checks[0], checks[1], s, NoEmailRule);
      assert checks[1..] == [MaxLen(hi, long)] && checks[1..][1..] == [];
      assert StrFailures(s, checks, NoEmailRule)
             == (if |s| >= lo then [] else [short]) + (if |s| <= hi then [] else [long]);
      assert [short] + [] == [short] && [] + [long] == [long];
      ZString(v, None, checks, NoEmailRule)
    else ZString(v, None, checks, NoEmailRule)
  }

  /** `z.number().check...` */
  function ZNumber(v: Option<Value>, checks: seq<NumCheck>): (r: Result<int, seq<string>>)
    ensures r.Ok? <==> v.Some? && v.value.Num? && AllNum(checks, v.value.cents)
    ensures r.Ok? ==> r.value == v.value.cents
    ensures r.Err? ==> |r.error| > 0
    ensures v.None? ==> r == Err(["Required"])
    ensures r.Err? && v.Some? && v.value.Num? ==> r.error == NumFailures(v.value.cents, checks)
    ensures v.Some? && !v.value.Num? ==> r == Err([TypeMismatch("number", v.value)])
  {
    match v
    case None => Err(["Required"])
    case Some(Num(c)) =>
      var failed := NumFailures(c, checks);
      if failed == [] then Ok(c) else Err(failed)
    case Some(other) => Err([TypeMismatch("number", other)])
  }

  /** `z.boolean()` */
  function ZBool(v: Option<Value>): (r: Result<bool, seq<string>>)
    ensures r.Ok? <==> v.Some? && v.value.Bool?
    ensures r.Ok? ==> r.value == v.value.b
    ensures r.Err? ==> |r.error| == 1
  {
    match v
    case None => Err(["Required"])
    case Some(Bool(b)) => Ok(b)
    case Some(other) => Err([TypeMismatch("boolean", other)])
  }

  /** `z.enum(options, { errorMap })`: every failure reports the error map's one message. */
  function ZEnum(v: Option<Value>, options: seq<string>, msg: string): (r: Result<string, seq<string>>)
    ensures r.Ok? <==> v.Some? && v.value.Str? && v.value.s in options
    ensures r.Ok? ==> r.value == v.value.s
    ensures r.Err? ==> r.error == [msg]
  {
    if v.Some? && v.value.Str? && v.value.s in options then Ok(v.value.s) else Err([msg])
  }

  /** `.optional()`: an absent field is accepted as absent, a present one must pass `inner`. */
  function Optional<T>(v: Option<Value>, inner: Result<T, seq<string>>): (r: Result<Option<T>, seq<string>>)
    ensures v.None? ==> r == Ok(None)
    ensures v.Some? ==> (r.Ok? <==> inner.Ok?)
    ensures v.Some? && inner.Ok? ==> r.value == Some(inner.value)
    ensures r.Err? ==> r.error == inner.error && v.Some?
  {
    if v.None? then Ok(None)
    else match inner
      case Ok(x) => Ok(Some(x))
      case Err(e) => Err(e)
  }

  /** `.default(d)`: an absent field becomes `d`, a present one must pass `inner`. */
  function Default<T>(v: Option<Value>, d: T, inner: Result<T, seq<string>>): (r: Result<T, seq<string>>)
    ensures v.None? ==> r == Ok(d)
    ensures v.Some? ==> r == inner
  {
    if v.None? then Ok(d) else inner
  }

  /** The messages a field reports: none when it parsed. */
  function Errors<T>(r: Result<T, seq<string>>): (e: seq<string>)
    requires r.Err? ==> |r.error| > 0
    ensures r.Ok? <==> e == []
  {
    if r.Ok? then [] else r.error
  }

  /** The issues of one field, each tagged with the field name. */
  function Tag(field: string, msgs: seq<string>): (issues: seq<Issue>)
    ensures |issues| == |msgs|
    ensures forall i :: 0 <= i < |issues| ==> issues[i] == Issue(field, msgs[i])
  {
    seq(|msgs|, i requires 0 <= i < |msgs| => Issue(field, msgs[i]))
  }

  /**
   * The controllers' rendering of a failed parse:
   * `issues.forEach(issue => { errors[issue.path[0]] = issue.message })`.
   */
  function ErrorMap(issues: seq<Issue>): (r: map<string, string>)
    ensures forall f :: f in r ==> exists i :: 0 <= i < |issues| && issues[i].field == f && issues[i].message == r[f]
  {
    if |issues| == 0 then map[]
    else
      var last := issues[|issues| - 1];
      ErrorMap(issues[..|issues| - 1])[last.field := last.message]
  }

  /** The map has an entry exactly for the fields that have an issue. */
  lemma {:induction false} ErrorMapFields(issues: seq<Issue>)
    ensures forall f :: f in ErrorMap(issues) <==> exists i :: 0 <= i < |issues| && issues[i].field == f
  {
    if |issues| > 0 {
      var n := |issues| - 1;
      ErrorMapFields(issues[..n]);
      forall f | (exists i :: 0 <= i < |issues| && issues[i].field == f)
        ensures f in ErrorMap(issues)
      {
        var i :| 0 <= i < |issues| && issues[i].field == f;
        if i < n { assert issues[..n][i].field == f; }
      }
    }
  }

  /** For each field the last issue about it supplies the message. */
  lemma {:induction false} ErrorMapLastWins(issues: seq<Issue>, i: nat)
    requires i < |issues|
    requires forall j :: i < j < |issues| ==> issues[j].field != issues[i].field
    ensures issues[i].field in ErrorMap(issues)
    ensures ErrorMap(issues)[issues[i].field] == issues[i].message
  {
    var n := |issues| - 1;
    if i < n {
      ErrorMapLastWins(issues[..n], i);
    }
  }
}
